=== FILE: README.md ===
# Order management back office: a verified model

This project models the business rules of a Laravel order management back
office. They sit between its JSON API and its database:

- the order aggregate: an order header plus its line items in the
  order/product pivot table, created, synced, soft-deleted and restored by
  the order repository;
- the order controller: route model binding, actor stamping, the
  "already in this status" guard and the aggregates `show` adds;
- the filtered, sorted and paged listings of orders, customers and
  products;
- the base repository, whose `$query` builder accumulates `where`,
  `whereIn`, `orderBy` and `with` clauses and is reset by `get`, `first`,
  `count` and `exists`;
- the order status catalogue: sort order, reorder, slug and sort-order
  defaults, and the name and slug existence checks;
- the six form requests: their rule arrays, error maps and getters;
- the browser-side code of the order create and edit pages, which keeps
  the item list, its total and the submit guards;
- the phone helpers and payloads of the customer create and edit pages.

Each table is a map from id to row, and a row carries a soft-delete mark.
Money is integer cents. Dates are day numbers counted from 1970-01-01, and
a timestamp is a day and a second. The acting user, the clock, random sku
draws, slugs and the email-address check are parameters.

Modules, one per file:

- `Common`, `Text`, `Ordering`, `Paging`, `Tables`, `Records` and
  `Persistence` are the shared values;
- `Persistence` holds the `Database` class whose tables the repositories
  update;
- `Validation` holds the rule building blocks;
- the other modules follow the source files: `OrderRepository`,
  `OrderController`, `BaseRepository`, `CustomerRepository`,
  `ProductRepository`, `StatusRepository`, `OrderRequest`,
  `OrderIndexRequest`, `CustomerRequest`, `CustomerIndexRequest`,
  `ProductRequest`, `ProductIndexRequest`, `OrderCart` and `CustomerForm`.

## Model

| member | source | states |
|---|---|---|
| OrderRepository.PivotDataKeys | app/Repositories/OrderRepository.php:83-91 | the pivot data has exactly one entry per distinct product id of the lines |
| OrderRepository.PivotDataLastWins | app/Repositories/OrderRepository.php:100-107 | when two lines name the same product, the entry comes from the later line: its quantity, its price as unit price, and quantity times price as line total |
| OrderRepository.PivotDataConsistent | app/Repositories/OrderRepository.php:82-91 | every entry stores line_total = quantity × unit_price |
| OrderRepository.BuildPivotData | app/Repositories/OrderRepository.php:81-91 | the foreach loop over the lines builds exactly PivotData(lines) |
| OrderRepository.AttachProducts | app/Repositories/OrderRepository.php:79-92 | the order's line items gain the pivot data of the lines; other orders and tables are unchanged |
| OrderRepository.SyncProducts | app/Repositories/OrderRepository.php:97-109 | the order's line items become exactly the pivot data of the lines: absent products are removed, present ones updated, new ones added; other orders are unchanged |
| OrderRepository.Create | app/Repositories/BaseRepository.php:37-40 | the header is stored under a fresh id with no line items |
| OrderRepository.CreateWithProducts | app/Repositories/OrderRepository.php:50-59 | a new order under a fresh id; its line items are the pivot data of the lines when the list is non-empty and empty otherwise |
| OrderRepository.Patched | app/Repositories/BaseRepository.php:42-46 | save() writes only a dirty order: the order stays as it was iff the patch changes no column, and otherwise it takes the patch and updated_at becomes the time of the write |
| OrderRepository.UnchangedPatchWritesNothing | app/Repositories/BaseRepository.php:42-46 | a patch that repeats every fillable column leaves the order, updated_at included, as it was |
| OrderRepository.ChangingPatchTouches | app/Repositories/BaseRepository.php:42-46 | a patch that changes the status sets it and refreshes updated_at, keeping created_at and created_by |
| OrderRepository.PatchedOrders | app/Repositories/BaseRepository.php:42-46 | the same ids, the order stays live and becomes Patched, and every other order is unchanged |
| OrderRepository.UpdateWithProducts | app/Repositories/OrderRepository.php:64-74 | a missing or trashed order fails with no change; otherwise the header is saved with the patch (updated_at refreshed when something changed), a non-empty list replaces the line items, and an empty list leaves them untouched |
| OrderRepository.SoftDelete | app/Repositories/OrderRepository.php:157-164 | fails with no change unless the order is live; otherwise stamps deleted_by only when an actor is given, marks the order deleted and refreshes its updated_at, keeping its line items |
| OrderRepository.Restore | app/Repositories/OrderRepository.php:169-172 | true iff the id names an order at all; clears the deleted mark and refreshes updated_at |
| Tables.TrashedIds | app/Repositories/OrderRepository.php:177-180 | getTrashed of orders, customers and products: exactly the soft-deleted rows, in the model's id order |
| OrderRepository.OrderedOrders | app/Repositories/OrderRepository.php:20-44 | every live order that matches all non-empty filters appears exactly once, and the list is sorted by sort_by in sort_direction |
| OrderRepository.FilteredOrders | app/Repositories/OrderRepository.php:20-45 | the page holds only matching live orders, in order (created_at desc by default); it has 15 rows per page by default and reports the full match count as its total |
| OrderRepository.GetByCustomer | app/Repositories/OrderRepository.php:114-117 | exactly the live orders of the customer, in the model's id order |
| OrderRepository.GetByStatus | app/Repositories/OrderRepository.php:122-125 | exactly the live orders in the status, in the model's id order |
| OrderRepository.GetByDateRange | app/Repositories/OrderRepository.php:130-136 | exactly the live orders created between the two days, both ends included |
| OrderController.HeaderOf | app/Http/Controllers/API/OrderController.php:58-64 | the created header names an existing customer and status, has a total of 0.01 to 999999.99, created_by is the actor and updated_by is null |
| OrderController.HeaderIgnoresUnfillable | app/Models/Order.php:27-35 | subtotal, tax, shipping, discount, currency, addresses and shipping method never reach the stored order |
| OrderController.Store | app/Http/Controllers/API/OrderController.php:56-71 | a failing request gets 422 and nothing is written; otherwise 201, with a new order stamped with the actor and holding the validated products as its line items |
| OrderController.PatchOf | app/Http/Controllers/API/OrderController.php:91-99 | the patch carries an existing customer; a status only when sent, and then an existing one; a total only when sent non-empty; updated_by from the actor |
| OrderController.Update | app/Http/Controllers/API/OrderController.php:91-106 | a missing or trashed order gets 404 and a failing request 422, with no change; otherwise the header is saved with the patch, updated_at refreshed when a column changed, and the line items become the validated products |
| OrderController.Destroy | app/Http/Controllers/API/OrderController.php:108-116 | a missing or trashed order gets 404; otherwise the order is soft-deleted, stamped with the actor, and its updated_at refreshed |
| OrderController.UpdateStatus | app/Http/Controllers/API/OrderController.php:121-144 | 404 for an order that is not live; 422 for a missing or unknown status_id; 400 'Order is already in this status' with no write when the current status has that id; otherwise that order is saved with only status_id and updated_by patched |
| OrderController.StatusChangeTouchesOnlyStatus | app/Http/Controllers/API/OrderController.php:123-136 | after a status change the order's data is the old data with only status_id, updated_by and updated_at replaced, or unchanged when both already held those values; a new status always refreshes updated_at |
| OrderController.RepeatedStatusChangeRejected | app/Http/Controllers/API/OrderController.php:126-134 | after a successful change to a status, the same change again is caught by the guard |
| OrderController.LoadedProducts | app/Http/Controllers/API/OrderController.php:78 | the products `show` loads are the linked products that are not soft-deleted, in the model's id order |
| OrderController.LineTotalsAreAmounts | app/Http/Controllers/API/OrderController.php:149-154 | with consistent pivot rows, the sum of line totals equals the sum of quantity times unit price |
| OrderController.QuantityCoversCount | app/Http/Controllers/API/OrderController.php:81-83 | when every quantity is at least 1, total_quantity is at least the number of line items summed |
| OrderController.Show | app/Http/Controllers/API/OrderController.php:76-89 | none for an order that is not live; otherwise calculated_total is the sum of quantity × unit price over the live linked products, product_count is their number (every line item when all linked products are live), and total_quantity is the sum of their quantities |
| OrderController.ForwardedFilters | app/Http/Controllers/API/OrderController.php:28-36 | on a valid query a sort column and a direction are always set, and the page size is 1 to 100; the forwarded record has no include_deleted field |
| OrderController.Index | app/Http/Controllers/API/OrderController.php:26-53 | a listing iff the query passes its rules, else 422; the page has the getters' per_page and page, holds only live orders that match the forwarded filters, and echoes getFilters |
| OrderController.IndexIgnoresIncludeDeleted | app/Http/Controllers/API/OrderController.php:28-38 | changing include_deleted does not change index's reply |
| OrderController.IndexDefaults | app/Http/Requests/OrderIndexRequest.php:97-132 | the empty query lists live orders newest first, 15 to a page |
| BaseRepository.Run | app/Repositories/BaseRepository.php:100-105 | exactly the live rows that pass every where and whereIn clause, each once, sorted by the first orderBy when there is one |
| BaseRepository.Fillable | app/Repositories/BaseRepository.php:37-46 | only mass-assignable attributes survive |
| BaseRepository.Updated | app/Repositories/BaseRepository.php:42-46 | the fillable attributes of the data overwrite, and every other attribute keeps its value |
| BaseRepository.Repository.constructor | app/Repositories/BaseRepository.php:16-20 | a new repository starts with an empty query; a model without soft deletes has no trashed row |
| BaseRepository.Repository.Where | app/Repositories/BaseRepository.php:59-63 | appends one equality clause and returns the same repository; the rows are unchanged |
| BaseRepository.Repository.WhereIn | app/Repositories/BaseRepository.php:65-69 | appends one membership clause and returns the same repository |
| BaseRepository.Repository.OrderBy | app/Repositories/BaseRepository.php:71-75 | appends one ordering clause and returns the same repository |
| BaseRepository.Repository.With | app/Repositories/BaseRepository.php:77-81 | appends one eager-load clause and returns the same repository |
| BaseRepository.Repository.Get | app/Repositories/BaseRepository.php:100-105 | returns Run of the accumulated query, then resets the query to empty |
| BaseRepository.Repository.First | app/Repositories/BaseRepository.php:110-115 | returns the first row of the accumulated query or none, then resets the query |
| BaseRepository.Repository.Count | app/Repositories/BaseRepository.php:120-125 | returns the number of rows of the accumulated query, then resets it |
| BaseRepository.Repository.Exists | app/Repositories/BaseRepository.php:130-135 | returns whether the accumulated query has a row, then resets it |
| BaseRepository.Repository.Paginate | app/Repositories/BaseRepository.php:54-57 | returns a page of the accumulated query and keeps the query; a per-page count of 0 falls back to 15 |
| BaseRepository.Repository.Find | app/Repositories/BaseRepository.php:27-30 | the row's attributes for a live id, none for an absent or trashed one |
| BaseRepository.Repository.Create | app/Repositories/BaseRepository.php:37-40 | inserts the fillable part of the data, Stamped with the time, under a fresh id |
| BaseRepository.Repository.Update | app/Repositories/BaseRepository.php:42-46 | fails with no change for an id findOrFail rejects; otherwise only that row changes, to the Saved form of Updated |
| BaseRepository.Repository.Delete | app/Repositories/BaseRepository.php:48-52 | fails with no change for an id findOrFail rejects; otherwise the row is marked deleted with updated_at refreshed, or removed when the model has no soft deletes |
| BaseRepository.UpdateTouchesOnlyItsRow | app/Repositories/BaseRepository.php:42-46 | an update changes only the given fillable columns of its row and its updated_at, and leaves every other row as it was |
| BaseRepository.UpdateTouchesIffDirty | app/Repositories/BaseRepository.php:42-46 | an update whose fillable values all equal the stored ones writes nothing; one that changes a column refreshes updated_at |
| BaseRepository.Saved | app/Repositories/BaseRepository.php:44-45 | save() of an unchanged model keeps the row; a dirty one keeps its new columns and gets updated_at set to the time, unless updated_at itself was changed |
| BaseRepository.Stamped | app/Repositories/BaseRepository.php:39 | create() adds created_at and updated_at set to the time, unless the data filled them |
| BaseRepository.FirstOrder | app/Repositories/BaseRepository.php:71-75 | the first orderBy clause of the query, or none when it has none |
| BaseRepository.WhereNarrows | app/Repositories/BaseRepository.php:59-69 | adding a where clause can only remove rows from the result |
| BaseRepository.WithAndOrderKeepRows | app/Repositories/BaseRepository.php:71-81 | with and orderBy do not change which rows the query selects |
| CustomerRepository.OrderedCustomers | app/Repositories/CustomerRepository.php:19-47 | it starts from a fresh query; every live customer that matches all non-empty filters appears once, sorted by sort_by in sort_direction |
| CustomerRepository.FilteredCustomers | app/Repositories/CustomerRepository.php:19-48 | the page holds only matching live customers, in order (created_at desc by default), 15 to a page by default, and reports the full match count |
| CustomerRepository.HasOrdersPartitions | app/Repositories/CustomerRepository.php:27-33 | has_orders true and false select disjoint sets of customers, and their union is what no has_orders flag selects |
| CustomerRepository.GetCustomersWithOrders | app/Repositories/CustomerRepository.php:53-56 | every live customer, because eager loading does not filter |
| CustomerRepository.GetCustomersWithoutOrders | app/Repositories/CustomerRepository.php:61-64 | exactly the live customers with no live order |
| CustomerRepository.GetCustomersByEmailDomain | app/Repositories/CustomerRepository.php:69-72 | exactly the live customers whose email ends with "@" and the domain, compared case-insensitively |
| CustomerRepository.DomainCustomersPassEmailFilter | app/Repositories/CustomerRepository.php:23-25 | a customer of a domain also passes the listing's email filter for "@" and that domain |
| CustomerRepository.GetCustomersByDateRange | app/Repositories/CustomerRepository.php:77-83 | exactly the live customers created between the two days, both ends included |
| CustomerRepository.SoftDelete | app/Repositories/CustomerRepository.php:88-95 | fails with no change unless the customer is live; otherwise stamps deleted_by only when an actor is given, marks the customer deleted and refreshes its updated_at |
| CustomerRepository.Restore | app/Repositories/CustomerRepository.php:100-103 | true iff the id names a customer at all; clears the deleted mark and refreshes updated_at |
| ProductRepository.OrderedProducts | app/Repositories/ProductRepository.php:20-33 | every live product with the filtered status appears once, sorted by sort_by in sort_direction |
| ProductRepository.FilteredProducts | app/Repositories/ProductRepository.php:20-34 | the page holds only matching live products, in order (created_at desc by default), 15 to a page by default |
| ProductRepository.PriceAscendingPage | app/Repositories/ProductRepository.php:28-33 | sorted by price ascending, prices on a page never decrease |
| ProductRepository.GeneratedSku | app/Repositories/ProductRepository.php:41-43 | the generated sku has 8 characters, each an uppercase letter or a digit |
| ProductRepository.WithDefaults | app/Repositories/ProductRepository.php:39-47 | a non-empty sku or status is kept; an empty sku becomes the generated one and an empty status becomes 'active'; nothing else changes |
| ProductRepository.CreateWithSku | app/Repositories/ProductRepository.php:39-50 | the defaulted product is stored under a fresh id; its status is the column default, because status is not fillable |
| ProductRepository.CreatedSkuNotEmpty | app/Repositories/ProductRepository.php:41-43 | a new product's sku is the given non-empty one or the generated one; without a non-empty sku the stored one is non-empty and meets the sku rule: 3 to 50 characters from A-Z, 0-9, '-' and '_' |
| ProductRepository.GetByPriceRange | app/Repositories/ProductRepository.php:56-62 | exactly the live products with minPrice ≤ price ≤ maxPrice |
| ProductRepository.GetByStatus | app/Repositories/ProductRepository.php:68-71 | exactly the live products with that status |
| ProductRepository.StatusFilterAgreesWithGetByStatus | app/Repositories/ProductRepository.php:24-26 | a non-empty status filter selects exactly the products getByStatus returns |
| ProductRepository.SoftDelete | app/Repositories/ProductRepository.php:77-84 | fails with no change unless the product is live; otherwise stamps deleted_by only when an actor is given, marks the product deleted and refreshes its updated_at |
| ProductRepository.Restore | app/Repositories/ProductRepository.php:89-92 | true iff the id names a product at all; clears the deleted mark and refreshes updated_at |
| StatusRepository.GetAllOrdered | app/Repositories/OrderStatusRepository.php:18-21 | every status exactly once, in ascending sort_order |
| StatusRepository.AllOrderedAscending | app/Models/OrderStatus.php:38-41 | along the catalogue listing, sort orders never decrease |
| StatusRepository.MaxSortOrder | app/Repositories/OrderStatusRepository.php:68 | the result is the sort order of a listed status and no listed status has a larger one |
| StatusRepository.GetNextSortOrder | app/Repositories/OrderStatusRepository.php:66-70 | 1 with no statuses; otherwise one more than the largest sort order |
| StatusRepository.UpdateSortOrder | app/Repositories/OrderStatusRepository.php:75-78 | fails with no change for an unknown id; otherwise only that status's sort_order changes |
| StatusRepository.Renumbered | app/Repositories/OrderStatusRepository.php:85-87 | renumbering keeps the set of statuses |
| StatusRepository.RenumberedSpec | app/Repositories/OrderStatusRepository.php:83-89 | with distinct ids, the i-th listed status gets sort_order i+1 and keeps every other column; unlisted statuses are untouched |
| StatusRepository.FirstMissing | app/Repositories/OrderStatusRepository.php:85-87 | the position of the first id that names no status, or the list length when every id names one |
| StatusRepository.Reorder | app/Repositories/OrderStatusRepository.php:83-89 | renumbers the ids in list order and returns true; on an unknown id it fails after every earlier id was renumbered |
| StatusRepository.GetUsedStatuses | app/Repositories/OrderStatusRepository.php:94-97 | exactly the statuses some live order points at |
| StatusRepository.GetUnusedStatuses | app/Repositories/OrderStatusRepository.php:102-105 | exactly the statuses no live order points at |
| StatusRepository.UsedUnusedPartition | app/Repositories/OrderStatusRepository.php:94-105 | used and unused statuses are disjoint, cover the catalogue, and their counts add up to its size |
| StatusRepository.WithDefaults | app/Repositories/OrderStatusRepository.php:110-121 | an empty slug becomes the slug of the name; an empty or 0 sort_order becomes getNextSortOrder (1 for an empty catalogue, else one above every existing sort order); a given sort order, the name, description and color are kept |
| StatusRepository.CreateWithSlug | app/Repositories/OrderStatusRepository.php:110-121 | the defaulted status is stored under a fresh id and nothing else changes |
| StatusRepository.MatchingIds | app/Repositories/OrderStatusRepository.php:128-134 | exactly the statuses that satisfy the condition and are not the excluded id |
| StatusRepository.AnyMatching | app/Repositories/OrderStatusRepository.php:126-149 | true iff some status other than the excluded one satisfies the condition |
| StatusRepository.NameExists | app/Repositories/OrderStatusRepository.php:126-135 | true iff some status other than excludeId has the name; a null or 0 excludeId excludes nothing |
| StatusRepository.SlugExists | app/Repositories/OrderStatusRepository.php:140-149 | true iff some status other than excludeId has the slug; a null or 0 excludeId excludes nothing |
| StatusRepository.NameExistsExcludesOnlyItself | app/Repositories/OrderStatusRepository.php:126-135 | a status does not clash with its own name when excluded, but a check that excludes nothing sees it |
| OrderRequest.LineErrors | app/Http/Requests/OrderRequest.php:100-118 | the failing fields of the product entries, with their positions |
| OrderRequest.Errors | app/Http/Requests/OrderRequest.php:15-119 | empty iff every rule holds; customer_id, status_id and total (required on create only), products, and each entry's quantity are keys iff their rules fail |
| OrderRequest.Outcome | app/Http/Requests/OrderRequest.php:326-334 | none iff the rules hold; otherwise 422, success false, no message, and the errors map |
| OrderRequest.LineOf | app/Http/Requests/OrderRequest.php:100-118 | a validated entry becomes the product id, the quantity (1 to 999) and the price in cents (1 to 9999999) |
| OrderRequest.ValidatedLines | app/Http/Requests/OrderRequest.php:94-118 | the validated products, one line per entry in request order |
| OrderRequest.CreateNeedsStatusAndTotal | app/Http/Requests/OrderRequest.php:26-37 | a passing create has a status and a total |
| OrderRequest.UpdateMayOmitStatusAndTotal | app/Http/Requests/OrderRequest.php:26-37 | a passing update still passes without status and total |
| OrderRequest.UpdateNeedsProducts | app/Http/Requests/OrderRequest.php:94-99 | an update without products fails, like a create |
| OrderRequest.AnyTotalInRangePasses | app/Http/Requests/OrderRequest.php:31-37 | every total from 0.01 to 999999.99 sent as a number passes on create and on update |
| OrderIndexRequest.SortColumnOf | app/Http/Requests/OrderIndexRequest.php:24 | exactly id, total, created_at and updated_at name a column |
| OrderIndexRequest.Errors | app/Http/Requests/OrderIndexRequest.php:17-30 | empty iff every rule holds; sort_by and sort_direction outside their lists, per_page outside 1 to 100, page below 1 and a reversed date range are keys; include_deleted never is |
| OrderIndexRequest.Outcome | app/Http/Requests/OrderIndexRequest.php:149-158 | none iff the rules hold; otherwise 422, success false, 'Validation failed.' and the errors map |
| OrderIndexRequest.GetSortByAsWritten | app/Http/Requests/OrderIndexRequest.php:97-100 | the value when given and the default when absent; fails exactly when sort_by arrives as null |
| OrderIndexRequest.GetSortDirectionAsWritten | app/Http/Requests/OrderIndexRequest.php:105-108 | the value when given and 'desc' when absent; fails exactly when sort_direction arrives as null |
| OrderIndexRequest.GetPerPageAsWritten | app/Http/Requests/OrderIndexRequest.php:113-116 | the value when given and 15 when absent; fails exactly when per_page arrives as null |
| OrderIndexRequest.GetPageAsWritten | app/Http/Requests/OrderIndexRequest.php:121-124 | the value when given and 1 when absent; fails exactly when page arrives as null |
| OrderIndexRequest.EmptyParamsBreakGetters | app/Http/Requests/OrderIndexRequest.php:24-27 | a query with sort_by, sort_direction, per_page and page sent empty passes the rules, yet none of the four getters as written can return a value, while the intended getters read created_at, desc, 15 and 1 |
| OrderIndexRequest.GettersWithinRules | app/Http/Requests/OrderIndexRequest.php:97-132 | on a passing query: sort_by names a column, sort_direction is asc or desc, per_page is 1 to 100, page is at least 1, and the customer and status ids exist |
| OrderIndexRequest.Defaults | app/Http/Requests/OrderIndexRequest.php:97-132 | the empty query reads created_at, desc, 15, page 1 and no trashed orders |
| OrderIndexRequest.GetFilters | app/Http/Requests/OrderIndexRequest.php:137-147 | customer_id, status_id, created_from and created_to are each echoed iff given; sort_by and sort_direction as the getters read them |
| OrderIndexRequest.FiltersIgnorePaging | app/Http/Requests/OrderIndexRequest.php:137-147 | the echoed filters do not depend on per_page, page or include_deleted |
| CustomerRequest.Errors | app/Http/Requests/CustomerRequest.php:23-101 | empty iff every rule holds; first name, email (with uniqueness), phone and date of birth are keys iff their rules fail |
| CustomerRequest.Outcome | app/Http/Requests/CustomerRequest.php:265-273 | none iff the rules hold; otherwise 422, success false, no message, and the errors map |
| CustomerRequest.ValidRequestHasNamesAndFreshEmail | app/Http/Requests/CustomerRequest.php:25-47 | a passing request has both names and an email that no other customer row holds, trashed rows included |
| CustomerRequest.OwnEmailOnlyPassesOnUpdate | app/Http/Requests/CustomerRequest.php:42-47 | keeping one's own email passes on update, while the same email on create fails |
| CustomerRequest.ValidPhoneLength | app/Http/Requests/CustomerRequest.php:48-54 | a valid phone has 10 to 17 characters and starts with '+' and a digit 1-9 |
| CustomerRequest.GetFullName | app/Http/Requests/CustomerRequest.php:172-175 | the first name, one space, the last name: 5 to 201 name characters |
| CustomerRequest.IsUpdateAsWritten | app/Http/Requests/CustomerRequest.php:252-255 | true iff the route binds a `customers` parameter |
| CustomerRequest.GetCustomerIdAsWritten | app/Http/Requests/CustomerRequest.php:260-263 | the key of the `customers` route parameter, none without it |
| CustomerRequest.UpdateRouteMissedAsWritten | app/Http/Requests/CustomerRequest.php:252-263 | on PUT customers/{customer}, isUpdate as written is false and getCustomerId as written differs from the id the rules ignore |
| CustomerRequest.IsUpdate | app/Http/Requests/CustomerRequest.php:252-255 | true iff the route binds `customer`, the parameter the rules read |
| CustomerRequest.GetCustomerId | app/Http/Requests/CustomerRequest.php:260-263 | the id the unique email rule ignores; present iff the request is an update |
| CustomerRequest.UpdateRouteRecognised | app/Http/Requests/CustomerRequest.php:25 | with the corrected reads, an update is recognised and names the customer whose own email is allowed |
| CustomerIndexRequest.SortColumnOf | app/Http/Requests/CustomerIndexRequest.php:22 | exactly the six allowed names denote a column |
| CustomerIndexRequest.Errors | app/Http/Requests/CustomerIndexRequest.php:15-28 | empty iff every rule holds; a non-email email filter, sort values outside their lists, per_page outside 1 to 100, page below 1 and a reversed date range are keys; has_orders and include_deleted never are |
| CustomerIndexRequest.Outcome | app/Http/Requests/CustomerIndexRequest.php:145-154 | none iff the rules hold; otherwise 422, 'Validation failed.' and the errors map |
| CustomerIndexRequest.GettersWithinRules | app/Http/Requests/CustomerIndexRequest.php:61-128 | on a passing query the getters lie inside the allow-lists and bounds, and the email filter is an email address |
| CustomerIndexRequest.GetFilters | app/Http/Requests/CustomerIndexRequest.php:133-143 | email and has_orders are echoed iff given; sort_by and sort_direction as the getters read them |
| CustomerIndexRequest.ForwardedFilters | app/Http/Controllers/API/CustomerController.php:27-35 | the listing gets the getters' email and has_orders, a sort column and direction, and a page size from 1 to 100 |
| CustomerIndexRequest.EmptyParamsBreakGetters | app/Http/Requests/CustomerIndexRequest.php:93-120 | a query with sort_by, sort_direction, per_page and page sent empty passes the rules, yet the four getters as written return null for it, while the intended getters read created_at, desc, 15 and 1 |
| CustomerIndexRequest.EmptyQueryListsEveryone | app/Http/Requests/CustomerIndexRequest.php:93-128 | the empty query passes, and the listing gets 15 to a page, created_at desc and no filter that excludes a customer |
| ProductRequest.Errors | app/Http/Requests/ProductRequest.php:15-72 | empty iff every rule holds; name and price (required on create only), the sku rule, and each tag position are keys iff their rules fail |
| ProductRequest.Outcome | app/Http/Requests/ProductRequest.php:198-206 | none iff the rules hold; otherwise 422, success false, no message, and the errors map |
| ProductRequest.CreateNeedsNameAndPrice | app/Http/Requests/ProductRequest.php:20-40 | a passing create has a name and a price; a passing update still passes without them |
| ProductRequest.EmptySkuOnlyOnCreate | app/Http/Requests/ProductRequest.php:41-48 | a create may leave the sku out or empty, but an update that sends it empty fails |
| ProductRequest.ValidSkuIsFree | app/Http/Requests/ProductRequest.php:47 | a valid request's sku, when given, is held by no other product row |
| ProductRequest.GetStatus | app/Http/Requests/ProductRequest.php:153-156 | the status as sent, or none when absent |
| ProductRequest.StatusNotValidated | app/Http/Requests/ProductRequest.php:15-71 | no status value changes the outcome |
| ProductIndexRequest.SortColumnOf | app/Http/Requests/ProductIndexRequest.php:19 | exactly the five allowed names denote a column |
| ProductIndexRequest.Errors | app/Http/Requests/ProductIndexRequest.php:15-25 | empty iff every rule holds; a status other than active or inactive, sort values outside their lists, per_page outside 1 to 100 and page below 1 are keys; include_deleted never is |
| ProductIndexRequest.Outcome | app/Http/Requests/ProductIndexRequest.php:108-117 | none iff the rules hold; otherwise 422, 'Validation failed.' and the errors map |
| ProductIndexRequest.GettersWithinRules | app/Http/Requests/ProductIndexRequest.php:59-94 | on a passing query the status is active or inactive, sort_by names a column, sort_direction is asc or desc, per_page is 1 to 100 and page at least 1 |
| ProductIndexRequest.GetFilters | app/Http/Requests/ProductIndexRequest.php:99-106 | status is echoed iff given; sort_by and sort_direction as the getters read them |
| ProductIndexRequest.ForwardedFilters | app/Http/Controllers/API/ProductController.php:27-32 | the listing gets the getter's status, a sort column and direction, and a page size from 1 to 100 |
| ProductIndexRequest.EmptyParamsBreakGetters | app/Http/Requests/ProductIndexRequest.php:59-86 | a query with sort_by, sort_direction, per_page and page sent empty passes the rules, yet the four getters as written return null for it, while the intended getters read created_at, desc, 15 and 1 |
| ProductIndexRequest.StatusQuerySelectsThatStatus | app/Http/Requests/ProductIndexRequest.php:18 | a valid status query lists exactly the products of that status |
| OrderCart.IndexOf | resources/views/orders/create.blade.php:132 | the position of the first entry of the product, or none when no entry has it |
| OrderCart.Removed | resources/views/orders/create.blade.php:151-152 | an entry remains iff it was there and belongs to another product |
| OrderCart.TotalUpdate | resources/views/orders/create.blade.php:190-192 | changing one entry changes the total by the difference of its line totals |
| OrderCart.AddedMerges | resources/views/orders/create.blade.php:132-134 | adding a listed product raises its quantity by the added amount, keeps length and order, and adds quantity × price to the total |
| OrderCart.AddedAppends | resources/views/orders/create.blade.php:135-142 | adding a new product appends its entry at the end and adds its line total |
| OrderCart.AddKeepsWellFormed | resources/views/orders/create.blade.php:123-142 | adding at least one of a product keeps one entry per product, each with a quantity of at least 1 |
| OrderCart.RemovedAbsent | resources/views/orders/create.blade.php:151-152 | removing an unlisted product changes nothing |
| OrderCart.RemovedSpec | resources/views/orders/create.blade.php:151-152 | in a well-formed list, removing a product takes out exactly its entry |
| OrderCart.RemovedTotal | resources/views/orders/create.blade.php:151-152 | ... and its line total |
| OrderCart.RemoveKeepsWellFormed | resources/views/orders/edit.blade.php:181-182 | removing keeps the list well formed |
| OrderCart.Cart.constructor | resources/views/orders/create.blade.php:161-167 | a fresh create page has no items and an empty total |
| OrderCart.Cart.Add | resources/views/orders/create.blade.php:118-149 | no product or a quantity below 1 changes nothing; otherwise the list becomes Added and the total is recomputed |
| OrderCart.Cart.Remove | resources/views/orders/edit.blade.php:181-182 | the list becomes Removed and the total is recomputed |
| OrderCart.Cart.LoadOrder | resources/views/orders/edit.blade.php:129-139 | one entry per linked product, with price from pivot.unit_price and quantity from pivot.quantity, and the total recomputed |
| OrderCart.LoadedWellFormed | resources/views/orders/edit.blade.php:129-139 | a loaded list is well formed iff the linked products are distinct and each has a quantity of at least 1 |
| OrderCart.PayloadLines | resources/views/orders/create.blade.php:230-240 | one {product_id, quantity, price} per entry, same length and order |
| OrderCart.SubmitCreate | resources/views/orders/create.blade.php:210-240 | refuses on a missing customer, a missing status, a total ≤ 0 or an empty list, checked in that order; otherwise sends the whole list |
| OrderCart.FreshCreatePageRefuses | resources/views/orders/create.blade.php:161-167 | a fresh create page refuses to send |
| OrderCart.SubmitEdit | resources/views/orders/edit.blade.php:230-248 | an empty list refuses; otherwise the body carries the whole current list |
| OrderCart.RepositoryLines | app/Repositories/OrderRepository.php:81-91 | the lines the repository receives, one per payload entry |
| OrderCart.PayloadBecomesLineItems | resources/views/orders/edit.blade.php:235-248 | a well-formed list becomes exactly the stored line items: one pivot row per entry with its quantity, price and line total, and no other product |
| OrderCart.TotalIsSumOfLineTotals | resources/views/orders/create.blade.php:190-192 | the page's total equals the sum of the line totals the server stores for the sent list |
| CustomerForm.ValidatePhoneNumber | resources/views/customers/create.blade.php:145-149 | the empty phone passes; any other passes iff it is '+', a digit 1-9 and at most 15 more digits |
| CustomerForm.KeepPhoneChars | resources/views/customers/create.blade.php:155 | only digits and '+' remain, and the result is no longer than the input |
| CustomerForm.KeepPhoneCharsKeepsDigits | resources/views/customers/create.blade.php:155 | the digits survive in their order |
| CustomerForm.KeepPhoneCharsFixes | resources/views/customers/create.blade.php:155 | a string of digits and '+' is left as it is |
| CustomerForm.CleanPhoneNumberSpec | resources/views/customers/create.blade.php:152-161 | the cleaned phone holds only digits and '+', starts with '+' unless empty, keeps the input's digits in order, and is empty iff the input has no digit and no '+' |
| CustomerForm.CleanPhoneNumberIdempotent | resources/views/customers/create.blade.php:152-161 | cleaning twice equals cleaning once |
| CustomerForm.ValidPhoneSurvivesCleaning | resources/views/customers/edit.blade.php:126-142 | a phone that passes the check is left unchanged by the cleaner |
| CustomerForm.CleaningKeepsLeadingZero | resources/views/customers/create.blade.php:147-159 | "012" cleans to "+012", which fails the check |
| CustomerForm.CleaningKeepsInteriorPlus | resources/views/customers/create.blade.php:147-159 | "1+2" cleans to "+1+2", which fails the check |
| CustomerForm.LiveFilter | resources/views/customers/edit.blade.php:153-156 | the filtered value holds only digits and '+' |
| CustomerForm.CleanAfterFilter | resources/views/customers/edit.blade.php:136-156 | cleaning the filtered value equals cleaning the original |
| CustomerForm.LiveError | resources/views/customers/edit.blade.php:159-166 | the error shows iff the value before filtering is non-empty and fails the check |
| CustomerForm.ErrorShownForFilteredValue | resources/views/customers/edit.blade.php:153-166 | typing "a" shows the error although the filtered field is empty and valid |
| CustomerForm.CleanedPhoneServerRule | app/Http/Requests/CustomerRequest.php:48-54 | a cleaned phone that the page accepts and that has at least 10 characters, or is empty, passes the server's phone rule |
| CustomerForm.CreatePayload | resources/views/customers/create.blade.php:111-117 | the payload has the cleaned phone, the address or '' when the field is missing or empty, and the other fields as typed |
| CustomerForm.EditPayload | resources/views/customers/edit.blade.php:174-180 | the payload has the cleaned phone and the other fields as shown |
| CustomerForm.AddressShown | resources/views/customers/edit.blade.php:119 | a null address shows as '' |
| CustomerForm.UnchangedAddressRoundTrip | resources/views/customers/edit.blade.php:119-180 | saving unchanged sends back the stored address, and a null one is read as null again |
| Validation.Normalized | app/Http/Requests/OrderRequest.php:72-76 | absence is kept, and a given value is never the empty string |
| Validation.AmountPassesMoneyRule | app/Http/Requests/OrderRequest.php:111-117 | any amount in the bounds, sent as a number, passes the money rule |
| Validation.Verdict | app/Http/Requests/OrderRequest.php:326-334 | no response iff the errors map is empty; otherwise 422, success false, the given message and exactly that map |
| Validation.InputOrDefault | app/Http/Requests/OrderIndexRequest.php:97-124 | the value when given and the default when absent or null; it agrees with the getter as written except on a null |
| Validation.InputOrDefaultAsWritten | app/Http/Requests/OrderIndexRequest.php:97-100 | fails exactly when the value arrives as null |
| Text.NumberTextRoundTrip | app/Http/Requests/OrderRequest.php:31-37 | an amount printed as a number passes the two-decimal pattern and reads back as the same cents |
| Text.FixedTextRoundTrip | resources/views/orders/create.blade.php:190-192 | the toFixed(2) text of an amount passes the pattern and reads back as the same cents |
| Text.Upper | app/Repositories/ProductRepository.php:42 | the same length, each character upper-cased |
| Tables.SortedSelect | app/Repositories/OrderRepository.php:22-44 | every live row that satisfies the condition appears once, and the rows come in column order |
| Tables.Inserted | app/Repositories/BaseRepository.php:37-40 | a new live row under an id not in use, the other rows unchanged |
| Tables.SoftDeleteHides | app/Repositories/OrderRepository.php:157-164 | a soft delete hides exactly the deleted row and changes no other row |
| Tables.RestoreUndoesSoftDelete | app/Repositories/OrderRepository.php:169-172 | restoring right after a soft delete gives the row back, apart from the deleted_by stamp and the refreshed updated_at |
| Tables.SoftDeleteMovesBetweenListings | app/Repositories/OrderRepository.php:157-180 | a soft-deleted row leaves the default listing and enters the trashed listing; restoring moves it back |
| Paging.Paginate | app/Repositories/OrderRepository.php:44 | the page is the slice of the ordered result for that page, at most per_page long; it reports per_page, the total, and from and to |
| Paging.RowOnItsPage | app/Repositories/OrderRepository.php:44 | row k of the result is item k mod perPage of page k div perPage + 1 |
| Paging.LastPageHoldsRemainder | app/Repositories/OrderRepository.php:44 | every page but the last is full, and the last holds the remainder |
| Paging.PastLastPageIsEmpty | app/Repositories/OrderRepository.php:44 | a page past the last is empty but still reports the totals |
| Ordering.SortCorrect | app/Repositories/OrderRepository.php:39-42 | sorting yields an ordered permutation of its input |

## Left out

- Transactions and concurrency: the code opens no transaction. The model
  writes the header and the line items one after the other, and claims no
  atomicity.
- The framework's `exists` and `unique` checks are sets and maps of column
  values passed in. The `email` format is the predicate parameter
  `isEmail`, `Str::random` is a random string parameter, and `Str::slug`
  is the slug parameter `slugOfName`.
- `date_of_birth` (`before:today`) compares with `today`, a parameter; the
  clock is not modelled. The `created_at` and `updated_at` of orders,
  customers, products and the generic repository's rows are timestamps
  passed in; order statuses and order line items carry none (see the
  lines below).
- `before_or_equal:created_to` and `after_or_equal:created_from` with only
  one of the two dates given: the model lets the rule pass. Date parsing
  is not modelled: dates are day numbers.
- The `boolean` rule's accepted spellings ('1', 'true', 'on', ...) are
  not modelled: the field is a Dafny bool. `weight` is a real number.
- PHP's `$` before a trailing newline, and the framework's trimming of
  strings, are not modelled: a string reaches the rules as sent, and only
  the empty string becomes null.
- Floating point: prices, totals and line totals are integer cents. The
  rules allow at most two decimals, and the pages' float arithmetic
  (`parseFloat`, `price * quantity`) is taken as exact.
- OrderCart.Cart.Add: quantities are integers. The page's `parseInt` of
  an empty or non-numeric field gives NaN, which passes its `quantity < 1`
  guard; that case is not modelled.
- `LIKE` compares ASCII case-insensitively, as the default collations do.
  Other collations and the `%` and `_` wildcards inside a filter value are
  not modelled.
- Reads without an orderBy (getTrashed, getByCustomer, getByStatus,
  getByDateRange, getByPriceRange, the customer reads by orders, email
  domain and date, getUsedStatuses, getUnusedStatuses and the products
  `show` loads) return their rows in id order in the model, while the
  database leaves their order open. Only the set of rows is promised by
  the source.
- OrderRepository.AttachProducts: the pivot rows' `created_at` and
  `updated_at`, which attachProducts sets to now() and the relation's
  `withTimestamps()` maintains, are not modelled; a line item is its
  quantity, unit price and line total.
- OrderRepository.SyncProducts: the pivot `updated_at` that syncProducts
  writes into every listed row, and the `created_at` that
  `withTimestamps()` sets on newly attached rows, are not modelled.
- Ties in a sort column: among rows with equal keys the model's sort
  keeps id order, while the database leaves the order of ties open.
- BaseRepository.Run: only the first orderBy clause orders the result;
  a later orderBy, which SQL uses to break ties of the earlier ones, is
  kept in the query but ignored. No repository method of the core chains
  two orderBy calls.
- OrderController.UpdateStatus: the guard compares ids as integers. The
  strict `===` between the loaded id and the validated input is taken to
  compare two integers.
- OrderController.Index: reads the query through the getters as their
  `nullable` rules intend (an empty sort_by, sort_direction, per_page or
  page reads as the default). As written, such a query fails in the
  getter instead; see the first finding.
- CustomerIndexRequest.GetFilters: echoes sort_by and sort_direction as
  the intended getters read them. As written, `?sort_by=` or
  `?sort_direction=` fails in the getter instead (see
  CustomerIndexRequest.EmptyParamsBreakGetters and the first finding).
- CustomerIndexRequest.ForwardedFilters: forwards the intended getters'
  values. As written, `GET /customers?per_page=` (or an empty sort_by,
  sort_direction or page) fails in the getter before the listing runs.
- ProductIndexRequest.GetFilters: echoes sort_by and sort_direction as
  the intended getters read them. As written, `?sort_by=` or
  `?sort_direction=` fails in the getter instead (see
  ProductIndexRequest.EmptyParamsBreakGetters and the first finding).
- ProductIndexRequest.ForwardedFilters: forwards the intended getters'
  values. As written, `GET /products?per_page=` (or an empty sort_by,
  sort_direction or page) fails in the getter before the listing runs.
- The framework paginator is replaced by the model's own slicing
  (`Paging`). A `per_page` below 1 never reaches the repositories, because
  the index requests reject it; BaseRepository.Repository.Paginate maps 0
  to the model's 15.
- StatusRepository.UpdateSortOrder and StatusRepository.Reorder: order
  status rows carry no `created_at` or `updated_at` in the model, so these
  writes do not refresh `updated_at`; statuses are only ever listed by
  sort_order.
- Eager loading (`with`, `load`) and JSON shapes: responses are modelled
  as the status code, the success flag, the message, and the ids or
  figures they carry.
- OrderRepository `getWithProducts` and `getWithAllRelations`, and
  BaseRepository `all` and `getQuery`, are not modelled. They only load
  relations or expose the builder.
- OrderStatusRepository `getBySlug`, `getByName`, `getWithOrdersCount`,
  `getByColor` and `getWithOrders` are not modelled. They are single
  reads outside the status catalogue rules.
- The request getters that only return an input (getName, getPhone, ...)
  are not modelled separately: the validated value is the input itself.
- ProductRepository.CreateWithSku: the stored status is the column
  default `columnDefault`, whatever status was filled in, because `status`
  is not in the model's fillable list.
- The customer and product controllers are modelled only as far as the
  filters their index actions forward.
- Page code is not modelled: DOM updates, messages, axios calls,
  interceptors, redirects, and the option lists the pages load.
- Dashboard, authentication, rate limiting, the user repository, routes
  and service providers are not modelled.

## Findings

| source | as written | input that shows it | evidently intended | confidence | as-written member | corrected member |
|---|---|---|---|---|---|---|
| app/Http/Requests/OrderIndexRequest.php:97-100 | `getSortBy(): string` returns `input('sort_by', 'created_at')`. A key that is present with an empty value arrives as null, passes the `nullable` rule, and then violates the return type. The same holds for `getSortDirection(): string` (lines 105-108), and for `getPerPage(): int` and `getPage(): int` (lines 113-124), whose `per_page` and `page` rules are `nullable` too. The customer and product index requests have the same getters (CustomerIndexRequest.php:93-120, ProductIndexRequest.php:59-86); their EmptyParamsBreakGetters lemmas show the same failure. | `GET /orders?sort_by=`, `GET /orders?per_page=` | the `nullable` rule means "use the default", so an empty sort_by reads as 'created_at', an empty per_page as 15 and an empty page as 1 | medium, not executed | OrderIndexRequest.EmptyParamsBreakGetters | OrderIndexRequest.GettersWithinRules |
| app/Http/Requests/CustomerRequest.php:252-263 | `isUpdate` and `getCustomerId` read `route('customers')`, but the resource route binds `customer`. The rules read `route('customer')` at line 25. | `PUT /customers/5` | read `route('customer')`, so an update is recognised and names customer 5 | high, not executed | CustomerRequest.UpdateRouteMissedAsWritten | CustomerRequest.UpdateRouteRecognised |

=== FILE: base_repository.dfy ===
/** The base repository every model repository extends: the model's rows
    as attribute maps, the `$query` builder that where, whereIn, orderBy
    and with accumulate and that get, first, count and exists run and
    then reset, and the find / update / delete helpers. */
module BaseRepository {
  import opened Common
  import opened Ordering
  import opened Paging
  import opened Tables

  /** A row: column name to value. */
  type Attrs<V> = map<string, V>

  /** One call recorded on the builder. `with` loads relations and does
      not select or order rows. */
  datatype Clause<V> =
    | Where(column: string, value: V)
    | WhereIn(column: string, values: seq<V>)
    | OrderBy(column: string, dir: Direction)
    | With(relations: seq<string>)

  /** The row passes a `where` or `whereIn` clause; an absent column is
      null and equals no value. */
  predicate Passes<V(==)>(c: Clause<V>, row: Attrs<V>)
  {
    match c
    case Where(column, value) => column in row && row[column] == value
    case WhereIn(column, values) => column in row && row[column] in values
    case _ => true
  }

  predicate PassesAll<V(==)>(query: seq<Clause<V>>, row: Attrs<V>)
  {
    forall i :: 0 <= i < |query| ==> Passes(query[i], row)
  }

  /** The first `orderBy` clause of the query, which decides the order. */
  function FirstOrder<V>(query: seq<Clause<V>>): (c: Option<Clause<V>>)
    ensures c.Some? ==> c.value.OrderBy? && c.value in query
    ensures c.Some? ==> exists k :: 0 <= k < |query| && query[k] == c.value
                                    && forall j :: 0 <= j < k ==> !query[j].OrderBy?
    ensures c.None? ==> forall i :: 0 <= i < |query| ==> !query[i].OrderBy?
  {
    if query == [] then None
    else if query[0].OrderBy? then Some(query[0])
    else FirstOrder(query[1..])
  }

  /** The sort key of a row under `orderBy(column)`; an absent column
      sorts as the empty key. */
  function ColumnKey<V>(column: string, keyOf: V -> Key): (nat, Attrs<V>) -> Key
  {
    (_: nat, row: Attrs<V>) => if column in row then keyOf(row[column]) else []
  }

  /** The rows the query selects, in the order its first `orderBy`
      gives (id order without one). */
  function Run<V(==)>(rows: Table<Attrs<V>>, query: seq<Clause<V>>, keyOf: V -> Key): (ids: seq<nat>)
    ensures forall id :: id in ids <==> Live(rows, id) && PassesAll(query, rows[id].data)
    ensures forall id :: multiset(ids)[id] <= 1
    ensures var c := FirstOrder(query);
            c.Some? ==> SortedBy(ids, RowKey(rows, ColumnKey(c.value.column, keyOf)), c.value.dir)
  {
    var c := FirstOrder(query);
    var column := if c.Some? then ColumnKey(c.value.column, keyOf) else (id: nat, _: Attrs<V>) => IntKey(id);
    var dir := if c.Some? then c.value.dir else Asc;
    SortedSelect(rows, (_: nat, row: Attrs<V>) => PassesAll(query, row), column, dir)
  }

  /** A query returns rows exactly when some live row passes its clauses. */
  lemma RunFindsAMatch<V>(rows: Table<Attrs<V>>, query: seq<Clause<V>>, keyOf: V -> Key)
    ensures Run(rows, query, keyOf) != [] <==> exists id :: Live(rows, id) && PassesAll(query, rows[id].data)
  {
    var ids := Run(rows, query, keyOf);
    if ids != [] {
      assert ids[0] in ids;
    } else {
      forall id ensures !(Live(rows, id) && PassesAll(query, rows[id].data)) {
        assert id !in ids;
      }
    }
  }

  /** The attributes of a mass assignment that the model lets through. */
  function Fillable<V>(data: Attrs<V>, fillable: set<string>): (kept: Attrs<V>)
    ensures kept.Keys == data.Keys * fillable
    ensures forall k :: k in kept ==> kept[k] == data[k]
  {
    map k | k in data && k in fillable :: data[k]
  }

  /** `$model->update($data)`: the fillable attributes of `data`
      overwrite, every other attribute keeps its value. */
  function Updated<V>(row: Attrs<V>, data: Attrs<V>, fillable: set<string>): (r: Attrs<V>)
    ensures r.Keys == row.Keys + (data.Keys * fillable)
    ensures forall k :: k in data && k in fillable ==> r[k] == data[k]
    ensures forall k :: k in row && !(k in data && k in fillable) ==> r[k] == row[k]
  {
    row + Fillable(data, fillable)
  }

  /** The timestamp columns Eloquent maintains. */
  const CreatedAt := "created_at"
  const UpdatedAt := "updated_at"

  /** `save()` of an existing row after a fill that turned `before` into
      `after`: nothing is written when no attribute changed; otherwise
      `updated_at` takes `now`, unless the fill itself changed it. */
  function Saved<V(==)>(before: Attrs<V>, after: Attrs<V>, now: V): (saved: Attrs<V>)
    ensures after == before ==> saved == before
    ensures after != before ==> saved.Keys == after.Keys + {UpdatedAt}
    ensures forall c :: c in after && c != UpdatedAt ==> saved[c] == after[c]
    ensures after != before && UpdatedAt in after && UpdatedAt in before && after[UpdatedAt] != before[UpdatedAt] ==>
              saved[UpdatedAt] == after[UpdatedAt]
    ensures after != before && (UpdatedAt !in after || (UpdatedAt in before && after[UpdatedAt] == before[UpdatedAt])) ==>
              saved[UpdatedAt] == now
  {
    if after == before then before
    else if UpdatedAt in after && (UpdatedAt !in before || after[UpdatedAt] != before[UpdatedAt]) then after
    else after[UpdatedAt := now]
  }

  /** The attributes `create` inserts: the filled ones, with `created_at`
      and `updated_at` set to `now` unless the fill set them. */
  function Stamped<V>(filled: Attrs<V>, now: V): (row: Attrs<V>)
    ensures row.Keys == filled.Keys + {CreatedAt, UpdatedAt}
    ensures forall c :: c in filled ==> row[c] == filled[c]
    ensures CreatedAt !in filled ==> row[CreatedAt] == now
    ensures UpdatedAt !in filled ==> row[UpdatedAt] == now
  {
    var withUpdated := if UpdatedAt in filled then filled else filled[UpdatedAt := now];
    if CreatedAt in withUpdated then withUpdated else withUpdated[CreatedAt := now]
  }

  /** What a soft delete at time `now` does to the row's attributes. */
  function AttrsTouch<V>(now: V): Attrs<V> -> Attrs<V>
  {
    (row: Attrs<V>) => row[UpdatedAt := now]
  }

  /** A repository over one model's table. `keyOf` orders column values,
      `fillable` is the model's mass-assignable columns and `softDeletes`
      says whether the model uses soft deletes. */
  class Repository<V(==)> {
    var rows: Table<Attrs<V>>
    var query: seq<Clause<V>>
    const keyOf: V -> Key
    const fillable: set<string>
    const softDeletes: bool

    /** Without soft deletes no row is ever marked deleted. */
    predicate Valid()
      reads this
    {
      !softDeletes ==> forall id :: id in rows ==> !rows[id].trashed
    }

    /** A new repository starts with an empty query. */
    constructor(rows: Table<Attrs<V>>, keyOf: V -> Key, fillable: set<string>, softDeletes: bool)
      requires !softDeletes ==> forall id :: id in rows ==> !rows[id].trashed
      ensures this.rows == rows && query == []
      ensures this.keyOf == keyOf && this.fillable == fillable && this.softDeletes == softDeletes
      ensures Valid()
    {
      this.rows := rows;
      this.query := [];
      this.keyOf := keyOf;
      this.fillable := fillable;
      this.softDeletes := softDeletes;
    }

    /** where: records the clause and returns the same repository. */
    method Where(column: string, value: V) returns (self: Repository<V>)
      modifies this
      ensures self == this
      ensures query == old(query) + [Clause.Where(column, value)] && rows == old(rows)
    {
      query := query + [Clause.Where(column, value)];
      self := this;
    }

    method WhereIn(column: string, values: seq<V>) returns (self: Repository<V>)
      modifies this
      ensures self == this
      ensures query == old(query) + [Clause.WhereIn(column, values)] && rows == old(rows)
    {
      query := query + [Clause.WhereIn(column, values)];
      self := this;
    }

    method OrderBy(column: string, dir: Direction) returns (self: Repository<V>)
      modifies this
      ensures self == this
      ensures query == old(query) + [Clause.OrderBy(column, dir)] && rows == old(rows)
    {
      query := query + [Clause.OrderBy(column, dir)];
      self := this;
    }

    method With(relations: seq<string>) returns (self: Repository<V>)
      modifies this
      ensures self == this
      ensures query == old(query) + [Clause.With(relations)] && rows == old(rows)
    {
      query := query + [Clause.With(relations)];
      self := this;
    }

    /** get: the rows of the accumulated query; the query is reset. */
    method Get() returns (ids: seq<nat>)
      modifies this
      ensures ids == Run(rows, old(query), keyOf)
      ensures query == [] && rows == old(rows)
    {
      ids := Run(rows, query, keyOf);
      query := [];
    }

    /** first: the first row of the accumulated query, if any; the query
        is reset. */
    method First() returns (id: Option<nat>)
      modifies this
      ensures var ids := Run(rows, old(query), keyOf);
              id == if ids == [] then None else Some(ids[0])
      ensures query == [] && rows == old(rows)
    {
      var ids := Run(rows, query, keyOf);
      id := if ids == [] then None else Some(ids[0]);
      query := [];
    }

    /** count: the number of rows of the accumulated query; the query is
        reset. */
    method Count() returns (n: nat)
      modifies this
      ensures n == |Run(rows, old(query), keyOf)|
      ensures query == [] && rows == old(rows)
    {
      n := |Run(rows, query, keyOf)|;
      query := [];
    }

    /** exists: whether the accumulated query has a row; the query is
        reset. */
    method Exists() returns (b: bool)
      modifies this
      ensures b <==> exists id :: Live(rows, id) && PassesAll(old(query), rows[id].data)
      ensures query == [] && rows == old(rows)
    {
      var q := query;
      b := Run(rows, q, keyOf) != [];
      query := [];
      RunFindsAMatch(rows, q, keyOf);
    }

    /** paginate: page `page` of the accumulated query; a per-page count
        of 0 falls back to the model's 15. The query is kept. */
    method Paginate(perPage: nat, page: nat) returns (p: Page<nat>)
      requires page >= 1
      ensures p == Paging.Paginate(Run(rows, query, keyOf), if perPage == 0 then 15 else perPage, page)
      ensures p.perPage >= 1
    {
      p := Paging.Paginate(Run(rows, query, keyOf), if perPage == 0 then 15 else perPage, page);
    }

    /** find: the row's attributes, or null for an absent or trashed id. */
    function Find(id: nat): (row: Option<Attrs<V>>)
      reads this
      ensures row.Some? <==> Live(rows, id)
      ensures row.Some? ==> row.value == rows[id].data
    {
      if Live(rows, id) then Some(rows[id].data) else None
    }

    /** create: inserts the fillable part of `data` under a new id, with
        the timestamps of time `now`. */
    method Create(data: Attrs<V>, now: V) returns (id: nat)
      requires Valid()
      modifies this
      ensures Valid()
      ensures id !in old(rows) && rows == old(rows)[id := Row(Stamped(Fillable(data, fillable), now), None, false)]
      ensures query == old(query)
    {
      var inserted := Inserted(rows, Stamped(Fillable(data, fillable), now));
      rows, id := inserted.0, inserted.1;
    }

    /** update: findOrFail, then the fillable attributes of `data`
        overwrite and the row is saved at time `now`. An absent or trashed
        id fails and nothing changes. */
    method Update(id: nat, data: Attrs<V>, now: V) returns (ok: bool)
      requires Valid()
      modifies this
      ensures Valid()
      ensures ok == Live(old(rows), id)
      ensures !ok ==> rows == old(rows)
      ensures ok ==> rows == old(rows)[id := old(rows)[id].(data := Saved(old(rows)[id].data, Updated(old(rows)[id].data, data, fillable), now))]
      ensures query == old(query)
    {
      ok := Live(rows, id);
      if ok {
        var before := rows[id].data;
        rows := rows[id := rows[id].(data := Saved(before, Updated(before, data, fillable), now))];
      }
    }

    /** delete: findOrFail, then a soft delete at time `now` (the row is
        marked and its `updated_at` refreshed) or, without soft deletes,
        the row is removed. */
    method Delete(id: nat, now: V) returns (ok: bool)
      requires Valid()
      modifies this
      ensures Valid()
      ensures ok == Live(old(rows), id)
      ensures !ok ==> rows == old(rows)
      ensures ok && softDeletes ==> rows == SoftDeleted(old(rows), id, None, AttrsTouch(now))
      ensures ok && softDeletes ==> rows[id].trashed && rows[id].data == old(rows)[id].data[UpdatedAt := now]
      ensures ok && !softDeletes ==> rows == old(rows) - {id}
      ensures query == old(query)
    {
      ok := Live(rows, id);
      if ok {
        if softDeletes {
          rows := SoftDeleted(rows, id, None, AttrsTouch(now));
        } else {
          rows := rows - {id};
        }
      }
    }
  }

  /** An update changes only the given fillable columns of its row, and
      `updated_at` when it writes, and leaves every other row as it
      was. */
  lemma UpdateTouchesOnlyItsRow<V>(rows: Table<Attrs<V>>, id: nat, data: Attrs<V>, fillable: set<string>, now: V,
                                   other: nat, column: string)
    requires Live(rows, id) && other in rows
    requires other != id || (column in rows[id].data && !(column in data && column in fillable))
    ensures var before := rows[id].data;
            var rows' := rows[id := rows[id].(data := Saved(before, Updated(before, data, fillable), now))];
            other in rows' && (other != id ==> rows'[other] == rows[other])
            && (other == id && column != UpdatedAt ==> column in rows'[id].data && rows'[id].data[column] == rows[id].data[column])
  {
  }

  /** An update whose fillable attributes all equal the row's writes
      nothing, so `updated_at` keeps its value; one that changes an
      attribute other than `updated_at` sets `updated_at` to `now`. */
  lemma UpdateTouchesIffDirty<V>(row: Attrs<V>, data: Attrs<V>, fillable: set<string>, now: V)
    requires UpdatedAt !in fillable
    ensures (forall c :: c in data && c in fillable ==> c in row && row[c] == data[c]) ==>
              Saved(row, Updated(row, data, fillable), now) == row
    ensures (exists c :: c in data && c in fillable && (c !in row || row[c] != data[c])) ==>
              Saved(row, Updated(row, data, fillable), now)[UpdatedAt] == now
  {
    var after := Updated(row, data, fillable);
    if forall c :: c in data && c in fillable ==> c in row && row[c] == data[c] {
      assert after == row;
    }
    if exists c :: c in data && c in fillable && (c !in row || row[c] != data[c]) {
      var c :| c in data && c in fillable && (c !in row || row[c] != data[c]);
      assert c in after && (c !in row || after[c] != row[c]);
      assert after != row;
    }
  }

  /** A `where` clause narrows the result: every row of the longer query
      is a row of the shorter one. */
  lemma WhereNarrows<V>(rows: Table<Attrs<V>>, query: seq<Clause<V>>, c: Clause<V>, keyOf: V -> Key)
    ensures forall id :: id in Run(rows, query + [c], keyOf) ==> id in Run(rows, query, keyOf)
  {
    forall id | id in Run(rows, query + [c], keyOf) ensures id in Run(rows, query, keyOf) {
      PassesAllAppend(query, c, rows[id].data);
    }
  }

  /** `with` and `orderBy` do not change which rows a query selects. */
  lemma WithAndOrderKeepRows<V>(rows: Table<Attrs<V>>, query: seq<Clause<V>>, c: Clause<V>, keyOf: V -> Key)
    requires c.With? || c.OrderBy?
    ensures forall id :: id in Run(rows, query + [c], keyOf) <==> id in Run(rows, query, keyOf)
  {
    forall id | Live(rows, id) ensures PassesAll(query + [c], rows[id].data) <==> PassesAll(query, rows[id].data) {
      PassesAllAppend(query, c, rows[id].data);
    }
  }

  /** A row passes a query with one more clause iff it passes the query
      and the clause. */
  lemma PassesAllAppend<V>(query: seq<Clause<V>>, c: Clause<V>, row: Attrs<V>)
    ensures PassesAll(query + [c], row) <==> PassesAll(query, row) && Passes(c, row)
  {
    var q := query + [c];
    assert q[|query|] == c;
    forall i | 0 <= i < |query| ensures q[i] == query[i] {
    }
  }
}

=== FILE: common.dfy ===
/** Values shared by every part of the model: optional values, request
    fields, timestamps, and the ascending order of a table's ids. */
module Common {

  datatype Option<+T> = None | Some(value: T)

  /** A field of an HTTP request: absent from the payload, present with
      an explicit null, or present with a value. */
  datatype Input<+T> = Missing | Null | Given(value: T)

  /** A nullable column after a mass assignment that may carry its key:
      an absent key keeps the column, a null clears it. */
  function Assign<T>(current: Option<T>, input: Input<T>): Option<T>
  {
    match input
    case Missing => current
    case Null => None
    case Given(v) => Some(v)
  }

  /** A non-nullable column after a mass assignment that may carry its
      key. */
  function AssignSome<T>(current: T, input: Option<T>): T
  {
    if input.Some? then input.value else current
  }

  /** A point in time: the calendar day (a day number) and the second
      within that day. Date filters compare only the day. */
  datatype Timestamp = Timestamp(day: int, second: int)

  datatype Direction = Asc | Desc

  /** The acting user of a write, when there is one. */
  type UserId = nat

  ghost predicate IsMin(m: nat, s: set<nat>)
  {
    m in s && forall y :: y in s ==> m <= y
  }

  lemma MinExists(s: set<nat>)
    requires s != {}
    ensures exists m :: IsMin(m, s)
    decreases |s|
  {
    var x :| x in s;
    if s == {x} {
      assert IsMin(x, s);
    } else {
      var rest := s - {x};
      assert |rest| < |s|;
      MinExists(rest);
      var m :| IsMin(m, rest);
      if x < m {
        forall y | y in s ensures x <= y { if y != x { assert y in rest; } }
        assert IsMin(x, s);
      } else {
        forall y | y in s ensures m <= y { if y != x { assert y in rest; } }
        assert IsMin(m, s);
      }
    }
  }

  /** The least element of a non-empty set of ids. */
  function MinOf(s: set<nat>): (m: nat)
    requires s != {}
    ensures m in s && forall y :: y in s ==> m <= y
  {
    MinExists(s);
    var m :| m in s && forall y :: y in s ==> m <= y;
    m
  }

  /** Strictly ascending, so in particular free of repeats. */
  predicate Increasing(s: seq<nat>)
  {
    forall i, j :: 0 <= i < j < |s| ==> s[i] < s[j]
  }

  /** In a strictly ascending sequence every element occurs once. */
  lemma {:induction false} IncreasingOccursOnce(s: seq<nat>)
    requires Increasing(s)
    ensures forall x :: multiset(s)[x] == if x in s then 1 else 0
  {
    if s != [] {
      IncreasingOccursOnce(s[1..]);
      assert s == [s[0]] + s[1..];
      assert s[0] !in s[1..];
    }
  }

  /** The least id of a set, put in front of the others in ascending
      order, lists the whole set in ascending order. */
  lemma MinInFront(s: set<nat>, m: nat, rest: seq<nat>)
    requires m in s && forall y :: y in s ==> m <= y
    requires Increasing(rest) && |rest| == |s - {m}|
    requires forall x :: x in s - {m} <==> x in rest
    ensures Increasing([m] + rest)
    ensures forall x :: x in s <==> x in [m] + rest
    ensures |[m] + rest| == |s|
  {
    var r := [m] + rest;
    forall i, j | 0 <= i < j < |r| ensures r[i] < r[j] {
      assert r[j] == rest[j - 1] && rest[j - 1] in rest;
      if i > 0 { assert r[i] == rest[i - 1]; }
    }
    assert s == (s - {m}) + {m};
  }

  /** The ids of a table in ascending order: the model's choice of order
      for a read that has no ORDER BY (the database leaves it open). */
  function SortedKeys(s: set<nat>): (r: seq<nat>)
    ensures Increasing(r)
    ensures forall x :: x in s <==> x in r
    ensures |r| == |s|
    decreases |s|
  {
    if s == {} then []
    else
      var m := MinOf(s);
      assert |s - {m}| < |s| by { assert s == (s - {m}) + {m}; }
      var rest := SortedKeys(s - {m});
      MinInFront(s, m, rest);
      [m] + rest
  }

  /** The id the next insert receives: one more than the largest id in
      use, or 1 for an empty table. */
  function NextId(s: set<nat>): (id: nat)
    ensures id !in s && id >= 1
    ensures forall x :: x in s ==> x < id
  {
    var ks := SortedKeys(s);
    if ks == [] then 1 else ks[|ks| - 1] + 1
  }

  /** The elements of `xs` that satisfy `p`, in their original order. */
  function Filter<T>(xs: seq<T>, p: T -> bool): (r: seq<T>)
    ensures |r| <= |xs|
    ensures forall i :: 0 <= i < |r| ==> r[i] in xs && p(r[i])
    ensures forall i :: 0 <= i < |xs| && p(xs[i]) ==> xs[i] in r
  {
    if xs == [] then []
    else if p(xs[0]) then [xs[0]] + Filter(xs[1..], p)
    else Filter(xs[1..], p)
  }
}

=== FILE: customer_form.dfy ===
/** The phone helpers and payloads of the customer create and edit pages:
    the phone check and cleaner, the live input filter, the payload the
    pages send and the address the edit page shows. */
module CustomerForm {
  import opened Common
  import opened Text
  import opened Validation

  /** validatePhoneNumber: an empty phone is allowed, any other must be
      '+', a digit 1-9 and at most 15 more digits. */
  function ValidatePhoneNumber(phone: string): (ok: bool)
    ensures phone == "" ==> ok
    ensures phone != "" ==> (ok <==> IsPhoneText(phone))
  {
    phone == "" || IsPhoneText(phone)
  }

  predicate IsPhoneChar(c: char) { IsDigit(c) || c == '+' }

  /** `replace(/[^\d+]/g, '')`: the digits and '+' signs, in order. */
  function KeepPhoneChars(s: string): (r: string)
    ensures |r| <= |s|
    ensures All(r, IsPhoneChar)
  {
    if s == [] then []
    else if IsPhoneChar(s[0]) then [s[0]] + KeepPhoneChars(s[1..])
    else KeepPhoneChars(s[1..])
  }

  /** The digits of a string, in order. */
  function DigitsOf(s: string): string
  {
    if s == [] then []
    else if IsDigit(s[0]) then [s[0]] + DigitsOf(s[1..])
    else DigitsOf(s[1..])
  }

  /** cleanPhoneNumber: an empty phone is returned as it is; otherwise
      only digits and '+' stay, and '+' is put in front when the result
      is not empty and does not start with one. */
  function CleanPhoneNumber(phone: string): (r: string)
  {
    if phone == "" then phone
    else
      var cleaned := KeepPhoneChars(phone);
      if cleaned != "" && cleaned[0] != '+' then "+" + cleaned else cleaned
  }

  lemma {:induction false} KeepPhoneCharsKeepsDigits(s: string)
    ensures DigitsOf(KeepPhoneChars(s)) == DigitsOf(s)
  {
    if s != [] {
      KeepPhoneCharsKeepsDigits(s[1..]);
      if IsPhoneChar(s[0]) {
        assert ([s[0]] + KeepPhoneChars(s[1..]))[1..] == KeepPhoneChars(s[1..]);
      }
    }
  }

  lemma {:induction false} KeepPhoneCharsFixes(s: string)
    requires All(s, IsPhoneChar)
    ensures KeepPhoneChars(s) == s
  {
    if s != [] {
      assert All(s[1..], IsPhoneChar) by {
        forall i | 0 <= i < |s[1..]| ensures IsPhoneChar(s[1..][i]) {
          assert s[1..][i] == s[i + 1];
        }
      }
      KeepPhoneCharsFixes(s[1..]);
      assert s == [s[0]] + s[1..];
    }
  }

  /** The cleaned phone holds only digits and '+', starts with '+' unless
      it is empty, keeps the input's digits in their order, and is empty
      only when the input has no digit and no '+'. */
  lemma CleanPhoneNumberSpec(phone: string)
    ensures var r := CleanPhoneNumber(phone);
            && All(r, IsPhoneChar)
            && (r != "" ==> r[0] == '+')
            && DigitsOf(r) == DigitsOf(phone)
            && (r == "" <==> KeepPhoneChars(phone) == "")
  {
    var r := CleanPhoneNumber(phone);
    KeepPhoneCharsKeepsDigits(phone);
    if phone == "" {
      assert r == "";
    } else {
      var cleaned := KeepPhoneChars(phone);
      if cleaned != "" && cleaned[0] != '+' {
        assert r[1..] == cleaned;
        assert DigitsOf(r) == DigitsOf(cleaned);
        assert All(r, IsPhoneChar) by {
          forall i | 0 <= i < |r| ensures IsPhoneChar(r[i]) {
            if i > 0 { assert r[i] == cleaned[i - 1]; }
          }
        }
      }
    }
  }

  /** Cleaning twice is cleaning once. */
  lemma CleanPhoneNumberIdempotent(phone: string)
    ensures CleanPhoneNumber(CleanPhoneNumber(phone)) == CleanPhoneNumber(phone)
  {
    var r := CleanPhoneNumber(phone);
    CleanPhoneNumberSpec(phone);
    if r != "" {
      KeepPhoneCharsFixes(r);
    }
  }

  /** A phone the check accepts is left as it is by the cleaner. */
  lemma ValidPhoneSurvivesCleaning(phone: string)
    requires ValidatePhoneNumber(phone)
    ensures CleanPhoneNumber(phone) == phone
  {
    if phone != "" {
      assert All(phone, IsPhoneChar) by {
        forall i | 0 <= i < |phone| ensures IsPhoneChar(phone[i]) {
          if i >= 2 { assert phone[i] == phone[2..][i - 2]; }
        }
      }
      KeepPhoneCharsFixes(phone);
    }
  }

  /** Cleaning does not make a phone valid: a leading 0 survives it. */
  lemma CleaningKeepsLeadingZero()
    ensures CleanPhoneNumber("012") == "+012" && !ValidatePhoneNumber("+012")
  {
    var s := "012";
    assert All(s, IsPhoneChar) by {
      assert IsPhoneChar(s[0]) && IsPhoneChar(s[1]) && IsPhoneChar(s[2]);
    }
    KeepPhoneCharsFixes(s);
  }

  /** ... nor does an interior '+'. */
  lemma CleaningKeepsInteriorPlus()
    ensures CleanPhoneNumber("1+2") == "+1+2" && !ValidatePhoneNumber("+1+2")
  {
    var s := "1+2";
    assert All(s, IsPhoneChar) by {
      assert IsPhoneChar(s[0]) && IsPhoneChar(s[1]) && IsPhoneChar(s[2]);
    }
    KeepPhoneCharsFixes(s);
    assert "+1+2"[2..][0] == '+';
  }

  /** The live input filter `replace(/[^+\d]/g, '')`: the same class as
      the cleaner's. */
  function LiveFilter(value: string): (r: string)
    ensures All(r, IsPhoneChar)
  {
    KeepPhoneChars(value)
  }

  /** What is sent does not depend on whether the live filter ran first. */
  lemma CleanAfterFilter(value: string)
    ensures CleanPhoneNumber(LiveFilter(value)) == CleanPhoneNumber(value)
  {
    var f := LiveFilter(value);
    KeepPhoneCharsFixes(f);
  }

  /** The live error is judged on the value before filtering: it shows
      iff that value is non-empty and fails the check. */
  function LiveError(value: string): (shown: bool)
    ensures shown <==> value != "" && !IsPhoneText(value)
  {
    value != "" && !ValidatePhoneNumber(value)
  }

  /** Typing a letter into an empty field shows the error, although the
      filter empties the field and the empty field is valid. */
  lemma ErrorShownForFilteredValue()
    ensures LiveError("a") && LiveFilter("a") == "" && !LiveError(LiveFilter("a"))
  {
  }

  /** A cleaned phone the client accepts and that has at least 10
      characters passes the server's phone rule; an empty one is sent as
      null and passes too. */
  lemma CleanedPhoneServerRule(value: string)
    requires ValidatePhoneNumber(CleanPhoneNumber(value))
    requires CleanPhoneNumber(value) == "" || |CleanPhoneNumber(value)| >= 10
    ensures NullableText(Given(CleanPhoneNumber(value)), s => LengthIn(s, 10, 20) && IsPhoneText(s))
  {
  }

  /** The body both pages send. */
  datatype CustomerPayload = CustomerPayload(firstName: string, lastName: string, email: string, phone: string, address: string)

  /** The create page's payload: the phone cleaned, and the address ''
      when the address field is missing or empty. */
  function CreatePayload(firstName: string, lastName: string, email: string, phoneField: string,
                         addressField: Option<string>): (p: CustomerPayload)
    ensures p.phone == CleanPhoneNumber(phoneField)
    ensures p.address == (if addressField.Some? then addressField.value else "")
    ensures p.firstName == firstName && p.lastName == lastName && p.email == email
  {
    var address := if addressField.Some? && addressField.value != "" then addressField.value else "";
    CustomerPayload(firstName, lastName, email, CleanPhoneNumber(phoneField), address)
  }

  /** The edit page's payload: the phone cleaned, the rest as shown. */
  function EditPayload(firstName: string, lastName: string, email: string, phoneField: string,
                       addressField: string): (p: CustomerPayload)
    ensures p.phone == CleanPhoneNumber(phoneField) && p.address == addressField
    ensures p.firstName == firstName && p.lastName == lastName && p.email == email
  {
    CustomerPayload(firstName, lastName, email, CleanPhoneNumber(phoneField), addressField)
  }

  /** loadCustomer: a null address is shown as ''. */
  function AddressShown(address: Option<string>): (shown: string)
    ensures address.None? ==> shown == ""
    ensures address.Some? ==> shown == address.value
  {
    if address.Some? then address.value else ""
  }

  /** Saving the edit page unchanged sends the stored address back, or ''
      for a null one, which the server reads as null again. */
  lemma UnchangedAddressRoundTrip(address: Option<string>)
    ensures Normalized(Given(AddressShown(address))) == (if address.Some? && address.value != "" then Given(address.value) else Null)
  {
  }
}

=== FILE: customer_index_request.dfy ===
/** The query of the customer listing: its rules, the getters with their
    defaults, the filters echoed back, and the filters the listing is
    given. Dates are day numbers; whether a string is an email address is
    the `isEmail` parameter. */
module CustomerIndexRequest {
  import opened Common
  import opened Validation
  import CustomerRepository

  datatype CustomerIndexInput = CustomerIndexInput(
    email: Input<string>,
    hasOrders: Input<bool>,
    createdFrom: Input<int>,
    createdTo: Input<int>,
    sortBy: Input<string>,
    sortDirection: Input<string>,
    perPage: Input<int>,
    page: Input<int>,
    includeDeleted: Input<bool>)

  /** `Rule::in(['id', 'first_name', 'last_name', 'email', 'created_at',
      'updated_at'])`, read as a column of the customers table. */
  function SortColumnOf(s: string): (c: Option<CustomerRepository.CustomerColumn>)
    ensures c.Some? <==> s in ["id", "first_name", "last_name", "email", "created_at", "updated_at"]
    ensures c == Some(CustomerRepository.CustomerCreatedAt) <==> s == "created_at"
  {
    if s == "id" then Some(CustomerRepository.CustomerId)
    else if s == "first_name" then Some(CustomerRepository.FirstName)
    else if s == "last_name" then Some(CustomerRepository.LastName)
    else if s == "email" then Some(CustomerRepository.Email)
    else if s == "created_at" then Some(CustomerRepository.CustomerCreatedAt)
    else if s == "updated_at" then Some(CustomerRepository.CustomerUpdatedAt)
    else None
  }

  datatype CustomerIndexField =
    | EmailFilter | HasOrdersFilter | CreatedFromFilter | CreatedToFilter
    | SortByParam | SortDirectionParam | PerPageParam | PageParam | IncludeDeletedParam

  const CustomerIndexFields: set<CustomerIndexField> := {
    EmailFilter, HasOrdersFilter, CreatedFromFilter, CreatedToFilter,
    SortByParam, SortDirectionParam, PerPageParam, PageParam, IncludeDeletedParam }

  /** `before_or_equal:created_to` / `after_or_equal:created_from`. */
  predicate DateRangeRule(r: CustomerIndexInput)
  {
    r.createdFrom.Given? && r.createdTo.Given? ==> r.createdFrom.value <= r.createdTo.value
  }

  predicate CustomerIndexRule(f: CustomerIndexField, r: CustomerIndexInput, isEmail: string -> bool)
  {
    match f
    case EmailFilter => NullableText(r.email, isEmail)
    case HasOrdersFilter => true
    case CreatedFromFilter => DateRangeRule(r)
    case CreatedToFilter => DateRangeRule(r)
    case SortByParam => NullableText(r.sortBy, s => SortColumnOf(s).Some?)
    case SortDirectionParam => NullableText(r.sortDirection, s => DirectionOf(s).Some?)
    case PerPageParam => Nullable(r.perPage, (v: int) => 1 <= v <= 100)
    case PageParam => Nullable(r.page, (v: int) => v >= 1)
    case IncludeDeletedParam => true
  }

  predicate RulesHold(r: CustomerIndexInput, isEmail: string -> bool)
  {
    forall f :: f in CustomerIndexFields ==> CustomerIndexRule(f, r, isEmail)
  }

  /** The keys of the errors map: exactly the fields whose rules fail. */
  function Errors(r: CustomerIndexInput, isEmail: string -> bool): (errors: set<CustomerIndexField>)
    ensures errors == {} <==> RulesHold(r, isEmail)
    ensures EmailFilter in errors <==> Normalized(r.email).Given? && !isEmail(Normalized(r.email).value)
    ensures SortByParam in errors <==> !NullableText(r.sortBy, s => SortColumnOf(s).Some?)
    ensures SortDirectionParam in errors <==> !NullableText(r.sortDirection, s => DirectionOf(s).Some?)
    ensures PerPageParam in errors <==> r.perPage.Given? && !(1 <= r.perPage.value <= 100)
    ensures PageParam in errors <==> r.page.Given? && r.page.value < 1
    ensures CreatedFromFilter in errors <==> !DateRangeRule(r)
    ensures HasOrdersFilter !in errors && IncludeDeletedParam !in errors
  {
    var errors := set f | f in CustomerIndexFields && !CustomerIndexRule(f, r, isEmail);
    assert errors == {} ==> RulesHold(r, isEmail) by {
      if errors == {} {
        forall f | f in CustomerIndexFields ensures CustomerIndexRule(f, r, isEmail) {
          assert f !in errors;
        }
      }
    }
    errors
  }

  /** failedValidation: 422, success false, 'Validation failed.' and the
      errors map. */
  function Outcome(r: CustomerIndexInput, isEmail: string -> bool): (resp: Option<Response<CustomerIndexField>>)
    ensures resp.None? <==> RulesHold(r, isEmail)
    ensures resp.Some? ==> resp.value == Response(422, false, Some("Validation failed."), Errors(r, isEmail))
                           && resp.value.errors != {}
  {
    Verdict(Errors(r, isEmail), Some("Validation failed."))
  }

  function GetEmail(r: CustomerIndexInput): Option<string> { OrNull(Normalized(r.email)) }

  /** hasOrders: the flag as sent, null when absent. */
  function HasOrders(r: CustomerIndexInput): Option<bool> { OrNull(r.hasOrders) }

  function GetCreatedFrom(r: CustomerIndexInput): Option<int> { OrNull(r.createdFrom) }
  function GetCreatedTo(r: CustomerIndexInput): Option<int> { OrNull(r.createdTo) }

  /** The getters with the default the `nullable` rule intends. As
      written, a null sort_by, sort_direction, per_page or page fails the
      getter's non-nullable return type instead (EmptyParamsBreakGetters). */
  function GetSortBy(r: CustomerIndexInput): string { InputOrDefault(Normalized(r.sortBy), "created_at") }
  function GetSortDirection(r: CustomerIndexInput): string { InputOrDefault(Normalized(r.sortDirection), "desc") }
  function GetPerPage(r: CustomerIndexInput): int { InputOrDefault(r.perPage, 15) }
  function GetPage(r: CustomerIndexInput): int { InputOrDefault(r.page, 1) }

  function ShouldIncludeDeleted(r: CustomerIndexInput): bool { r.includeDeleted == Given(true) }

  /** A query that passes the rules yields getters inside the allow-lists
      and bounds, and an email filter that is an email address. */
  lemma GettersWithinRules(r: CustomerIndexInput, isEmail: string -> bool)
    requires RulesHold(r, isEmail)
    ensures SortColumnOf(GetSortBy(r)).Some?
    ensures DirectionOf(GetSortDirection(r)).Some?
    ensures 1 <= GetPerPage(r) <= 100 && GetPage(r) >= 1
    ensures GetEmail(r).Some? ==> isEmail(GetEmail(r).value)
  {
    assert CustomerIndexRule(SortByParam, r, isEmail);
    assert CustomerIndexRule(SortDirectionParam, r, isEmail);
    assert CustomerIndexRule(PerPageParam, r, isEmail);
    assert CustomerIndexRule(PageParam, r, isEmail);
    assert CustomerIndexRule(EmailFilter, r, isEmail);
  }

  /** The `filters` entry of the listing response. */
  datatype CustomerIndexFilters = CustomerIndexFilters(
    email: Option<string>,
    hasOrders: Option<bool>,
    createdFrom: Option<int>,
    createdTo: Option<int>,
    sortBy: string,
    sortDirection: string)

  /** getFilters: the six filter values as the getters read them. */
  function GetFilters(r: CustomerIndexInput): (f: CustomerIndexFilters)
    ensures f.email.Some? <==> Normalized(r.email).Given?
    ensures f.hasOrders.Some? <==> r.hasOrders.Given?
    ensures f.sortBy == GetSortBy(r) && f.sortDirection == GetSortDirection(r)
  {
    CustomerIndexFilters(GetEmail(r), HasOrders(r), GetCreatedFrom(r), GetCreatedTo(r),
                         GetSortBy(r), GetSortDirection(r))
  }

  /** The filters the customer listing is given: the getter values and
      the page size. */
  function ForwardedFilters(r: CustomerIndexInput, isEmail: string -> bool): (f: CustomerRepository.CustomerFilters)
    requires RulesHold(r, isEmail)
    ensures f.perPage.Some? && 1 <= f.perPage.value <= 100
    ensures f.sortBy.Some? && f.sortDirection.Some?
    ensures f.hasOrders == HasOrders(r) && f.email == GetEmail(r)
  {
    GettersWithinRules(r, isEmail);
    CustomerRepository.CustomerFilters(GetEmail(r), HasOrders(r), GetCreatedFrom(r), GetCreatedTo(r),
                                       SortColumnOf(GetSortBy(r)), DirectionOf(GetSortDirection(r)),
                                       Some(GetPerPage(r) as nat))
  }

  /** The empty query: every live customer, newest first, 15 to a page. */
  lemma EmptyQueryListsEveryone(r: CustomerIndexInput, isEmail: string -> bool)
    requires r == CustomerIndexInput(Missing, Missing, Missing, Missing, Missing, Missing, Missing, Missing, Missing)
    ensures RulesHold(r, isEmail)
    ensures var f := ForwardedFilters(r, isEmail);
            && f.perPage == Some(15)
            && CustomerRepository.SortColumn(f) == CustomerRepository.CustomerCreatedAt
            && CustomerRepository.SortDirection(f) == Desc
            && forall orders, id, c :: CustomerRepository.MatchesCustomer(orders, id, c, f)
  {
    assert forall f :: f in CustomerIndexFields ==> CustomerIndexRule(f, r, isEmail);
  }

  /** `?sort_by=&sort_direction=&per_page=&page=` passes the `nullable`
      rules, yet the four getters as written (`input(key, default)`) return
      null for it; the intended getters read the defaults. */
  lemma EmptyParamsBreakGetters(isEmail: string -> bool)
    ensures var r := CustomerIndexInput(Missing, Missing, Missing, Missing, Given(""), Given(""), Null, Null, Missing);
            && RulesHold(r, isEmail)
            && InputOrDefaultAsWritten(Normalized(r.sortBy), "created_at").None?
            && InputOrDefaultAsWritten(Normalized(r.sortDirection), "desc").None?
            && InputOrDefaultAsWritten(r.perPage, 15).None? && InputOrDefaultAsWritten(r.page, 1).None?
            && GetSortBy(r) == "created_at" && GetSortDirection(r) == "desc"
            && GetPerPage(r) == 15 && GetPage(r) == 1
  {
    var r := CustomerIndexInput(Missing, Missing, Missing, Missing, Given(""), Given(""), Null, Null, Missing);
    assert forall f :: f in CustomerIndexFields ==> CustomerIndexRule(f, r, isEmail);
  }
}

=== FILE: customer_repository.dfy ===
/** The customer repository: filtered listing, the order-based and
    email-domain reads, and soft delete / restore. `LIKE` compares
    ASCII case-insensitively, as the default collations do. */
module CustomerRepository {
  import opened Common
  import opened Ordering
  import opened Paging
  import opened Tables
  import opened Records
  import opened Text
  import opened Persistence

  /** The columns a customer listing may be sorted by. */
  datatype CustomerColumn =
    | CustomerId | FirstName | LastName | Email | CustomerCreatedAt | CustomerUpdatedAt

  function CustomerKey(column: CustomerColumn): (nat, Customer) -> Key
  {
    match column
    case CustomerId => (id: nat, _: Customer) => IntKey(id)
    case FirstName => (_: nat, c: Customer) => TextKey(c.firstName)
    case LastName => (_: nat, c: Customer) => TextKey(c.lastName)
    case Email => (_: nat, c: Customer) => TextKey(c.email)
    case CustomerCreatedAt => (_: nat, c: Customer) => TimeKey(c.createdAt)
    case CustomerUpdatedAt => (_: nat, c: Customer) => TimeKey(c.updatedAt)
  }

  /** The filters getFilteredCustomers reads; dates are day numbers. */
  datatype CustomerFilters = CustomerFilters(
    email: Option<string>,
    hasOrders: Option<bool>,
    createdFrom: Option<int>,
    createdTo: Option<int>,
    sortBy: Option<CustomerColumn>,
    sortDirection: Option<Direction>,
    perPage: Option<nat>)

  /** `has('orders')`: the customer has an order that the orders' default
      scope sees. */
  predicate HasOrders(orders: Table<Order>, customerId: nat)
  {
    exists oid :: oid in orders && !orders[oid].trashed && orders[oid].data.customerId == customerId
  }

  /** `where('email', 'like', "%x%")`. */
  predicate EmailLike(email: string, x: string)
  {
    Contains(Lower(email), Lower(x))
  }

  /** A customer satisfies every non-empty filter. */
  predicate MatchesCustomer(orders: Table<Order>, id: nat, c: Customer, f: CustomerFilters)
  {
    && (f.email.Some? && !EmptyText(f.email.value) ==> EmailLike(c.email, f.email.value))
    && (f.hasOrders == Some(true) ==> HasOrders(orders, id))
    && (f.hasOrders == Some(false) ==> !HasOrders(orders, id))
    && (f.createdFrom.Some? ==> c.createdAt.day >= f.createdFrom.value)
    && (f.createdTo.Some? ==> c.createdAt.day <= f.createdTo.value)
  }

  function SortColumn(f: CustomerFilters): CustomerColumn
  {
    if f.sortBy.Some? then f.sortBy.value else CustomerCreatedAt
  }

  function SortDirection(f: CustomerFilters): Direction
  {
    if f.sortDirection.Some? then f.sortDirection.value else Desc
  }

  function PerPage(f: CustomerFilters): nat
  {
    if f.perPage.Some? then f.perPage.value else 15
  }

  /** The whole ordered result of getFilteredCustomers, before paging. It
      starts from a fresh query: nothing accumulated on the repository
      takes part. */
  function OrderedCustomers(customers: Table<Customer>, orders: Table<Order>, f: CustomerFilters): (ids: seq<nat>)
    ensures forall id :: id in ids <==> Live(customers, id) && MatchesCustomer(orders, id, customers[id].data, f)
    ensures forall id :: multiset(ids)[id] <= 1
    ensures SortedBy(ids, RowKey(customers, CustomerKey(SortColumn(f))), SortDirection(f))
  {
    SortedSelect(customers, (id: nat, c: Customer) => MatchesCustomer(orders, id, c, f),
                 CustomerKey(SortColumn(f)), SortDirection(f))
  }

  /** getFilteredCustomers: page `page` of the matching customers, by
      sort_by in sort_direction (created_at desc by default), 15 to a page
      by default. */
  function FilteredCustomers(customers: Table<Customer>, orders: Table<Order>, f: CustomerFilters, page: nat): (p: Page<nat>)
    requires f.perPage.Some? ==> f.perPage.value >= 1
    requires page >= 1
    ensures p.perPage == (if f.perPage.None? then 15 else f.perPage.value)
    ensures forall i :: 0 <= i < |p.items| ==>
              Live(customers, p.items[i]) && MatchesCustomer(orders, p.items[i], customers[p.items[i]].data, f)
    ensures p.total == |OrderedCustomers(customers, orders, f)|
    ensures SortedBy(p.items, RowKey(customers, CustomerKey(SortColumn(f))), SortDirection(f))
    ensures f.sortBy.None? && f.sortDirection.None? ==>
              SortedBy(p.items, RowKey(customers, CustomerKey(CustomerCreatedAt)), Desc)
  {
    var ids := OrderedCustomers(customers, orders, f);
    SortedSlice(ids, RowKey(customers, CustomerKey(SortColumn(f))), SortDirection(f),
                PageStart(|ids|, PerPage(f), page), PageEnd(|ids|, PerPage(f), page));
    Paginate(ids, PerPage(f), page)
  }

  /** has_orders splits the live customers in two: with the flag true or
      false a customer is listed under exactly one of them, and without
      the flag under either. */
  lemma HasOrdersPartitions(customers: Table<Customer>, orders: Table<Order>, f: CustomerFilters, id: nat)
    requires Live(customers, id)
    ensures var with := OrderedCustomers(customers, orders, f.(hasOrders := Some(true)));
            var without := OrderedCustomers(customers, orders, f.(hasOrders := Some(false)));
            var any := OrderedCustomers(customers, orders, f.(hasOrders := None));
            && !(id in with && id in without)
            && (id in any <==> id in with || id in without)
  {
    var c := customers[id].data;
    var has := HasOrders(orders, id);
    var fw, fo, fa := f.(hasOrders := Some(true)), f.(hasOrders := Some(false)), f.(hasOrders := None);
    assert MatchesCustomer(orders, id, c, fw) == (MatchesCustomer(orders, id, c, fa) && has);
    assert MatchesCustomer(orders, id, c, fo) == (MatchesCustomer(orders, id, c, fa) && !has);
    var with := OrderedCustomers(customers, orders, fw);
    var without := OrderedCustomers(customers, orders, fo);
    var any := OrderedCustomers(customers, orders, fa);
    assert id in with <==> MatchesCustomer(orders, id, c, fw);
    assert id in without <==> MatchesCustomer(orders, id, c, fo);
    assert id in any <==> MatchesCustomer(orders, id, c, fa);
  }

  /** getCustomersWithOrders: eager loading does not filter, so every
      live customer is listed. */
  function GetCustomersWithOrders(customers: Table<Customer>): (ids: seq<nat>)
    ensures Increasing(ids)
    ensures forall id :: id in ids <==> Live(customers, id)
  {
    LiveIds(customers)
  }

  /** getCustomersWithoutOrders: the live customers with no live order. */
  function GetCustomersWithoutOrders(customers: Table<Customer>, orders: Table<Order>): (ids: seq<nat>)
    ensures Increasing(ids)
    ensures forall id :: id in ids <==> Live(customers, id) && !HasOrders(orders, id)
  {
    SelectRows(customers, (id: nat, _: Customer) => !HasOrders(orders, id))
  }

  /** `where('email', 'like', "%@domain")`. */
  predicate InDomain(email: string, domain: string)
  {
    EndsWith(Lower(email), Lower("@" + domain))
  }

  /** getCustomersByEmailDomain: exactly the live customers whose email
      ends with "@" and the domain. */
  function GetCustomersByEmailDomain(customers: Table<Customer>, domain: string): (ids: seq<nat>)
    ensures Increasing(ids)
    ensures forall id :: id in ids <==> Live(customers, id) && InDomain(customers[id].data.email, domain)
  {
    Select(customers, (c: Customer) => InDomain(c.email, domain))
  }

  /** A suffix is a substring. */
  lemma EndsWithContains(s: string, t: string)
    requires EndsWith(s, t)
    ensures Contains(s, t)
  {
    var i := |s| - |t|;
    assert s[i..][..|t|] == t;
  }

  /** Every customer of a domain also passes the listing's email filter
      with "@" and the domain. */
  lemma DomainCustomersPassEmailFilter(customers: Table<Customer>, domain: string, id: nat)
    requires id in GetCustomersByEmailDomain(customers, domain)
    ensures EmailLike(customers[id].data.email, "@" + domain)
  {
    EndsWithContains(Lower(customers[id].data.email), Lower("@" + domain));
  }

  /** getCustomersByDateRange: the live customers created between the two
      days, both ends included. */
  function GetCustomersByDateRange(customers: Table<Customer>, from: int, to: int): (ids: seq<nat>)
    ensures Increasing(ids)
    ensures forall id :: id in ids <==> Live(customers, id) && from <= customers[id].data.createdAt.day <= to
  {
    Select(customers, (c: Customer) => from <= c.createdAt.day <= to)
  }

  /** softDelete: a missing or trashed customer fails and nothing
      changes; otherwise `deleted_by` is stamped when an actor is given
      and the customer is marked deleted, with `updated_at` set to `now`. */
  method SoftDelete(db: Database, id: nat, actor: Option<UserId>, now: Timestamp) returns (ok: bool)
    modifies db
    ensures ok == Live(old(db.customers), id)
    ensures db.customers == if ok then SoftDeleted(old(db.customers), id, actor, CustomerTouch(now)) else old(db.customers)
    ensures ok ==> db.customers[id].trashed && db.customers[id].data == old(db.customers[id].data).(updatedAt := now)
    ensures db.products == old(db.products) && db.statuses == old(db.statuses)
    ensures db.orders == old(db.orders) && db.lineItems == old(db.lineItems)
  {
    ok := Live(db.customers, id);
    if ok {
      db.customers := SoftDeleted(db.customers, id, actor, CustomerTouch(now));
    }
  }

  /** restore: succeeds iff the id names a customer at all, and clears
      the deleted mark, setting `updated_at` to `now`. */
  method Restore(db: Database, id: nat, now: Timestamp) returns (ok: bool)
    modifies db
    ensures ok == (id in old(db.customers))
    ensures db.customers == Restored(old(db.customers), id, CustomerTouch(now))
    ensures ok ==> Live(db.customers, id) && db.customers[id].data == old(db.customers[id].data).(updatedAt := now)
    ensures db.products == old(db.products) && db.statuses == old(db.statuses)
    ensures db.orders == old(db.orders) && db.lineItems == old(db.lineItems)
  {
    ok := id in db.customers;
    db.customers := Restored(db.customers, id, CustomerTouch(now));
  }
}

=== FILE: customer_request.dfy ===
/** The customer form request: the rules of a customer create and update,
    the full-name getter, and the route-parameter reads. Dates are day
    numbers counted from 1970-01-01; whether a string is an email address
    is the `isEmail` parameter and today's date is `today`. */
module CustomerRequest {
  import opened Common
  import opened Text
  import opened Validation

  datatype CustomerInput = CustomerInput(
    firstName: Input<string>,
    lastName: Input<string>,
    email: Input<string>,
    phone: Input<string>,
    address: Input<string>,
    city: Input<string>,
    state: Input<string>,
    postalCode: Input<string>,
    country: Input<string>,
    dateOfBirth: Input<int>,
    notes: Input<string>)

  /** What the rules look at besides the request: the email column of
      every customer row, the customer being updated (none on create),
      today's date and the email-address check. */
  datatype CustomerContext = CustomerContext(
    emails: map<nat, string>,
    customerId: Option<nat>,
    today: int,
    isEmail: string -> bool)

  /** 1900-01-01 as a day number. */
  const Day1900: int := -25567

  datatype CustomerField =
    | FirstNameField | LastNameField | EmailField | PhoneField | AddressField | CityField
    | StateField | PostalCodeField | CountryField | DateOfBirthField | NotesField

  const CustomerFields: set<CustomerField> := {
    FirstNameField, LastNameField, EmailField, PhoneField, AddressField, CityField,
    StateField, PostalCodeField, CountryField, DateOfBirthField, NotesField }

  /** `min:lo|max:hi|regex:/^[a-zA-Z\s\-\']+$/`. */
  predicate NameText(s: string, lo: nat, hi: nat)
  {
    LengthIn(s, lo, hi) && OneOrMore(s, IsNameChar)
  }

  predicate EmailRule(x: Input<string>, ctx: CustomerContext)
  {
    RequiredText(x, s => ctx.isEmail(s) && |s| <= 255 && UniqueIgnoring(ctx.emails, s, ctx.customerId))
  }

  /** The rule array entry of each field. */
  predicate CustomerRule(f: CustomerField, r: CustomerInput, ctx: CustomerContext)
  {
    match f
    case FirstNameField => RequiredText(r.firstName, s => NameText(s, 2, 100))
    case LastNameField => RequiredText(r.lastName, s => NameText(s, 2, 100))
    case EmailField => EmailRule(r.email, ctx)
    case PhoneField => NullableText(r.phone, s => LengthIn(s, 10, 20) && IsPhoneText(s))
    case AddressField => NullableText(r.address, s => LengthIn(s, 10, 500))
    case CityField => NullableText(r.city, s => NameText(s, 2, 100))
    case StateField => NullableText(r.state, s => NameText(s, 2, 100))
    case PostalCodeField => NullableText(r.postalCode, s => LengthIn(s, 5, 20) && OneOrMore(s, IsPostalChar))
    case CountryField => NullableText(r.country, s => NameText(s, 2, 100))
    case DateOfBirthField => Nullable(r.dateOfBirth, (d: int) => Day1900 < d < ctx.today)
    case NotesField => NullableText(r.notes, s => |s| <= 1000)
  }

  predicate RulesHold(r: CustomerInput, ctx: CustomerContext)
  {
    forall f :: f in CustomerFields ==> CustomerRule(f, r, ctx)
  }

  /** The keys of the errors map: exactly the fields whose rules fail. */
  function Errors(r: CustomerInput, ctx: CustomerContext): (errors: set<CustomerField>)
    ensures errors == {} <==> RulesHold(r, ctx)
    ensures FirstNameField in errors <==> !RequiredText(r.firstName, s => NameText(s, 2, 100))
    ensures EmailField in errors <==> !EmailRule(r.email, ctx)
    ensures PhoneField in errors <==> Normalized(r.phone).Given? && !(LengthIn(Normalized(r.phone).value, 10, 20) && IsPhoneText(Normalized(r.phone).value))
    ensures DateOfBirthField in errors <==> r.dateOfBirth.Given? && !(Day1900 < r.dateOfBirth.value < ctx.today)
  {
    var errors := set f | f in CustomerFields && !CustomerRule(f, r, ctx);
    assert errors == {} ==> RulesHold(r, ctx) by {
      if errors == {} {
        forall f | f in CustomerFields ensures CustomerRule(f, r, ctx) {
          assert f !in errors;
        }
      }
    }
    errors
  }

  /** failedValidation: 422, success false and the errors map, with no
      message. */
  function Outcome(r: CustomerInput, ctx: CustomerContext): (resp: Option<Response<CustomerField>>)
    ensures resp.None? <==> RulesHold(r, ctx)
    ensures resp.Some? ==> resp.value == Response(422, false, None, Errors(r, ctx)) && resp.value.errors != {}
  {
    Verdict(Errors(r, ctx), None)
  }

  /** A request that passes has both names, and no other customer row,
      trashed or not, holds its email. */
  lemma ValidRequestHasNamesAndFreshEmail(r: CustomerInput, ctx: CustomerContext)
    requires RulesHold(r, ctx)
    ensures Normalized(r.firstName).Given? && Normalized(r.lastName).Given? && Normalized(r.email).Given?
    ensures forall id :: id in ctx.emails && ctx.customerId != Some(id) ==> ctx.emails[id] != Normalized(r.email).value
  {
    assert CustomerRule(FirstNameField, r, ctx);
    assert CustomerRule(LastNameField, r, ctx);
    assert CustomerRule(EmailField, r, ctx);
  }

  /** An update that keeps the customer's own email passes the unique
      rule; the same email on a create fails it. */
  lemma OwnEmailOnlyPassesOnUpdate(emails: map<nat, string>, id: nat, email: string)
    requires id in emails && emails[id] == email
    requires forall other :: other in emails && other != id ==> emails[other] != email
    ensures UniqueIgnoring(emails, email, Some(id))
    ensures !UniqueIgnoring(emails, email, None)
  {
  }

  /** The length rule and the phone pattern together confine a valid
      phone to 10 to 17 characters, starting with '+' and a digit 1-9. */
  lemma ValidPhoneLength(r: CustomerInput, ctx: CustomerContext)
    requires RulesHold(r, ctx)
    requires Normalized(r.phone).Given?
    ensures var p := Normalized(r.phone).value;
            10 <= |p| <= 17 && p[0] == '+' && '1' <= p[1] <= '9'
  {
    assert CustomerRule(PhoneField, r, ctx);
  }

  /** getFullName: the first name, a space, the last name. */
  function GetFullName(r: CustomerInput, ctx: CustomerContext): (name: string)
    requires RulesHold(r, ctx)
    ensures var first := Normalized(r.firstName).value;
            var last := Normalized(r.lastName).value;
            && |name| == |first| + 1 + |last|
            && name[..|first|] == first && name[|first|] == ' ' && name[|first| + 1..] == last
            && 5 <= |name| <= 201
            && All(name, IsNameChar)
  {
    ValidRequestHasNamesAndFreshEmail(r, ctx);
    assert CustomerRule(FirstNameField, r, ctx) && CustomerRule(LastNameField, r, ctx);
    var first := Normalized(r.firstName).value;
    var last := Normalized(r.lastName).value;
    var name := first + " " + last;
    assert forall i :: 0 <= i < |name| ==> IsNameChar(name[i]) by {
      forall i | 0 <= i < |name| ensures IsNameChar(name[i]) {
        if i < |first| { assert name[i] == first[i]; }
        else if i > |first| { assert name[i] == last[i - |first| - 1]; }
      }
    }
    name
  }

  /** The route parameters of the request: name to model key. The
      customers resource binds its model as `customer`. */
  type Route = map<string, nat>

  function RouteKey(route: Route, name: string): (key: Option<nat>)
    ensures key.Some? <==> name in route
  {
    if name in route then Some(route[name]) else None
  }

  /** The customer the rules ignore in the unique email check:
      `route('customer')`. */
  function RulesCustomerId(route: Route): Option<nat>
  {
    RouteKey(route, "customer")
  }

  /** isUpdate as written: reads the route parameter `customers`. */
  function IsUpdateAsWritten(route: Route): (b: bool)
    ensures b <==> "customers" in route
  {
    RouteKey(route, "customers").Some?
  }

  /** getCustomerId as written: reads the route parameter `customers`. */
  function GetCustomerIdAsWritten(route: Route): (id: Option<nat>)
    ensures id.Some? <==> "customers" in route
  {
    RouteKey(route, "customers")
  }

  /** On `PUT customers/{customer}` the route binds `customer`: isUpdate
      as written says it is not an update, and getCustomerId as written
      disagrees with the id the rules ignore. */
  lemma UpdateRouteMissedAsWritten(id: nat)
    ensures var route := map["customer" := id];
            && !IsUpdateAsWritten(route)
            && GetCustomerIdAsWritten(route) == None
            && RulesCustomerId(route) == Some(id)
  {
  }

  /** isUpdate reading the parameter the route binds. */
  function IsUpdate(route: Route): (b: bool)
    ensures b <==> RulesCustomerId(route).Some?
  {
    "customer" in route
  }

  /** getCustomerId reading the parameter the route binds: the customer
      the unique email rule ignores. */
  function GetCustomerId(route: Route): (id: Option<nat>)
    ensures id == RulesCustomerId(route)
    ensures id.Some? <==> IsUpdate(route)
  {
    if "customer" in route then Some(route["customer"]) else None
  }

  /** With the corrected reads, an update request is recognised and names
      the customer whose own email is allowed. */
  lemma UpdateRouteRecognised(id: nat, emails: map<nat, string>)
    requires id in emails
    requires forall other :: other in emails && other != id ==> emails[other] != emails[id]
    ensures var route := map["customer" := id];
            && IsUpdate(route) && GetCustomerId(route) == Some(id)
            && UniqueIgnoring(emails, emails[id], GetCustomerId(route))
  {
  }
}

=== FILE: order_cart.dfy ===
/** The order item list of the order create and edit pages: adding merges
    by product, removing filters, the total is a fold, and submitting
    either refuses or sends the whole list. Prices are integer cents. */
module OrderCart {
  import opened Common
  import opened Records
  import OrderRepository

  /** One entry of `orderItems`. */
  datatype CartItem = CartItem(productId: nat, name: string, price: int, quantity: int)

  /** No two entries share a product. */
  predicate DistinctIds(items: seq<CartItem>)
  {
    forall i, j :: 0 <= i < j < |items| ==> items[i].productId != items[j].productId
  }

  /** The list the pages keep: one entry per product, each with a
      quantity of at least 1. */
  predicate WellFormed(items: seq<CartItem>)
  {
    DistinctIds(items) && forall i :: 0 <= i < |items| ==> items[i].quantity >= 1
  }

  /** `orderItems.find(item => item.product_id === productId)`, as a
      position. */
  function IndexOf(items: seq<CartItem>, productId: nat): (r: Option<nat>)
    ensures r.Some? ==> r.value < |items| && items[r.value].productId == productId
    ensures r.Some? ==> forall j :: 0 <= j < r.value ==> items[j].productId != productId
    ensures r.None? ==> forall j :: 0 <= j < |items| ==> items[j].productId != productId
  {
    if items == [] then None
    else if items[0].productId == productId then Some(0)
    else
      var rest := IndexOf(items[1..], productId);
      if rest.Some? then Some(rest.value + 1) else None
  }

  /** The list after adding `quantity` of a product: the quantity of its
      entry grows, or a new entry goes at the end. */
  function Added(items: seq<CartItem>, productId: nat, name: string, price: int, quantity: int): seq<CartItem>
  {
    match IndexOf(items, productId)
    case Some(i) => items[i := items[i].(quantity := items[i].quantity + quantity)]
    case None => items + [CartItem(productId, name, price, quantity)]
  }

  /** The list without the entries of a product, the others in order. */
  function Removed(items: seq<CartItem>, productId: nat): (r: seq<CartItem>)
    ensures forall x :: x in r <==> x in items && x.productId != productId
  {
    Filter(items, (x: CartItem) => x.productId != productId)
  }

  /** calculateTotal: the sum of price times quantity, 0 for no items. */
  function Total(items: seq<CartItem>): int
  {
    if items == [] then 0
    else Total(items[..|items| - 1]) + items[|items| - 1].price * items[|items| - 1].quantity
  }

  lemma {:induction false} TotalAppend(a: seq<CartItem>, b: seq<CartItem>)
    ensures Total(a + b) == Total(a) + Total(b)
  {
    if b == [] {
      assert a + b == a;
    } else {
      var ab := a + b;
      assert ab[..|ab| - 1] == a + b[..|b| - 1];
      assert ab[|ab| - 1] == b[|b| - 1];
      TotalAppend(a, b[..|b| - 1]);
    }
  }

  lemma TotalSplit(items: seq<CartItem>, i: nat)
    requires i < |items|
    ensures Total(items) == Total(items[..i]) + items[i].price * items[i].quantity + Total(items[i + 1..])
  {
    assert items == items[..i] + [items[i]] + items[i + 1..];
    TotalAppend(items[..i] + [items[i]], items[i + 1..]);
    TotalAppend(items[..i], [items[i]]);
    assert Total([items[i]]) == Total([]) + items[i].price * items[i].quantity;
  }

  /** Changing one entry changes the total by the difference of its
      line totals. */
  lemma TotalUpdate(items: seq<CartItem>, i: nat, x: CartItem)
    requires i < |items|
    ensures Total(items[i := x]) == Total(items) - items[i].price * items[i].quantity + x.price * x.quantity
  {
    var r := items[i := x];
    TotalSplit(items, i);
    TotalSplit(r, i);
    assert r[..i] == items[..i];
    assert r[i + 1..] == items[i + 1..];
  }

  /** Adding a listed product raises the quantity of its entry, keeps
      length and order, and adds the quantity at the entry's price. */
  lemma AddedMerges(items: seq<CartItem>, productId: nat, name: string, price: int, quantity: int, i: nat)
    requires IndexOf(items, productId) == Some(i)
    ensures var r := Added(items, productId, name, price, quantity);
            && |r| == |items|
            && (forall j :: 0 <= j < |items| && j != i ==> r[j] == items[j])
            && r[i] == items[i].(quantity := items[i].quantity + quantity)
            && Total(r) == Total(items) + items[i].price * quantity
  {
    var x := items[i].(quantity := items[i].quantity + quantity);
    TotalUpdate(items, i, x);
    assert x.price * x.quantity == items[i].price * items[i].quantity + items[i].price * quantity by {
      assert x.price == items[i].price;
    }
  }

  /** Adding a new product appends its entry at the end and adds its line
      total. */
  lemma AddedAppends(items: seq<CartItem>, productId: nat, name: string, price: int, quantity: int)
    requires IndexOf(items, productId).None?
    ensures var r := Added(items, productId, name, price, quantity);
            && r == items + [CartItem(productId, name, price, quantity)]
            && Total(r) == Total(items) + price * quantity
  {
    var x := CartItem(productId, name, price, quantity);
    TotalAppend(items, [x]);
    assert [x][..0] == [];
    assert Total([x]) == price * quantity;
  }

  /** Adding at least one of a product keeps the list well formed. */
  lemma AddKeepsWellFormed(items: seq<CartItem>, productId: nat, name: string, price: int, quantity: int)
    requires WellFormed(items) && quantity >= 1
    ensures WellFormed(Added(items, productId, name, price, quantity))
  {
    var r := Added(items, productId, name, price, quantity);
    match IndexOf(items, productId)
    case Some(i) =>
      AddedMerges(items, productId, name, price, quantity, i);
    case None =>
      AddedAppends(items, productId, name, price, quantity);
      assert forall j :: 0 <= j < |items| ==> r[j] == items[j];
  }

  /** Filtering distributes over concatenation: the kept entries stay in
      their order. */
  lemma {:induction false} RemovedAppend(a: seq<CartItem>, b: seq<CartItem>, productId: nat)
    ensures Removed(a + b, productId) == Removed(a, productId) + Removed(b, productId)
  {
    if a != [] {
      assert (a + b)[1..] == a[1..] + b;
      RemovedAppend(a[1..], b, productId);
    } else {
      assert a + b == b;
    }
  }

  /** Removing a product that is not listed changes nothing. */
  lemma {:induction false} RemovedAbsent(items: seq<CartItem>, productId: nat)
    requires forall i :: 0 <= i < |items| ==> items[i].productId != productId
    ensures Removed(items, productId) == items
  {
    if items != [] {
      RemovedAbsent(items[1..], productId);
      assert items == [items[0]] + items[1..];
    }
  }

  /** In a list with one entry per product, removing a product takes out
      exactly its entry. */
  lemma RemovedSpec(items: seq<CartItem>, i: nat)
    requires DistinctIds(items) && i < |items|
    ensures Removed(items, items[i].productId) == items[..i] + items[i + 1..]
  {
    var pid := items[i].productId;
    var before, after := items[..i], items[i + 1..];
    assert items == before + ([items[i]] + after);
    RemovedAppend(before, [items[i]] + after, pid);
    RemovedAppend([items[i]], after, pid);
    assert forall j :: 0 <= j < |before| ==> before[j].productId != pid by {
      forall j | 0 <= j < |before| ensures before[j].productId != pid {
        assert before[j] == items[j];
      }
    }
    assert forall j :: 0 <= j < |after| ==> after[j].productId != pid by {
      forall j | 0 <= j < |after| ensures after[j].productId != pid {
        assert after[j] == items[i + 1 + j];
      }
    }
    RemovedAbsent(before, pid);
    RemovedAbsent(after, pid);
    assert [items[i]][1..] == [];
    assert Removed([items[i]], pid) == [];
  }

  /** ... and its line total. */
  lemma RemovedTotal(items: seq<CartItem>, i: nat)
    requires DistinctIds(items) && i < |items|
    ensures Total(Removed(items, items[i].productId)) == Total(items) - items[i].price * items[i].quantity
  {
    RemovedSpec(items, i);
    TotalSplit(items, i);
    TotalAppend(items[..i], items[i + 1..]);
  }

  /** Removing keeps the list well formed. */
  lemma {:induction false} RemoveKeepsWellFormed(items: seq<CartItem>, productId: nat)
    requires WellFormed(items)
    ensures WellFormed(Removed(items, productId))
  {
    if items != [] {
      RemoveKeepsWellFormed(items[1..], productId);
      assert forall j :: 0 <= j < |items[1..]| ==> items[1..][j].productId != items[0].productId;
    }
  }

  /** A product the page links to the order, with its pivot row. */
  datatype LinkedProduct = LinkedProduct(productId: nat, name: string, pivot: LineItem)

  function ItemOf(p: LinkedProduct): CartItem
  {
    CartItem(p.productId, p.name, p.pivot.unitPrice, p.pivot.quantity)
  }

  /** The item list of an order page and the text of its total field
      (None while the field is empty). */
  class Cart {
    var items: seq<CartItem>
    var totalField: Option<int>

    /** A fresh create page: no items and an empty total. */
    constructor()
      ensures items == [] && totalField == None
    {
      items := [];
      totalField := None;
    }

    predicate Valid()
      reads this
    {
      WellFormed(items)
    }

    /** addProductToOrder. `selected` is the chosen product (None when the
        placeholder is chosen); `name` and `price` are read from the
        option. Without a product or with a quantity below 1 nothing
        changes; otherwise the product's entry grows or is appended, and
        the total is recomputed. */
    method Add(selected: Option<nat>, name: string, price: int, quantity: int) returns (accepted: bool)
      requires Valid()
      modifies this
      ensures Valid()
      ensures accepted <==> selected.Some? && quantity >= 1
      ensures !accepted ==> items == old(items) && totalField == old(totalField)
      ensures accepted ==> items == Added(old(items), selected.value, name, price, quantity)
                           && totalField == Some(Total(items))
    {
      if selected.None? || quantity < 1 {
        return false;
      }
      var productId := selected.value;
      var i := 0;
      while i < |items| && items[i].productId != productId
        invariant 0 <= i <= |items|
        invariant forall j :: 0 <= j < i ==> items[j].productId != productId
      {
        i := i + 1;
      }
      assert i < |items| ==> IndexOf(items, productId) == Some(i);
      assert i == |items| ==> IndexOf(items, productId).None?;
      AddKeepsWellFormed(items, productId, name, price, quantity);
      if i < |items| {
        items := items[i := items[i].(quantity := items[i].quantity + quantity)];
      } else {
        items := items + [CartItem(productId, name, price, quantity)];
      }
      totalField := Some(Total(items));
      accepted := true;
    }

    /** removeProductFromOrder: the list without that product, and the
        total recomputed. */
    method Remove(productId: nat)
      requires Valid()
      modifies this
      ensures Valid()
      ensures items == Removed(old(items), productId) && totalField == Some(Total(items))
    {
      RemoveKeepsWellFormed(items, productId);
      items := Removed(items, productId);
      totalField := Some(Total(items));
    }

    /** loadOrder on the edit page: the list becomes one entry per linked
        product, price and quantity from its pivot row, and the total is
        recomputed. */
    method LoadOrder(linked: seq<LinkedProduct>)
      modifies this
      ensures |items| == |linked|
      ensures forall i :: 0 <= i < |linked| ==> items[i] == ItemOf(linked[i])
      ensures totalField == Some(Total(items))
    {
      items := [];
      var i := 0;
      while i < |linked|
        invariant 0 <= i <= |linked|
        invariant |items| == i
        invariant forall j :: 0 <= j < i ==> items[j] == ItemOf(linked[j])
      {
        items := items + [ItemOf(linked[i])];
        i := i + 1;
      }
      totalField := Some(Total(items));
    }
  }

  /** A loaded list is well formed exactly when the linked products are
      distinct and each has a quantity of at least 1. */
  lemma LoadedWellFormed(linked: seq<LinkedProduct>, items: seq<CartItem>)
    requires |items| == |linked|
    requires forall i :: 0 <= i < |linked| ==> items[i] == ItemOf(linked[i])
    ensures WellFormed(items) <==>
              (forall i, j :: 0 <= i < j < |linked| ==> linked[i].productId != linked[j].productId)
              && (forall i :: 0 <= i < |linked| ==> linked[i].pivot.quantity >= 1)
  {
  }

  /** An entry of the request's `products`. */
  datatype PayloadLine = PayloadLine(productId: nat, quantity: int, price: int)

  /** The `products` of the request: the list, entry by entry. */
  function PayloadLines(items: seq<CartItem>): (lines: seq<PayloadLine>)
    ensures |lines| == |items|
    ensures forall i :: 0 <= i < |items| ==>
              lines[i] == PayloadLine(items[i].productId, items[i].quantity, items[i].price)
  {
    seq(|items|, i requires 0 <= i < |items| => PayloadLine(items[i].productId, items[i].quantity, items[i].price))
  }

  /** The request body of both pages. */
  datatype OrderPayload = OrderPayload(customerId: nat, statusId: nat, total: int, notes: string, products: seq<PayloadLine>)

  /** Why the create page refuses to send. */
  datatype Refusal = NoCustomer | NoStatus | InvalidTotal | NoItems

  datatype Submission = Refused(reason: Refusal) | Sent(payload: OrderPayload)

  /** The create page's submit handler: customer, status, total and the
      list are checked in this order, and the first failure refuses. */
  function SubmitCreate(customerId: Option<nat>, statusId: Option<nat>, totalField: Option<int>,
                        notes: string, items: seq<CartItem>): (s: Submission)
    ensures s.Sent? <==> customerId.Some? && statusId.Some? && totalField.Some? && totalField.value > 0 && items != []
    ensures s == Refused(NoCustomer) <==> customerId.None?
    ensures s == Refused(NoStatus) <==> customerId.Some? && statusId.None?
    ensures s == Refused(InvalidTotal) <==>
              customerId.Some? && statusId.Some? && !(totalField.Some? && totalField.value > 0)
    ensures s.Sent? ==> s.payload == OrderPayload(customerId.value, statusId.value, totalField.value, notes, PayloadLines(items))
  {
    if customerId.None? then Refused(NoCustomer)
    else if statusId.None? then Refused(NoStatus)
    else if totalField.None? || totalField.value <= 0 then Refused(InvalidTotal)
    else if items == [] then Refused(NoItems)
    else Sent(OrderPayload(customerId.value, statusId.value, totalField.value, notes, PayloadLines(items)))
  }

  /** A fresh create page refuses to send until a product is added. */
  lemma FreshCreatePageRefuses(customerId: Option<nat>, statusId: Option<nat>, notes: string)
    ensures SubmitCreate(customerId, statusId, None, notes, []).Refused?
  {
  }

  /** The edit page's submit button is enabled exactly when the list is
      not empty. */
  predicate SubmitEnabled(items: seq<CartItem>)
  {
    |items| != 0
  }

  /** The edit page's submit handler: an empty list refuses, anything
      else sends the whole current list. */
  function SubmitEdit(customerId: nat, statusId: nat, totalField: int, notes: string, items: seq<CartItem>): (s: Option<OrderPayload>)
    ensures s.Some? <==> SubmitEnabled(items)
    ensures s.Some? ==> s.value.products == PayloadLines(items) && s.value.total == totalField
  {
    if items == [] then None
    else Some(OrderPayload(customerId, statusId, totalField, notes, PayloadLines(items)))
  }

  /** The lines the repository receives from a payload. */
  function RepositoryLines(lines: seq<PayloadLine>): (r: seq<OrderRepository.ProductLine>)
    ensures |r| == |lines|
    ensures forall i :: 0 <= i < |lines| ==>
              r[i] == OrderRepository.ProductLine(lines[i].productId, lines[i].quantity, lines[i].price)
  {
    seq(|lines|, i requires 0 <= i < |lines| => OrderRepository.ProductLine(lines[i].productId, lines[i].quantity, lines[i].price))
  }

  /** Sent from a well-formed list, the line items the server stores are
      exactly the list: one pivot row per entry, with its quantity, price
      and line total, and no other product. */
  lemma PayloadBecomesLineItems(items: seq<CartItem>)
    requires DistinctIds(items)
    ensures var pivot := OrderRepository.PivotData(RepositoryLines(PayloadLines(items)));
            && (forall pid :: pid in pivot <==> exists i :: 0 <= i < |items| && items[i].productId == pid)
            && (forall i :: 0 <= i < |items| ==>
                  pivot[items[i].productId] == LineItem(items[i].quantity, items[i].price, items[i].quantity * items[i].price))
  {
    var lines := RepositoryLines(PayloadLines(items));
    var pivot := OrderRepository.PivotData(lines);
    OrderRepository.PivotDataKeys(lines);
    forall i | 0 <= i < |items|
      ensures items[i].productId in pivot
      ensures pivot[items[i].productId] == LineItem(items[i].quantity, items[i].price, items[i].quantity * items[i].price)
    {
      EntryOfItem(items, lines, i);
    }
    forall pid | pid in pivot ensures exists i :: 0 <= i < |items| && items[i].productId == pid {
      assert pid in OrderRepository.ProductIds(lines);
      var i :| 0 <= i < |lines| && lines[i].productId == pid;
      assert items[i].productId == pid;
    }
  }

  lemma EntryOfItem(items: seq<CartItem>, lines: seq<OrderRepository.ProductLine>, i: nat)
    requires DistinctIds(items) && i < |items|
    requires lines == RepositoryLines(PayloadLines(items))
    ensures items[i].productId in OrderRepository.PivotData(lines)
    ensures OrderRepository.PivotData(lines)[items[i].productId] == LineItem(items[i].quantity, items[i].price, items[i].quantity * items[i].price)
  {
    assert lines[i] == OrderRepository.ProductLine(items[i].productId, items[i].quantity, items[i].price);
    assert forall j :: i < j < |lines| ==> lines[j].productId != lines[i].productId by {
      forall j | i < j < |lines| ensures lines[j].productId != lines[i].productId {
        assert lines[j].productId == items[j].productId;
      }
    }
    OrderRepository.PivotDataLastWins(lines, i);
  }

  /** The total the page shows is the sum of the line totals the server
      stores for the sent list. */
  lemma {:induction false} TotalIsSumOfLineTotals(items: seq<CartItem>)
    ensures Total(items) == SumLineTotals(RepositoryLines(PayloadLines(items)))
  {
    if items != [] {
      var init := items[..|items| - 1];
      TotalIsSumOfLineTotals(init);
      var lines := RepositoryLines(PayloadLines(items));
      assert lines[..|lines| - 1] == RepositoryLines(PayloadLines(init));
    }
  }

  /** The line totals of a list of repository lines, summed in order. */
  function SumLineTotals(lines: seq<OrderRepository.ProductLine>): int
  {
    if lines == [] then 0
    else SumLineTotals(lines[..|lines| - 1]) + OrderRepository.LineItemOf(lines[|lines| - 1]).lineTotal
  }
}

=== FILE: order_controller.dfy ===
/** The order API controller: route model binding (a missing or trashed
    order is 404), the form request in front of each write, actor
    stamping, the status guard, and the aggregates `show` adds. The
    acting user and the clock are parameters. */
module OrderController {
  import opened Common
  import opened Tables
  import opened Records
  import opened Persistence
  import opened Paging
  import opened Text
  import opened Validation
  import OR = OrderRepository
  import Req = OrderRequest
  import Idx = OrderIndexRequest

  /** The status code, the `success` flag and the message of a JSON
      response. */
  datatype Reply = Reply(status: nat, success: bool, message: Option<string>)

  const NotFound := Reply(404, false, None)
  const Invalid := Reply(422, false, None)

  /** The ids the `exists` rules of the order request look up. */
  function ExistingIn(db: Database): Req.Existing
    reads db
  {
    Req.Existing(db.customers.Keys, db.statuses.Keys, db.products.Keys)
  }

  /** The header `create` receives from `validated()` plus `created_by`:
      only the fillable columns survive, so subtotal, tax, shipping,
      discount, currency, the addresses and the shipping method are
      dropped. */
  function HeaderOf(r: Req.OrderInput, ex: Req.Existing, actor: Option<UserId>, now: Timestamp): (o: Order)
    requires Req.RulesHold(r, false, ex)
    ensures o.customerId in ex.customers && o.statusId in ex.statuses
    ensures 1 <= o.total <= 99999999
    ensures o.createdBy == actor && o.updatedBy.None?
  {
    Req.CreateNeedsStatusAndTotal(r, ex);
    assert Req.HeaderRule(Req.CustomerIdField, r, false, ex);
    var notes := Normalized(r.notes);
    Order(r.customerId.value as nat, r.statusId.value as nat, Cents(Normalized(r.total).value),
          if notes.Given? then Some(notes.value) else None,
          actor, None, now, now)
  }

  /** The validated fields that are not fillable do not reach the order. */
  lemma HeaderIgnoresUnfillable(r: Req.OrderInput, r': Req.OrderInput, ex: Req.Existing, actor: Option<UserId>, now: Timestamp)
    requires Req.RulesHold(r, false, ex) && Req.RulesHold(r', false, ex)
    requires r' == r.(subtotal := r'.subtotal, taxAmount := r'.taxAmount, shippingAmount := r'.shippingAmount,
                      discountAmount := r'.discountAmount, currency := r'.currency,
                      shippingAddress := r'.shippingAddress, billingAddress := r'.billingAddress,
                      shippingMethod := r'.shippingMethod)
    ensures HeaderOf(r', ex, actor, now) == HeaderOf(r, ex, actor, now)
  {
  }

  /** store: a request that fails its rules gets 422 and nothing is
      written; otherwise the order is created with `created_by` set to the
      acting user, its line items are the validated products, and the
      reply is 201. */
  method Store(db: Database, r: Req.OrderInput, actor: Option<UserId>, now: Timestamp)
    returns (reply: Reply, id: Option<nat>)
    requires db.Valid()
    modifies db
    ensures db.Valid() && db.Catalogue() == old(db.Catalogue())
    ensures reply.status == 422 <==> !Req.RulesHold(r, false, old(ExistingIn(db)))
    ensures reply.status == 422 ==> id.None? && db.orders == old(db.orders) && db.lineItems == old(db.lineItems)
    ensures reply.status != 422 ==>
              && reply == Reply(201, true, Some("Order created successfully"))
              && id.Some? && id.value !in old(db.orders)
              && db.orders == old(db.orders)[id.value := Row(HeaderOf(r, old(ExistingIn(db)), actor, now), None, false)]
              && db.lineItems == old(db.lineItems)[id.value := OR.PivotData(Req.ValidatedLines(r, false, old(ExistingIn(db))))]
  {
    var ex := ExistingIn(db);
    if Req.Outcome(r, false, ex).Some? {
      return Invalid, None;
    }
    var created := OR.CreateWithProducts(db, HeaderOf(r, ex, actor, now), Req.ValidatedLines(r, false, ex));
    reply, id := Reply(201, true, Some("Order created successfully")), Some(created);
  }

  /** `updated_by` as `Auth::id()` stamps it: the acting user, or null
      without one. */
  function ActorStamp(actor: Option<UserId>): (x: Input<UserId>)
    ensures x != Missing
  {
    if actor.Some? then Given(actor.value) else Null
  }

  /** The fillable part of a validated update plus `updated_by`: the
      status and total only when sent, the notes when sent (null
      clears them). */
  function PatchOf(r: Req.OrderInput, ex: Req.Existing, actor: Option<UserId>): (patch: OR.OrderPatch)
    requires Req.RulesHold(r, true, ex)
    ensures patch.customerId.Some? && patch.customerId.value in ex.customers
    ensures patch.statusId.Some? <==> r.statusId.Given?
    ensures patch.statusId.Some? ==> patch.statusId.value in ex.statuses
    ensures patch.total.Some? <==> r.total.Given? && r.total != Given("")
    ensures patch.updatedBy == ActorStamp(actor)
  {
    assert Req.HeaderRule(Req.CustomerIdField, r, true, ex);
    assert Req.HeaderRule(Req.StatusIdField, r, true, ex);
    assert Req.HeaderRule(Req.TotalField, r, true, ex);
    var total := Normalized(r.total);
    OR.OrderPatch(
      Some(r.customerId.value as nat),
      if r.statusId.Given? then Some(r.statusId.value as nat) else None,
      if total.Given? then Some(Cents(total.value)) else None,
      Normalized(r.notes),
      ActorStamp(actor))
  }

  /** update: 404 for a missing or trashed order, 422 for a failing
      request; otherwise the header takes the patch with `updated_by`
      stamped (and `updated_at` set to `now` when a column changes), and
      the line items become the validated products. */
  method Update(db: Database, id: nat, r: Req.OrderInput, actor: Option<UserId>, now: Timestamp)
    returns (reply: Reply)
    requires db.Valid()
    modifies db
    ensures db.Valid() && db.Catalogue() == old(db.Catalogue())
    ensures reply.status == 404 <==> !Live(old(db.orders), id)
    ensures reply.status == 422 <==> Live(old(db.orders), id) && !Req.RulesHold(r, true, old(ExistingIn(db)))
    ensures reply.status in {404, 422} ==> db.orders == old(db.orders) && db.lineItems == old(db.lineItems)
    ensures reply.status !in {404, 422} ==>
              && reply == Reply(200, true, Some("Order updated successfully"))
              && db.orders == OR.PatchedOrders(old(db.orders), id, PatchOf(r, old(ExistingIn(db)), actor), now)
              && db.lineItems == old(db.lineItems)[id := OR.PivotData(Req.ValidatedLines(r, true, old(ExistingIn(db))))]
  {
    if !Live(db.orders, id) {
      return NotFound;
    }
    var ex := ExistingIn(db);
    if Req.Outcome(r, true, ex).Some? {
      return Invalid;
    }
    var found := OR.UpdateWithProducts(db, id, PatchOf(r, ex, actor), Req.ValidatedLines(r, true, ex), now);
    reply := Reply(200, true, Some("Order updated successfully"));
  }

  /** destroy: 404 for a missing or trashed order; otherwise a soft
      delete stamped with the acting user at time `now`. */
  method Destroy(db: Database, id: nat, actor: Option<UserId>, now: Timestamp) returns (reply: Reply)
    requires db.Valid()
    modifies db
    ensures db.Valid() && db.Catalogue() == old(db.Catalogue()) && db.lineItems == old(db.lineItems)
    ensures reply.status == 404 <==> !Live(old(db.orders), id)
    ensures reply.status == 404 ==> db.orders == old(db.orders)
    ensures reply.status != 404 ==>
              reply == Reply(200, true, Some("Order deleted successfully"))
              && db.orders == SoftDeleted(old(db.orders), id, actor, OrderTouch(now))
  {
    if !Live(db.orders, id) {
      return NotFound;
    }
    var ok := OR.SoftDelete(db, id, actor, now);
    reply := Reply(200, true, Some("Order deleted successfully"));
  }

  /** The status guard: the order's status row exists and its id is the
      requested one. */
  predicate AlreadyInStatus(orders: Table<Order>, statuses: map<nat, OrderStatus>, id: nat, statusId: int)
    requires id in orders
  {
    orders[id].data.statusId in statuses && orders[id].data.statusId == statusId
  }

  /** The only write of a status change: `status_id` and `updated_by`. */
  function StatusPatch(statusId: nat, actor: Option<UserId>): OR.OrderPatch
  {
    OR.OrderPatch(None, Some(statusId), None, Missing, ActorStamp(actor))
  }

  /** updateStatus: 404 for a missing or trashed order, 422 when
      status_id is absent or names no status, 400 'Order is already in
      this status' when the guard fires; otherwise only `status_id` and
      `updated_by` of that order change, and `updated_at` becomes `now`
      when either does. */
  method UpdateStatus(db: Database, id: nat, statusId: Input<int>, actor: Option<UserId>, now: Timestamp)
    returns (reply: Reply)
    requires db.Valid()
    modifies db
    ensures db.Valid() && db.Catalogue() == old(db.Catalogue()) && db.lineItems == old(db.lineItems)
    ensures reply.status == 404 <==> !Live(old(db.orders), id)
    ensures reply.status == 422 <==> Live(old(db.orders), id) && !(statusId.Given? && statusId.value in old(db.statuses))
    ensures reply.status == 400 <==> Live(old(db.orders), id) && statusId.Given? && statusId.value in old(db.statuses)
                                     && AlreadyInStatus(old(db.orders), old(db.statuses), id, statusId.value)
    ensures reply.status == 400 ==> reply == Reply(400, false, Some("Order is already in this status"))
    ensures reply.status in {404, 422, 400} ==> db.orders == old(db.orders)
    ensures reply.status !in {404, 422, 400} ==>
              && reply == Reply(200, true, Some("Order status updated successfully"))
              && db.orders == OR.PatchedOrders(old(db.orders), id, StatusPatch(statusId.value as nat, actor), now)
  {
    if !Live(db.orders, id) {
      return NotFound;
    }
    if !(statusId.Given? && statusId.value in db.statuses) {
      return Invalid;
    }
    if AlreadyInStatus(db.orders, db.statuses, id, statusId.value) {
      return Reply(400, false, Some("Order is already in this status"));
    }
    db.orders := OR.PatchedOrders(db.orders, id, StatusPatch(statusId.value as nat, actor), now);
    reply := Reply(200, true, Some("Order status updated successfully"));
  }

  /** A status change sets `status_id` and `updated_by`, refreshes
      `updated_at` when either changes, and leaves every other column of
      the order as it was. */
  lemma StatusChangeTouchesOnlyStatus(t: Table<Order>, id: nat, statusId: nat, actor: Option<UserId>, now: Timestamp)
    requires Live(t, id)
    ensures var before := t[id].data;
            var o := OR.PatchedOrders(t, id, StatusPatch(statusId, actor), now)[id].data;
            o == if before.statusId == statusId && before.updatedBy == actor then before
                 else before.(statusId := statusId, updatedBy := actor, updatedAt := now)
    ensures t[id].data.statusId != statusId ==>
              OR.PatchedOrders(t, id, StatusPatch(statusId, actor), now)[id].data.updatedAt == now
  {
    var before := t[id].data;
    assert OR.Filled(before, StatusPatch(statusId, actor)) == before.(statusId := statusId, updatedBy := actor);
  }

  /** After a successful change to a status, the same change again is
      caught by the guard. */
  lemma RepeatedStatusChangeRejected(t: Table<Order>, statuses: map<nat, OrderStatus>, id: nat, statusId: nat,
                                     actor: Option<UserId>, now: Timestamp)
    requires Live(t, id) && statusId in statuses
    ensures var t' := OR.PatchedOrders(t, id, StatusPatch(statusId, actor), now);
            Live(t', id) && AlreadyInStatus(t', statuses, id, statusId)
  {
  }

  /** The product ids `$order->products` loads: linked products that the
      products' default scope sees, in id order. */
  function LoadedProducts(products: Table<Product>, items: map<nat, LineItem>): (pids: seq<nat>)
    ensures Increasing(pids)
    ensures forall pid :: pid in pids <==> pid in items && Live(products, pid)
  {
    SortedKeys(set pid | pid in items && Live(products, pid))
  }

  /** The sum of `line_total` over the listed line items. */
  function SumLineTotals(items: map<nat, LineItem>, pids: seq<nat>): int
    requires forall pid :: pid in pids ==> pid in items
  {
    if pids == [] then 0
    else SumLineTotals(items, pids[..|pids| - 1]) + items[pids[|pids| - 1]].lineTotal
  }

  /** The sum of `pivot.quantity` over the listed line items. */
  function SumQuantities(items: map<nat, LineItem>, pids: seq<nat>): int
    requires forall pid :: pid in pids ==> pid in items
  {
    if pids == [] then 0
    else SumQuantities(items, pids[..|pids| - 1]) + items[pids[|pids| - 1]].quantity
  }

  /** The sum of quantity times unit price over the listed line items. */
  function SumAmounts(items: map<nat, LineItem>, pids: seq<nat>): int
    requires forall pid :: pid in pids ==> pid in items
  {
    if pids == [] then 0
    else SumAmounts(items, pids[..|pids| - 1]) + items[pids[|pids| - 1]].quantity * items[pids[|pids| - 1]].unitPrice
  }

  /** Where every stored line total is consistent, the sum of line totals
      is the sum of quantity times unit price. */
  lemma {:induction false} LineTotalsAreAmounts(items: map<nat, LineItem>, pids: seq<nat>)
    requires forall pid :: pid in items ==> LineTotalConsistent(items[pid])
    requires forall pid :: pid in pids ==> pid in items
    ensures SumLineTotals(items, pids) == SumAmounts(items, pids)
  {
    if pids != [] {
      LineTotalsAreAmounts(items, pids[..|pids| - 1]);
    }
  }

  /** When every line item has a quantity of at least 1, the total
      quantity is at least the number of items summed. */
  lemma {:induction false} QuantityCoversCount(items: map<nat, LineItem>, pids: seq<nat>)
    requires forall pid :: pid in items ==> items[pid].quantity >= 1
    requires forall pid :: pid in pids ==> pid in items
    ensures SumQuantities(items, pids) >= |pids|
  {
    if pids != [] {
      QuantityCoversCount(items, pids[..|pids| - 1]);
    }
  }

  /** The three figures `show` adds to the order. */
  datatype Aggregates = Aggregates(calculatedTotal: int, productCount: nat, totalQuantity: int)

  /** show: 404 for a missing or trashed order; otherwise
      calculated_total, product_count and total_quantity over the loaded
      line items. */
  function Show(db: Database, id: nat): (a: Option<Aggregates>)
    reads db
    requires db.Valid()
    ensures a.Some? <==> Live(db.orders, id)
    ensures a.Some? ==>
              var pids := LoadedProducts(db.products, db.lineItems[id]);
              && a.value.calculatedTotal == SumAmounts(db.lineItems[id], pids)
              && a.value.productCount == |set pid | pid in db.lineItems[id] && Live(db.products, pid)|
              && a.value.totalQuantity == SumQuantities(db.lineItems[id], pids)
    ensures a.Some? && (forall pid :: pid in db.lineItems[id] ==> Live(db.products, pid)) ==>
              a.value.productCount == |db.lineItems[id]|
  {
    if !Live(db.orders, id) then None
    else
      var items := db.lineItems[id];
      var pids := LoadedProducts(db.products, items);
      LineTotalsAreAmounts(items, pids);
      assert (forall pid :: pid in items ==> Live(db.products, pid)) ==>
               (set pid | pid in items && Live(db.products, pid)) == items.Keys;
      Some(Aggregates(SumLineTotals(items, pids), |pids|, SumQuantities(items, pids)))
  }

  /** The `filters` index hands to getFilteredOrders: the seven getter
      values, with `include_deleted` left out. */
  function ForwardedFilters(r: Idx.OrderIndexInput, customers: set<nat>, statuses: set<nat>): (f: OR.OrderFilters)
    requires Idx.RulesHold(r, customers, statuses)
    ensures f.perPage.Some? && 1 <= f.perPage.value <= 100
    ensures f.sortBy.Some? && f.sortDirection.Some?
  {
    Idx.GettersWithinRules(r, customers, statuses);
    OR.OrderFilters(Idx.GetCustomerId(r), Idx.GetStatusId(r), Idx.GetCreatedFrom(r), Idx.GetCreatedTo(r),
                    Idx.SortColumnOf(Idx.GetSortBy(r)), DirectionOf(Idx.GetSortDirection(r)),
                    Some(Idx.GetPerPage(r) as nat))
  }

  /** The reply of index: the validation failure, or the page with the
      echoed filters. */
  datatype IndexReply =
    | IndexInvalid(response: Response<Idx.OrderIndexField>)
    | Listing(page: Page<nat>, filters: Idx.OrderIndexFilters)

  /** index: the listing of the orders the query selects. */
  function Index(orders: Table<Order>, r: Idx.OrderIndexInput, customers: set<nat>, statuses: set<nat>): (reply: IndexReply)
    ensures reply.Listing? <==> Idx.RulesHold(r, customers, statuses)
    ensures reply.IndexInvalid? ==> reply.response.status == 422
    ensures reply.Listing? ==>
              && reply.page.perPage == Idx.GetPerPage(r)
              && reply.page.currentPage == Idx.GetPage(r)
              && (forall i :: 0 <= i < |reply.page.items| ==>
                    Live(orders, reply.page.items[i])
                    && OR.MatchesOrder(orders[reply.page.items[i]].data, ForwardedFilters(r, customers, statuses)))
              && reply.filters == Idx.GetFilters(r)
  {
    var outcome := Idx.Outcome(r, customers, statuses);
    if outcome.Some? then IndexInvalid(outcome.value)
    else
      Idx.GettersWithinRules(r, customers, statuses);
      Listing(OR.FilteredOrders(orders, ForwardedFilters(r, customers, statuses), Idx.GetPage(r)), Idx.GetFilters(r))
  }

  /** include_deleted is validated but never forwarded: it does not
      change the reply. */
  lemma IndexIgnoresIncludeDeleted(orders: Table<Order>, r: Idx.OrderIndexInput, customers: set<nat>, statuses: set<nat>, flag: Input<bool>)
    ensures Index(orders, r.(includeDeleted := flag), customers, statuses) == Index(orders, r, customers, statuses)
  {
    var r' := r.(includeDeleted := flag);
    forall f | f in Idx.OrderIndexFields
      ensures Idx.OrderIndexRule(f, r', customers, statuses) == Idx.OrderIndexRule(f, r, customers, statuses)
    {
    }
    assert Idx.Errors(r', customers, statuses) == Idx.Errors(r, customers, statuses);
  }

  /** The empty query lists live orders newest first, 15 to a page. */
  lemma IndexDefaults(orders: Table<Order>, customers: set<nat>, statuses: set<nat>)
    ensures var r := Idx.OrderIndexInput(Missing, Missing, Missing, Missing, Missing, Missing, Missing, Missing, Missing);
            var reply := Index(orders, r, customers, statuses);
            && reply.Listing?
            && reply.page.perPage == 15 && reply.page.currentPage == 1
            && Ordering.SortedBy(reply.page.items, RowKey(orders, OR.OrderKey(OR.OrderCreatedAt)), Desc)
  {
    var r := Idx.OrderIndexInput(Missing, Missing, Missing, Missing, Missing, Missing, Missing, Missing, Missing);
    assert forall f :: f in Idx.OrderIndexFields ==> Idx.OrderIndexRule(f, r, customers, statuses);
    Idx.Defaults(r);
  }
}

=== FILE: order_index_request.dfy ===
/** The query of the order listing: its rules, the getters with their
    defaults, and the filters echoed back in the response. Dates are day
    numbers. */
module OrderIndexRequest {
  import opened Common
  import opened Validation
  import OrderRepository

  datatype OrderIndexInput = OrderIndexInput(
    customerId: Input<int>,
    statusId: Input<int>,
    createdFrom: Input<int>,
    createdTo: Input<int>,
    sortBy: Input<string>,
    sortDirection: Input<string>,
    perPage: Input<int>,
    page: Input<int>,
    includeDeleted: Input<bool>)

  /** `Rule::in(['id', 'total', 'created_at', 'updated_at'])`, read as a
      column of the orders table. */
  function SortColumnOf(s: string): (c: Option<OrderRepository.OrderColumn>)
    ensures c.Some? <==> s == "id" || s == "total" || s == "created_at" || s == "updated_at"
    ensures c == Some(OrderRepository.OrderCreatedAt) <==> s == "created_at"
  {
    if s == "id" then Some(OrderRepository.OrderId)
    else if s == "total" then Some(OrderRepository.OrderTotal)
    else if s == "created_at" then Some(OrderRepository.OrderCreatedAt)
    else if s == "updated_at" then Some(OrderRepository.OrderUpdatedAt)
    else None
  }

  datatype OrderIndexField =
    | CustomerIdFilter | StatusIdFilter | CreatedFromFilter | CreatedToFilter
    | SortByParam | SortDirectionParam | PerPageParam | PageParam | IncludeDeletedParam

  const OrderIndexFields: set<OrderIndexField> := {
    CustomerIdFilter, StatusIdFilter, CreatedFromFilter, CreatedToFilter,
    SortByParam, SortDirectionParam, PerPageParam, PageParam, IncludeDeletedParam }

  /** `before_or_equal:created_to` and `after_or_equal:created_from`: when
      both dates are given, the range is not reversed. */
  predicate DateRangeRule(r: OrderIndexInput)
  {
    r.createdFrom.Given? && r.createdTo.Given? ==> r.createdFrom.value <= r.createdTo.value
  }

  /** The rule array entry of each field; `customers` and `statuses` are
      the ids the `exists` rules look up. */
  predicate OrderIndexRule(f: OrderIndexField, r: OrderIndexInput, customers: set<nat>, statuses: set<nat>)
  {
    match f
    case CustomerIdFilter => Nullable(r.customerId, (v: int) => v in customers)
    case StatusIdFilter => Nullable(r.statusId, (v: int) => v in statuses)
    case CreatedFromFilter => DateRangeRule(r)
    case CreatedToFilter => DateRangeRule(r)
    case SortByParam => NullableText(r.sortBy, s => SortColumnOf(s).Some?)
    case SortDirectionParam => NullableText(r.sortDirection, s => DirectionOf(s).Some?)
    case PerPageParam => Nullable(r.perPage, (v: int) => 1 <= v <= 100)
    case PageParam => Nullable(r.page, (v: int) => v >= 1)
    case IncludeDeletedParam => true
  }

  predicate RulesHold(r: OrderIndexInput, customers: set<nat>, statuses: set<nat>)
  {
    forall f :: f in OrderIndexFields ==> OrderIndexRule(f, r, customers, statuses)
  }

  /** The keys of the errors map: exactly the fields whose rules fail. */
  function Errors(r: OrderIndexInput, customers: set<nat>, statuses: set<nat>): (errors: set<OrderIndexField>)
    ensures errors == {} <==> RulesHold(r, customers, statuses)
    ensures SortByParam in errors <==> !NullableText(r.sortBy, s => SortColumnOf(s).Some?)
    ensures SortDirectionParam in errors <==> !NullableText(r.sortDirection, s => DirectionOf(s).Some?)
    ensures PerPageParam in errors <==> r.perPage.Given? && !(1 <= r.perPage.value <= 100)
    ensures PageParam in errors <==> r.page.Given? && r.page.value < 1
    ensures CreatedFromFilter in errors <==> !DateRangeRule(r)
    ensures IncludeDeletedParam !in errors
  {
    var errors := set f | f in OrderIndexFields && !OrderIndexRule(f, r, customers, statuses);
    assert errors == {} ==> RulesHold(r, customers, statuses) by {
      if errors == {} {
        forall f | f in OrderIndexFields ensures OrderIndexRule(f, r, customers, statuses) {
          assert f !in errors;
        }
      }
    }
    errors
  }

  /** failedValidation: 422, success false, the message 'Validation
      failed.' and the errors map. */
  function Outcome(r: OrderIndexInput, customers: set<nat>, statuses: set<nat>): (resp: Option<Response<OrderIndexField>>)
    ensures resp.None? <==> RulesHold(r, customers, statuses)
    ensures resp.Some? ==> resp.value == Response(422, false, Some("Validation failed."), Errors(r, customers, statuses))
                           && resp.value.errors != {}
  {
    Verdict(Errors(r, customers, statuses), Some("Validation failed."))
  }

  function GetCustomerId(r: OrderIndexInput): Option<int> { OrNull(r.customerId) }
  function GetStatusId(r: OrderIndexInput): Option<int> { OrNull(r.statusId) }
  function GetCreatedFrom(r: OrderIndexInput): Option<int> { OrNull(r.createdFrom) }
  function GetCreatedTo(r: OrderIndexInput): Option<int> { OrNull(r.createdTo) }

  /** getSortBy as written: a sort_by sent empty reaches the `string`
      return type as null and the request fails. */
  function GetSortByAsWritten(r: OrderIndexInput): (s: Option<string>)
    ensures s.None? <==> Normalized(r.sortBy).Null?
  {
    InputOrDefaultAsWritten(Normalized(r.sortBy), "created_at")
  }

  /** getSortBy as the `nullable` rule intends it: 'created_at' unless a
      value is given. */
  function GetSortBy(r: OrderIndexInput): string
  {
    InputOrDefault(Normalized(r.sortBy), "created_at")
  }

  /** getSortDirection as written: null when sort_direction is sent
      empty, which its `string` return type refuses. */
  function GetSortDirectionAsWritten(r: OrderIndexInput): (s: Option<string>)
    ensures s.None? <==> Normalized(r.sortDirection).Null?
  {
    InputOrDefaultAsWritten(Normalized(r.sortDirection), "desc")
  }

  function GetSortDirection(r: OrderIndexInput): string
  {
    InputOrDefault(Normalized(r.sortDirection), "desc")
  }

  /** getPerPage as written: a null per_page reaches the `int` return
      type and the request fails. */
  function GetPerPageAsWritten(r: OrderIndexInput): (n: Option<int>)
    ensures n.None? <==> r.perPage.Null?
  {
    InputOrDefaultAsWritten(r.perPage, 15)
  }

  function GetPerPage(r: OrderIndexInput): int
  {
    InputOrDefault(r.perPage, 15)
  }

  /** getPage as written: null when page is sent empty. */
  function GetPageAsWritten(r: OrderIndexInput): (n: Option<int>)
    ensures n.None? <==> r.page.Null?
  {
    InputOrDefaultAsWritten(r.page, 1)
  }

  function GetPage(r: OrderIndexInput): int
  {
    InputOrDefault(r.page, 1)
  }

  /** `$this->boolean('include_deleted', false)`: true only when the flag
      is given as true. */
  function ShouldIncludeDeleted(r: OrderIndexInput): bool
  {
    r.includeDeleted == Given(true)
  }

  /** A query that passes the rules yields getters inside the allow-lists
      and bounds, whether the parameters are given, null or absent. */
  lemma GettersWithinRules(r: OrderIndexInput, customers: set<nat>, statuses: set<nat>)
    requires RulesHold(r, customers, statuses)
    ensures SortColumnOf(GetSortBy(r)).Some?
    ensures DirectionOf(GetSortDirection(r)).Some?
    ensures 1 <= GetPerPage(r) <= 100 && GetPage(r) >= 1
    ensures GetCustomerId(r).Some? ==> GetCustomerId(r).value in customers
    ensures GetStatusId(r).Some? ==> GetStatusId(r).value in statuses
  {
    assert OrderIndexRule(SortByParam, r, customers, statuses);
    assert OrderIndexRule(SortDirectionParam, r, customers, statuses);
    assert OrderIndexRule(PerPageParam, r, customers, statuses);
    assert OrderIndexRule(PageParam, r, customers, statuses);
    assert OrderIndexRule(CustomerIdFilter, r, customers, statuses);
    assert OrderIndexRule(StatusIdFilter, r, customers, statuses);
  }

  /** The empty query: created_at, desc, 15 to a page, page 1, trashed
      orders excluded. */
  lemma Defaults(r: OrderIndexInput)
    requires r == OrderIndexInput(Missing, Missing, Missing, Missing, Missing, Missing, Missing, Missing, Missing)
    ensures GetSortBy(r) == "created_at" && GetSortDirection(r) == "desc"
    ensures GetPerPage(r) == 15 && GetPage(r) == 1 && !ShouldIncludeDeleted(r)
    ensures RulesHold(r, {}, {})
  {
    assert forall f :: f in OrderIndexFields ==> OrderIndexRule(f, r, {}, {});
  }

  /** `?sort_by=&sort_direction=&per_page=&page=` passes the `nullable`
      rules, yet none of the four getters as written can return its value;
      the intended getters fall back to their defaults. */
  lemma EmptyParamsBreakGetters(customers: set<nat>, statuses: set<nat>)
    ensures var r := OrderIndexInput(Missing, Missing, Missing, Missing, Given(""), Given(""), Null, Null, Missing);
            && RulesHold(r, customers, statuses)
            && GetSortByAsWritten(r).None? && GetSortDirectionAsWritten(r).None?
            && GetPerPageAsWritten(r).None? && GetPageAsWritten(r).None?
            && GetSortBy(r) == "created_at" && GetSortDirection(r) == "desc"
            && GetPerPage(r) == 15 && GetPage(r) == 1
  {
    var r := OrderIndexInput(Missing, Missing, Missing, Missing, Given(""), Given(""), Null, Null, Missing);
    assert forall f :: f in OrderIndexFields ==> OrderIndexRule(f, r, customers, statuses);
  }

  /** The `filters` entry of the listing response. */
  datatype OrderIndexFilters = OrderIndexFilters(
    customerId: Option<int>,
    statusId: Option<int>,
    createdFrom: Option<int>,
    createdTo: Option<int>,
    sortBy: string,
    sortDirection: string)

  /** getFilters: the six filter values as the getters read them; paging
      parameters and include_deleted are not part of it. */
  function GetFilters(r: OrderIndexInput): (f: OrderIndexFilters)
    ensures f.customerId.Some? <==> r.customerId.Given?
    ensures f.statusId.Some? <==> r.statusId.Given?
    ensures f.createdFrom.Some? <==> r.createdFrom.Given?
    ensures f.createdTo.Some? <==> r.createdTo.Given?
    ensures f.sortBy == GetSortBy(r) && f.sortDirection == GetSortDirection(r)
  {
    OrderIndexFilters(GetCustomerId(r), GetStatusId(r), GetCreatedFrom(r), GetCreatedTo(r),
                      GetSortBy(r), GetSortDirection(r))
  }

  /** The echoed filters do not depend on per_page, page or
      include_deleted. */
  lemma FiltersIgnorePaging(r: OrderIndexInput, perPage: Input<int>, page: Input<int>, includeDeleted: Input<bool>)
    ensures GetFilters(r.(perPage := perPage, page := page, includeDeleted := includeDeleted)) == GetFilters(r)
  {
  }
}

=== FILE: order_repository.dfy ===
/** The order repository: the order header plus its line items in the
    pivot table, filtered listing, and soft delete / restore. */
module OrderRepository {
  import opened Common
  import opened Ordering
  import opened Paging
  import opened Tables
  import opened Records
  import opened Persistence

  /** One entry of the `products` list of a request: the product, the
      quantity and the unit price in cents. */
  datatype ProductLine = ProductLine(productId: nat, quantity: int, price: int)

  /** The pivot row one input line produces. */
  function LineItemOf(line: ProductLine): LineItem
  {
    LineItem(line.quantity, line.price, line.quantity * line.price)
  }

  /** The product ids a list of lines mentions. */
  function ProductIds(lines: seq<ProductLine>): set<nat>
  {
    set i | 0 <= i < |lines| :: lines[i].productId
  }

  /** The `$pivotData` array attachProducts and syncProducts build: one
      entry per product id, where a later line for the same product
      overwrites an earlier one. */
  function PivotData(lines: seq<ProductLine>): map<nat, LineItem>
  {
    if lines == [] then map[]
    else
      var last := lines[|lines| - 1];
      PivotData(lines[..|lines| - 1])[last.productId := LineItemOf(last)]
  }

  /** The pivot data has exactly one entry per distinct product id. */
  lemma {:induction false} PivotDataKeys(lines: seq<ProductLine>)
    ensures PivotData(lines).Keys == ProductIds(lines)
  {
    if lines != [] {
      var init := lines[..|lines| - 1];
      PivotDataKeys(init);
      assert ProductIds(lines) == ProductIds(init) + {lines[|lines| - 1].productId} by {
        forall pid | pid in ProductIds(lines) ensures pid in ProductIds(init) + {lines[|lines| - 1].productId} {
          var i :| 0 <= i < |lines| && lines[i].productId == pid;
          if i < |lines| - 1 { assert init[i] == lines[i]; }
        }
        forall pid | pid in ProductIds(init) ensures pid in ProductIds(lines) {
          var i :| 0 <= i < |init| && init[i].productId == pid;
          assert lines[i] == init[i];
        }
      }
    }
  }

  /** The entry of a product is built from its last line: unit price is
      that line's price and line total is its quantity times its price. */
  lemma {:induction false} PivotDataLastWins(lines: seq<ProductLine>, i: nat)
    requires i < |lines|
    requires forall j :: i < j < |lines| ==> lines[j].productId != lines[i].productId
    ensures lines[i].productId in PivotData(lines)
    ensures PivotData(lines)[lines[i].productId] == LineItemOf(lines[i])
  {
    if i < |lines| - 1 {
      var init := lines[..|lines| - 1];
      forall j | i < j < |init| ensures init[j].productId != init[i].productId {
        assert init[j] == lines[j];
      }
      PivotDataLastWins(init, i);
    }
  }

  /** Every entry of the pivot data stores quantity times unit price. */
  lemma {:induction false} PivotDataConsistent(lines: seq<ProductLine>)
    ensures forall pid :: pid in PivotData(lines) ==> LineTotalConsistent(PivotData(lines)[pid])
  {
    if lines != [] {
      PivotDataConsistent(lines[..|lines| - 1]);
    }
  }

  /** The foreach loop that fills `$pivotData`. */
  method BuildPivotData(lines: seq<ProductLine>) returns (data: map<nat, LineItem>)
    ensures data == PivotData(lines)
  {
    data := map[];
    var i := 0;
    while i < |lines|
      invariant 0 <= i <= |lines|
      invariant data == PivotData(lines[..i])
    {
      assert lines[..i + 1][..i] == lines[..i];
      data := data[lines[i].productId := LineItemOf(lines[i])];
      i := i + 1;
    }
    assert lines[..|lines|] == lines;
  }

  /** attachProducts: adds the pivot rows of `lines` to the order. The
      products must not be attached to the order already. */
  method AttachProducts(db: Database, orderId: nat, lines: seq<ProductLine>)
    requires db.Valid() && orderId in db.orders
    requires forall pid :: pid in ProductIds(lines) ==> pid !in db.lineItems[orderId]
    modifies db
    ensures db.Valid()
    ensures db.lineItems == old(db.lineItems)[orderId := old(db.lineItems[orderId]) + PivotData(lines)]
    ensures db.orders == old(db.orders) && db.Catalogue() == old(db.Catalogue())
  {
    var data := BuildPivotData(lines);
    PivotDataConsistent(lines);
    db.lineItems := db.lineItems[orderId := db.lineItems[orderId] + data];
  }

  /** syncProducts: detaches the products missing from `lines`, updates
      the ones present and attaches the new ones, so the order's line
      items become exactly the pivot data of `lines`. */
  method SyncProducts(db: Database, orderId: nat, lines: seq<ProductLine>)
    requires db.Valid() && orderId in db.orders
    modifies db
    ensures db.Valid()
    ensures db.lineItems == old(db.lineItems)[orderId := PivotData(lines)]
    ensures forall pid :: pid in old(db.lineItems[orderId]) && pid !in ProductIds(lines) ==>
              pid !in db.lineItems[orderId]
    ensures forall pid :: pid in ProductIds(lines) <==> pid in db.lineItems[orderId]
    ensures db.orders == old(db.orders) && db.Catalogue() == old(db.Catalogue())
  {
    var data := BuildPivotData(lines);
    PivotDataConsistent(lines);
    PivotDataKeys(lines);
    var current := db.lineItems[orderId];
    var detached := current.Keys - data.Keys;
    var kept := map pid | pid in current && pid !in detached :: current[pid];
    assert kept + data == data;
    db.lineItems := db.lineItems[orderId := kept + data];
  }

  /** create: inserts the header under a new id, with no line items. */
  method Create(db: Database, header: Order) returns (id: nat)
    requires db.Valid()
    modifies db
    ensures db.Valid()
    ensures id !in old(db.orders) && db.orders == old(db.orders)[id := Row(header, None, false)]
    ensures db.lineItems == old(db.lineItems)[id := map[]]
    ensures db.Catalogue() == old(db.Catalogue())
  {
    var inserted := Inserted(db.orders, header);
    id := inserted.1;
    db.orders, db.lineItems := inserted.0, db.lineItems[id := map[]];
  }

  /** createWithProducts: inserts the header, then attaches the line
      items when the product list is non-empty. */
  method CreateWithProducts(db: Database, header: Order, lines: seq<ProductLine>) returns (id: nat)
    requires db.Valid()
    modifies db
    ensures db.Valid()
    ensures id !in old(db.orders) && db.orders == old(db.orders)[id := Row(header, None, false)]
    ensures db.lineItems == old(db.lineItems)[id := PivotData(lines)]
    ensures lines == [] ==> db.lineItems[id] == map[]
    ensures db.Catalogue() == old(db.Catalogue())
  {
    id := Create(db, header);
    if lines != [] {
      AttachProducts(db, id, lines);
      assert map[] + PivotData(lines) == PivotData(lines);
    }
  }

  /** The fillable header columns an update may carry; an absent key
      keeps the column. */
  datatype OrderPatch = OrderPatch(
    customerId: Option<nat>,
    statusId: Option<nat>,
    total: Option<int>,
    notes: Input<string>,
    updatedBy: Input<UserId>)

  /** The fillable columns after `fill(patch)`. */
  function Filled(o: Order, patch: OrderPatch): Order
  {
    o.(customerId := AssignSome(o.customerId, patch.customerId),
       statusId := AssignSome(o.statusId, patch.statusId),
       total := AssignSome(o.total, patch.total),
       notes := Assign(o.notes, patch.notes),
       updatedBy := Assign(o.updatedBy, patch.updatedBy))
  }

  /** `update(patch)` at time `now`: `save()` writes only when a column
      changed, and a write refreshes `updated_at`. This is
      `BaseRepository.Saved` on the order's record, whose fill never sets
      `updated_at` itself. */
  function Patched(o: Order, patch: OrderPatch, now: Timestamp): (p: Order)
    ensures p == o <==> Filled(o, patch) == o
    ensures p != o ==> p == Filled(o, patch).(updatedAt := now)
  {
    var filled := Filled(o, patch);
    if filled == o then o else OrderTouch(now)(filled)
  }

  /** The orders table after `update(id, patch)` on a live order. */
  function PatchedOrders(t: Table<Order>, id: nat, patch: OrderPatch, now: Timestamp): (r: Table<Order>)
    requires Live(t, id)
    ensures r.Keys == t.Keys && Live(r, id)
    ensures forall other :: other in t && other != id ==> r[other] == t[other]
    ensures r[id].data == Patched(t[id].data, patch, now)
  {
    t[id := t[id].(data := Patched(t[id].data, patch, now))]
  }

  /** A patch that sets every column to its current value writes
      nothing: `updated_at` keeps its value. */
  lemma UnchangedPatchWritesNothing(o: Order, now: Timestamp)
    ensures var same := OrderPatch(Some(o.customerId), Some(o.statusId), Some(o.total),
                                   if o.notes.Some? then Given(o.notes.value) else Null,
                                   if o.updatedBy.Some? then Given(o.updatedBy.value) else Null);
            Patched(o, same, now) == o
  {
  }

  /** A patch that changes a column refreshes `updated_at` and leaves the
      creation stamps alone. */
  lemma ChangingPatchTouches(o: Order, patch: OrderPatch, now: Timestamp)
    requires patch.statusId.Some? && patch.statusId.value != o.statusId
    ensures var p := Patched(o, patch, now);
            p.updatedAt == now && p.statusId == patch.statusId.value
            && p.createdAt == o.createdAt && p.createdBy == o.createdBy
  {
  }

  /** updateWithProducts: a missing or trashed order fails and nothing
      changes; otherwise the header takes the patch (refreshing
      `updated_at` when a column changes), and a non-empty product list
      replaces the line items while an empty one leaves them alone. */
  method UpdateWithProducts(db: Database, id: nat, patch: OrderPatch, lines: seq<ProductLine>, now: Timestamp)
    returns (found: bool)
    requires db.Valid()
    modifies db
    ensures db.Valid()
    ensures found == Live(old(db.orders), id)
    ensures !found ==> db.orders == old(db.orders) && db.lineItems == old(db.lineItems)
    ensures found ==> db.orders == PatchedOrders(old(db.orders), id, patch, now)
    ensures found && lines == [] ==> db.lineItems == old(db.lineItems)
    ensures found && lines != [] ==> db.lineItems == old(db.lineItems)[id := PivotData(lines)]
    ensures db.Catalogue() == old(db.Catalogue())
  {
    found := Live(db.orders, id);
    if !found {
      return;
    }
    db.orders := PatchedOrders(db.orders, id, patch, now);
    if lines != [] {
      SyncProducts(db, id, lines);
    }
  }

  /** softDelete: a missing or already trashed order fails and nothing
      changes; otherwise `deleted_by` is stamped when an actor is given,
      the order is marked deleted and its `updated_at` becomes `now`.
      Line items stay. */
  method SoftDelete(db: Database, id: nat, actor: Option<UserId>, now: Timestamp) returns (ok: bool)
    requires db.Valid()
    modifies db
    ensures db.Valid()
    ensures ok == Live(old(db.orders), id)
    ensures db.orders == if ok then SoftDeleted(old(db.orders), id, actor, OrderTouch(now)) else old(db.orders)
    ensures ok ==> db.orders[id].trashed && db.orders[id].data == old(db.orders[id].data).(updatedAt := now)
    ensures db.lineItems == old(db.lineItems) && db.Catalogue() == old(db.Catalogue())
  {
    ok := Live(db.orders, id);
    if ok {
      db.orders := SoftDeleted(db.orders, id, actor, OrderTouch(now));
    }
  }

  /** restore: succeeds iff the id names an order at all, clears the
      deleted mark and sets `updated_at` to `now`. */
  method Restore(db: Database, id: nat, now: Timestamp) returns (ok: bool)
    requires db.Valid()
    modifies db
    ensures db.Valid()
    ensures ok == (id in old(db.orders))
    ensures db.orders == Restored(old(db.orders), id, OrderTouch(now))
    ensures ok ==> Live(db.orders, id) && db.orders[id].data == old(db.orders[id].data).(updatedAt := now)
    ensures db.lineItems == old(db.lineItems) && db.Catalogue() == old(db.Catalogue())
  {
    ok := id in db.orders;
    db.orders := Restored(db.orders, id, OrderTouch(now));
  }

  /** The columns an order listing may be sorted by. */
  datatype OrderColumn = OrderId | OrderTotal | OrderCreatedAt | OrderUpdatedAt

  function OrderKey(column: OrderColumn): (nat, Order) -> Key
  {
    match column
    case OrderId => (id: nat, _: Order) => IntKey(id)
    case OrderTotal => (_: nat, o: Order) => IntKey(o.total)
    case OrderCreatedAt => (_: nat, o: Order) => TimeKey(o.createdAt)
    case OrderUpdatedAt => (_: nat, o: Order) => TimeKey(o.updatedAt)
  }

  /** The filters getFilteredOrders reads; dates are day numbers. */
  datatype OrderFilters = OrderFilters(
    customerId: Option<int>,
    statusId: Option<int>,
    createdFrom: Option<int>,
    createdTo: Option<int>,
    sortBy: Option<OrderColumn>,
    sortDirection: Option<Direction>,
    perPage: Option<nat>)

  /** PHP's `!empty()` on an integer filter: present and not 0. */
  predicate Given0(v: Option<int>)
  {
    v.Some? && v.value != 0
  }

  /** An order satisfies every non-empty filter: equal customer and
      status, created on or after `createdFrom` and on or before
      `createdTo`. */
  predicate MatchesOrder(o: Order, f: OrderFilters)
  {
    && (Given0(f.customerId) ==> o.customerId == f.customerId.value)
    && (Given0(f.statusId) ==> o.statusId == f.statusId.value)
    && (f.createdFrom.Some? ==> o.createdAt.day >= f.createdFrom.value)
    && (f.createdTo.Some? ==> o.createdAt.day <= f.createdTo.value)
  }

  function SortColumn(f: OrderFilters): OrderColumn
  {
    if f.sortBy.Some? then f.sortBy.value else OrderCreatedAt
  }

  function SortDirection(f: OrderFilters): Direction
  {
    if f.sortDirection.Some? then f.sortDirection.value else Desc
  }

  function PerPage(f: OrderFilters): nat
  {
    if f.perPage.Some? then f.perPage.value else 15
  }

  /** The whole ordered result of getFilteredOrders, before paging. */
  function OrderedOrders(t: Table<Order>, f: OrderFilters): (ids: seq<nat>)
    ensures forall id :: id in ids <==> Live(t, id) && MatchesOrder(t[id].data, f)
    ensures forall id :: multiset(ids)[id] <= 1
    ensures SortedBy(ids, RowKey(t, OrderKey(SortColumn(f))), SortDirection(f))
  {
    SortedSelect(t, (_: nat, o: Order) => MatchesOrder(o, f), OrderKey(SortColumn(f)), SortDirection(f))
  }

  /** getFilteredOrders: page `page` of the matching orders, ordered by
      sort_by in sort_direction (created_at desc by default), 15 to a page
      by default. */
  function FilteredOrders(t: Table<Order>, f: OrderFilters, page: nat): (p: Page<nat>)
    requires f.perPage.Some? ==> f.perPage.value >= 1
    requires page >= 1
    ensures p.perPage == (if f.perPage.None? then 15 else f.perPage.value)
    ensures forall i :: 0 <= i < |p.items| ==> Live(t, p.items[i]) && MatchesOrder(t[p.items[i]].data, f)
    ensures p.total == |OrderedOrders(t, f)|
    ensures SortedBy(p.items, RowKey(t, OrderKey(SortColumn(f))), SortDirection(f))
    ensures f.sortBy.None? && f.sortDirection.None? ==>
              SortedBy(p.items, RowKey(t, OrderKey(OrderCreatedAt)), Desc)
  {
    var ids := OrderedOrders(t, f);
    SortedSlice(ids, RowKey(t, OrderKey(SortColumn(f))), SortDirection(f),
                PageStart(|ids|, PerPage(f), page), PageEnd(|ids|, PerPage(f), page));
    Paginate(ids, PerPage(f), page)
  }

  /** getByCustomer: the live orders of one customer, in id order. */
  function GetByCustomer(t: Table<Order>, customerId: nat): (ids: seq<nat>)
    ensures Increasing(ids)
    ensures forall id :: id in ids <==> Live(t, id) && t[id].data.customerId == customerId
  {
    Select(t, (o: Order) => o.customerId == customerId)
  }

  /** getByStatus: the live orders in one status, in id order. */
  function GetByStatus(t: Table<Order>, statusId: nat): (ids: seq<nat>)
    ensures Increasing(ids)
    ensures forall id :: id in ids <==> Live(t, id) && t[id].data.statusId == statusId
  {
    Select(t, (o: Order) => o.statusId == statusId)
  }

  /** getByDateRange: the live orders created between the two days, both
      ends included. */
  function GetByDateRange(t: Table<Order>, from: int, to: int): (ids: seq<nat>)
    ensures Increasing(ids)
    ensures forall id :: id in ids <==> Live(t, id) && from <= t[id].data.createdAt.day <= to
  {
    Select(t, (o: Order) => from <= o.createdAt.day <= to)
  }
}

=== FILE: order_request.dfy ===
/** The order form request: the rules of an order create (POST) and an
    order update (PUT, where `isUpdate` holds), and the validated data the
    controller receives. */
module OrderRequest {
  import opened Common
  import opened Text
  import opened Validation
  import OrderRepository

  /** One entry of `products`; the price is the text of the amount. */
  datatype LineInput = LineInput(productId: Input<int>, quantity: Input<int>, price: Input<string>)

  datatype OrderInput = OrderInput(
    customerId: Input<int>,
    statusId: Input<int>,
    total: Input<string>,
    subtotal: Input<string>,
    taxAmount: Input<string>,
    shippingAmount: Input<string>,
    discountAmount: Input<string>,
    currency: Input<string>,
    notes: Input<string>,
    shippingAddress: Input<string>,
    billingAddress: Input<string>,
    shippingMethod: Input<string>,
    products: Input<seq<LineInput>>)

  /** The ids the `exists` rules look up; every row counts, trashed or
      not. */
  datatype Existing = Existing(customers: set<nat>, statuses: set<nat>, products: set<nat>)

  predicate CustomerIdRule(x: Input<int>, ex: Existing)
  {
    Required(x, (v: int) => v in ex.customers)
  }

  predicate StatusIdRule(isUpdate: bool, x: Input<int>, ex: Existing)
  {
    RequiredOnCreate(isUpdate, x, (v: int) => v in ex.statuses)
  }

  predicate TotalRule(isUpdate: bool, x: Input<string>)
  {
    RequiredTextOnCreate(isUpdate, x, s => MoneyIn(s, 1, 99999999))
  }

  /** subtotal: up to 999999.99; tax, shipping and discount: up to
      99999.99; none of them below 0. */
  predicate AmountRule(x: Input<string>, hi: nat)
  {
    NullableText(x, s => MoneyIn(s, 0, hi))
  }

  predicate CurrencyRule(x: Input<string>)
  {
    NullableText(x, s => |s| == 3 && IsCurrencyText(s))
  }

  predicate AddressRule(x: Input<string>)
  {
    NullableText(x, s => LengthIn(s, 10, 500))
  }

  predicate MaxLengthRule(x: Input<string>, hi: nat)
  {
    NullableText(x, s => |s| <= hi)
  }

  /** `products`: present with 1 to 50 entries, on create and update
      alike. */
  predicate ProductsRule(x: Input<seq<LineInput>>)
  {
    Required(x, (ls: seq<LineInput>) => 1 <= |ls| <= 50)
  }

  predicate LineProductRule(l: LineInput, ex: Existing)
  {
    Required(l.productId, (v: int) => v in ex.products)
  }

  predicate LineQuantityRule(l: LineInput)
  {
    Required(l.quantity, (q: int) => 1 <= q <= 999)
  }

  predicate LinePriceRule(l: LineInput)
  {
    RequiredText(l.price, s => MoneyIn(s, 1, 9999999))
  }

  /** The entries of `products`, or none when it is absent or null. */
  function Lines(r: OrderInput): seq<LineInput>
  {
    if r.products.Given? then r.products.value else []
  }

  /** The keys of the errors map: `customer_id`, ..., `products`, and
      `products.i.product_id`, `products.i.quantity`, `products.i.price`. */
  datatype OrderField =
    | CustomerIdField | StatusIdField | TotalField | SubtotalField | TaxAmountField
    | ShippingAmountField | DiscountAmountField | CurrencyField | NotesField
    | ShippingAddressField | BillingAddressField | ShippingMethodField | ProductsField
    | LineProductIdField(i: nat) | LineQuantityField(i: nat) | LinePriceField(i: nat)

  const HeaderFields: set<OrderField> := {
    CustomerIdField, StatusIdField, TotalField, SubtotalField, TaxAmountField,
    ShippingAmountField, DiscountAmountField, CurrencyField, NotesField,
    ShippingAddressField, BillingAddressField, ShippingMethodField, ProductsField }

  /** The rule array entry of each top-level field. */
  predicate HeaderRule(f: OrderField, r: OrderInput, isUpdate: bool, ex: Existing)
  {
    match f
    case CustomerIdField => CustomerIdRule(r.customerId, ex)
    case StatusIdField => StatusIdRule(isUpdate, r.statusId, ex)
    case TotalField => TotalRule(isUpdate, r.total)
    case SubtotalField => AmountRule(r.subtotal, 99999999)
    case TaxAmountField => AmountRule(r.taxAmount, 9999999)
    case ShippingAmountField => AmountRule(r.shippingAmount, 9999999)
    case DiscountAmountField => AmountRule(r.discountAmount, 9999999)
    case CurrencyField => CurrencyRule(r.currency)
    case NotesField => MaxLengthRule(r.notes, 1000)
    case ShippingAddressField => AddressRule(r.shippingAddress)
    case BillingAddressField => AddressRule(r.billingAddress)
    case ShippingMethodField => MaxLengthRule(r.shippingMethod, 100)
    case ProductsField => ProductsRule(r.products)
    case _ => true
  }

  /** The rules on the entries of `products`. */
  predicate LineRules(l: LineInput, ex: Existing)
  {
    LineProductRule(l, ex) && LineQuantityRule(l) && LinePriceRule(l)
  }

  /** Every rule of the rule array holds. */
  predicate RulesHold(r: OrderInput, isUpdate: bool, ex: Existing)
  {
    && (forall f :: f in HeaderFields ==> HeaderRule(f, r, isUpdate, ex))
    && (forall i :: 0 <= i < |Lines(r)| ==> LineRules(Lines(r)[i], ex))
  }

  /** The failing fields of the entries of `products`. */
  function LineErrors(ls: seq<LineInput>, ex: Existing): (errors: set<OrderField>)
    ensures errors == {} <==> forall i :: 0 <= i < |ls| ==> LineRules(ls[i], ex)
    ensures forall f :: f in errors ==> f.LineProductIdField? || f.LineQuantityField? || f.LinePriceField?
    ensures forall i: nat :: i < |ls| ==> (LineQuantityField(i) in errors <==> !LineQuantityRule(ls[i]))
    ensures forall i: nat :: LineQuantityField(i) in errors ==> i < |ls|
  {
    var errors :=
      (set i: nat | i < |ls| && !LineProductRule(ls[i], ex) :: LineProductIdField(i))
      + (set i: nat | i < |ls| && !LineQuantityRule(ls[i]) :: LineQuantityField(i))
      + (set i: nat | i < |ls| && !LinePriceRule(ls[i]) :: LinePriceField(i));
    assert errors == {} ==> forall i :: 0 <= i < |ls| ==> LineRules(ls[i], ex) by {
      if errors == {} {
        forall i: nat | i < |ls| ensures LineRules(ls[i], ex) {
          assert LineProductIdField(i) !in errors;
          assert LineQuantityField(i) !in errors;
          assert LinePriceField(i) !in errors;
        }
      }
    }
    errors
  }

  /** The failing top-level fields. */
  function HeaderErrors(r: OrderInput, isUpdate: bool, ex: Existing): (errors: set<OrderField>)
    ensures errors == {} <==> forall f :: f in HeaderFields ==> HeaderRule(f, r, isUpdate, ex)
    ensures forall f :: f in errors ==> !(f.LineProductIdField? || f.LineQuantityField? || f.LinePriceField?)
    ensures CustomerIdField in errors <==> !CustomerIdRule(r.customerId, ex)
    ensures StatusIdField in errors <==> !StatusIdRule(isUpdate, r.statusId, ex)
    ensures TotalField in errors <==> !TotalRule(isUpdate, r.total)
    ensures ProductsField in errors <==> !ProductsRule(r.products)
  {
    var errors := set f | f in HeaderFields && !HeaderRule(f, r, isUpdate, ex);
    assert errors == {} ==> forall f :: f in HeaderFields ==> HeaderRule(f, r, isUpdate, ex) by {
      if errors == {} {
        forall f | f in HeaderFields ensures HeaderRule(f, r, isUpdate, ex) {
          assert f !in errors;
        }
      }
    }
    errors
  }

  /** The keys of the errors map: exactly the fields whose rules fail. */
  function Errors(r: OrderInput, isUpdate: bool, ex: Existing): (errors: set<OrderField>)
    ensures errors == {} <==> RulesHold(r, isUpdate, ex)
    ensures CustomerIdField in errors <==> !CustomerIdRule(r.customerId, ex)
    ensures StatusIdField in errors <==> !StatusIdRule(isUpdate, r.statusId, ex)
    ensures TotalField in errors <==> !TotalRule(isUpdate, r.total)
    ensures ProductsField in errors <==> !ProductsRule(r.products)
    ensures forall i: nat :: i < |Lines(r)| ==>
              (LineQuantityField(i) in errors <==> !LineQuantityRule(Lines(r)[i]))
    ensures forall i: nat :: LineQuantityField(i) in errors ==> i < |Lines(r)|
  {
    HeaderErrors(r, isUpdate, ex) + LineErrors(Lines(r), ex)
  }

  /** The entry of `products` as the repository receives it: the product
      id, the quantity and the price in cents. */
  function LineOf(l: LineInput, ex: Existing): (line: OrderRepository.ProductLine)
    requires LineRules(l, ex)
    ensures line.productId in ex.products
    ensures 1 <= line.quantity <= 999 && 1 <= line.price <= 9999999
  {
    var p := Normalized(l.price).value;
    OrderRepository.ProductLine(l.productId.value as nat, l.quantity.value, Cents(p))
  }

  /** The validated `products` list, entry by entry in request order. */
  function ValidatedLines(r: OrderInput, isUpdate: bool, ex: Existing): (lines: seq<OrderRepository.ProductLine>)
    requires RulesHold(r, isUpdate, ex)
    ensures 1 <= |lines| <= 50 && |lines| == |Lines(r)|
    ensures forall i :: 0 <= i < |lines| ==> lines[i] == LineOf(Lines(r)[i], ex)
  {
    var ls := Lines(r);
    seq(|ls|, i requires 0 <= i < |ls| => LineOf(ls[i], ex))
  }

  /** A create request that passes has a status and a total. */
  lemma CreateNeedsStatusAndTotal(r: OrderInput, ex: Existing)
    requires RulesHold(r, false, ex)
    ensures r.statusId.Given? && r.statusId.value in ex.statuses
    ensures r.total.Given? && 1 <= Cents(Normalized(r.total).value) <= 99999999
  {
  }

  /** An update that passes still passes without status and total. */
  lemma UpdateMayOmitStatusAndTotal(r: OrderInput, ex: Existing)
    requires RulesHold(r, true, ex)
    ensures RulesHold(r.(statusId := Missing, total := Missing), true, ex)
  {
    var r' := r.(statusId := Missing, total := Missing);
    assert Lines(r') == Lines(r);
  }

  /** `products` is required on update too: without it an update fails. */
  lemma UpdateNeedsProducts(r: OrderInput, ex: Existing)
    requires !r.products.Given?
    ensures ProductsField in Errors(r, true, ex) && ProductsField in Errors(r, false, ex)
  {
  }

  /** Any order total between 0.01 and 999999.99, sent as a number,
      passes the total rule on create and on update. */
  lemma AnyTotalInRangePasses(c: nat, isUpdate: bool)
    requires 1 <= c <= 99999999
    ensures TotalRule(isUpdate, Given(NumberText(c)))
  {
    AmountPassesMoneyRule(c, 1, 99999999);
    assert NumberText(c) != "" by { assert |NumberText(c)| >= 1 by { NumberTextRoundTrip(c); } }
  }

  /** failedValidation: a request whose errors map is not empty gets 422,
      success false and that map. */
  function Outcome(r: OrderInput, isUpdate: bool, ex: Existing): (resp: Option<Response<OrderField>>)
    ensures resp.None? <==> RulesHold(r, isUpdate, ex)
    ensures resp.Some? ==> resp.value.status == 422 && !resp.value.success
                           && resp.value.errors == Errors(r, isUpdate, ex) && resp.value.errors != {}
  {
    Verdict(Errors(r, isUpdate, ex), None)
  }
}

=== FILE: ordering.dfy ===
/** ORDER BY over one column, in either direction. A column value is
    turned into a sort key: a sequence of integers compared
    lexicographically (an integer column gives a one-element key, a
    timestamp gives [day, second], a text column gives its character
    codes). */
module Ordering {
  import opened Common

  type Key = seq<int>

  /** Lexicographic order on keys; a proper prefix comes first. */
  predicate KeyLe(a: Key, b: Key)
  {
    if a == [] then true
    else if b == [] then false
    else if a[0] != b[0] then a[0] < b[0]
    else KeyLe(a[1..], b[1..])
  }

  lemma {:induction false} KeyLeTotal(a: Key, b: Key)
    ensures KeyLe(a, b) || KeyLe(b, a)
  {
    if a != [] && b != [] && a[0] == b[0] {
      KeyLeTotal(a[1..], b[1..]);
    }
  }

  lemma {:induction false} KeyLeTransitive(a: Key, b: Key, c: Key)
    requires KeyLe(a, b) && KeyLe(b, c)
    ensures KeyLe(a, c)
  {
    if a != [] && b != [] && c != [] && a[0] == b[0] && b[0] == c[0] {
      KeyLeTransitive(a[1..], b[1..], c[1..]);
    }
  }

  lemma {:induction false} KeyLeAntisymmetric(a: Key, b: Key)
    requires KeyLe(a, b) && KeyLe(b, a)
    ensures a == b
  {
    if a != [] && b != [] {
      KeyLeAntisymmetric(a[1..], b[1..]);
      assert a == [a[0]] + a[1..];
      assert b == [b[0]] + b[1..];
    }
  }

  /** Whether a row with key `a` may come before a row with key `b` when
      sorting in direction `dir`. */
  predicate InOrder(a: Key, b: Key, dir: Direction)
  {
    if dir == Asc then KeyLe(a, b) else KeyLe(b, a)
  }

  lemma InOrderTotal(a: Key, b: Key, dir: Direction)
    ensures InOrder(a, b, dir) || InOrder(b, a, dir)
  {
    KeyLeTotal(a, b);
  }

  lemma InOrderTransitive(a: Key, b: Key, c: Key, dir: Direction)
    requires InOrder(a, b, dir) && InOrder(b, c, dir)
    ensures InOrder(a, c, dir)
  {
    if dir == Asc { KeyLeTransitive(a, b, c); } else { KeyLeTransitive(c, b, a); }
  }

  /** `xs` is ordered by `key` in direction `dir`. */
  ghost predicate SortedBy<T>(xs: seq<T>, key: T -> Key, dir: Direction)
  {
    forall i, j :: 0 <= i < j < |xs| ==> InOrder(key(xs[i]), key(xs[j]), dir)
  }

  /** Every slice of an ordered sequence is ordered. */
  lemma SortedSlice<T>(xs: seq<T>, key: T -> Key, dir: Direction, s: nat, e: nat)
    requires SortedBy(xs, key, dir) && s <= e <= |xs|
    ensures SortedBy(xs[s..e], key, dir)
  {
    forall i, j | 0 <= i < j < e - s ensures InOrder(key(xs[s..e][i]), key(xs[s..e][j]), dir) {
      assert xs[s..e][i] == xs[s + i] && xs[s..e][j] == xs[s + j];
    }
  }

  /** Inserts `x` before the first element that may not precede it. */
  function Insert<T>(x: T, xs: seq<T>, key: T -> Key, dir: Direction): seq<T>
  {
    if xs == [] || InOrder(key(x), key(xs[0]), dir) then [x] + xs
    else [xs[0]] + Insert(x, xs[1..], key, dir)
  }

  lemma {:induction false} InsertSorted<T>(x: T, xs: seq<T>, key: T -> Key, dir: Direction)
    requires SortedBy(xs, key, dir)
    ensures SortedBy(Insert(x, xs, key, dir), key, dir)
    ensures multiset(Insert(x, xs, key, dir)) == multiset(xs) + multiset{x}
  {
    var r := Insert(x, xs, key, dir);
    if xs == [] {
    } else if InOrder(key(x), key(xs[0]), dir) {
      forall j | 1 <= j < |r| ensures InOrder(key(r[0]), key(r[j]), dir) {
        if j > 1 { InOrderTransitive(key(x), key(xs[0]), key(xs[j - 1]), dir); }
      }
    } else {
      InOrderTotal(key(x), key(xs[0]), dir);
      var tail := Insert(x, xs[1..], key, dir);
      InsertSorted(x, xs[1..], key, dir);
      assert r == [xs[0]] + tail;
      assert xs == [xs[0]] + xs[1..];
      assert multiset(tail) == multiset(xs[1..]) + multiset{x};
      forall j | 0 <= j < |tail| ensures InOrder(key(xs[0]), key(tail[j]), dir) {
        assert tail[j] in multiset(tail);
        if tail[j] == x {
        } else {
          assert tail[j] in multiset(xs[1..]);
          var k :| 1 <= k < |xs| && xs[k] == tail[j];
        }
      }
    }
  }

  /** A stable insertion sort of `xs` by `key` in direction `dir`. */
  function Sort<T>(xs: seq<T>, key: T -> Key, dir: Direction): seq<T>
  {
    if xs == [] then [] else Insert(xs[0], Sort(xs[1..], key, dir), key, dir)
  }

  /** Sorting yields an ordered permutation of its input. */
  lemma {:induction false} SortCorrect<T>(xs: seq<T>, key: T -> Key, dir: Direction)
    ensures SortedBy(Sort(xs, key, dir), key, dir)
    ensures multiset(Sort(xs, key, dir)) == multiset(xs)
  {
    if xs != [] {
      SortCorrect(xs[1..], key, dir);
      InsertSorted(xs[0], Sort(xs[1..], key, dir), key, dir);
      assert xs == [xs[0]] + xs[1..];
    }
  }

  /** The sort key of an integer column. */
  function IntKey(i: int): (k: Key)
    ensures |k| == 1 && k[0] == i
  {
    [i]
  }

  /** The sort key of a timestamp column: day first, then second. */
  function TimeKey(t: Timestamp): Key
  {
    [t.day, t.second]
  }

  /** The sort key of a text column: its character codes. */
  function TextKey(s: string): (k: Key)
    ensures |k| == |s|
    ensures forall i :: 0 <= i < |s| ==> k[i] == s[i] as int
  {
    seq(|s|, i requires 0 <= i < |s| => s[i] as int)
  }

  lemma TimeKeyOrder(a: Timestamp, b: Timestamp)
    ensures KeyLe(TimeKey(a), TimeKey(b)) <==> a.day < b.day || (a.day == b.day && a.second <= b.second)
  {
    var ka, kb := TimeKey(a), TimeKey(b);
    assert ka[1..] == [a.second] && kb[1..] == [b.second];
    assert KeyLe([a.second], [b.second]) <==> a.second <= b.second by {
      assert [a.second][1..] == [] && [b.second][1..] == [];
    }
  }

  lemma IntKeyOrder(i: int, j: int)
    ensures KeyLe(IntKey(i), IntKey(j)) <==> i <= j
  {
    assert IntKey(i)[1..] == [] && IntKey(j)[1..] == [];
  }
}

=== FILE: paging.dfy ===
/** Page slicing of an ordered result, with the metadata every listing
    endpoint reports (current_page, last_page, per_page, total, from, to).
    This is the model's own slicing, not the framework paginator. */
module Paging {
  import opened Common

  datatype Page<T> = Page(
    items: seq<T>,
    currentPage: nat,
    lastPage: nat,
    perPage: nat,
    total: nat,
    from: Option<nat>,   // 1-based position of the first item on the page
    to: Option<nat>)     // 1-based position of the last item on the page

  /** Number of pages for `total` rows: ceil(total / perPage), at least 1. */
  function LastPage(total: nat, perPage: nat): (n: nat)
    requires perPage >= 1
    ensures n >= 1
    ensures total > 0 ==> (n - 1) * perPage < total <= n * perPage
    ensures total == 0 ==> n == 1
  {
    if total == 0 then 1 else (total - 1) / perPage + 1
  }

  /** Position (0-based) of the first row of page `page`, capped at the end. */
  function PageStart(total: nat, perPage: nat, page: nat): (s: nat)
    requires perPage >= 1 && page >= 1
    ensures s <= total
  {
    if (page - 1) * perPage < total then (page - 1) * perPage else total
  }

  function PageEnd(total: nat, perPage: nat, page: nat): (e: nat)
    requires perPage >= 1 && page >= 1
    ensures PageStart(total, perPage, page) <= e <= total
    ensures e - PageStart(total, perPage, page) <= perPage
  {
    var s := PageStart(total, perPage, page);
    if s + perPage < total then s + perPage else total
  }

  /** Page `page` of `rows` when pages hold `perPage` rows. */
  function Paginate<T>(rows: seq<T>, perPage: nat, page: nat): (p: Page<T>)
    requires perPage >= 1 && page >= 1
    ensures p.total == |rows| && p.perPage == perPage && p.currentPage == page
    ensures |p.items| <= perPage
    ensures p.items == rows[PageStart(|rows|, perPage, page)..PageEnd(|rows|, perPage, page)]
    ensures forall i :: 0 <= i < |p.items| ==> p.items[i] in rows
    ensures p.items == [] <==> p.from.None?
    ensures p.from.Some? ==> (p.from.value == (page - 1) * perPage + 1
                              && p.to == Some(p.from.value + |p.items| - 1))
  {
    var s := PageStart(|rows|, perPage, page);
    var e := PageEnd(|rows|, perPage, page);
    var items := rows[s..e];
    Page(items, page, LastPage(|rows|, perPage), perPage, |rows|,
         if items == [] then None else Some(s + 1),
         if items == [] then None else Some(s + |items|))
  }

  /** Row k (0-based) of the whole result is item k % perPage of page
      k / perPage + 1, so the pages together list every row exactly where
      the ordering put it. */
  lemma RowOnItsPage<T>(rows: seq<T>, perPage: nat, k: nat)
    requires perPage >= 1 && k < |rows|
    ensures var p := Paginate(rows, perPage, k / perPage + 1);
            k % perPage < |p.items| && p.items[k % perPage] == rows[k]
  {
    var page := k / perPage + 1;
    assert (page - 1) * perPage == k - k % perPage;
  }

  /** The page metadata invariant: a non-empty result fills every page
      but the last, and the last page holds the remainder. */
  lemma LastPageHoldsRemainder<T>(rows: seq<T>, perPage: nat)
    requires perPage >= 1 && |rows| > 0
    ensures var n := LastPage(|rows|, perPage);
            |rows| == (n - 1) * perPage + |Paginate(rows, perPage, n).items|
  {
  }

  /** A page past the last one is empty but still reports the totals. */
  lemma PastLastPageIsEmpty<T>(rows: seq<T>, perPage: nat, page: nat)
    requires perPage >= 1 && page > LastPage(|rows|, perPage)
    ensures Paginate(rows, perPage, page).items == []
  {
    var n := LastPage(|rows|, perPage);
    if |rows| > 0 {
      assert (page - 1) * perPage >= n * perPage by {
        assert page - 1 >= n;
      }
    }
  }
}

=== FILE: persistence.dfy ===
/** The database the repositories share: one table per model plus the
    order/product pivot table, which maps an order id to that order's line
    items keyed by product id. */
module Persistence {
  import opened Common
  import opened Tables
  import opened Records

  class Database {
    var customers: Table<Customer>
    var products: Table<Product>
    /** Order statuses have no soft delete. */
    var statuses: map<nat, OrderStatus>
    var orders: Table<Order>
    var lineItems: map<nat, map<nat, LineItem>>

    /** Every order, trashed or not, has an entry in the pivot map (an
        order without products has an empty one), and every stored line
        total is quantity times unit price. */
    ghost predicate Valid()
      reads this
    {
      && lineItems.Keys == orders.Keys
      && forall oid, pid :: oid in lineItems && pid in lineItems[oid] ==>
           LineTotalConsistent(lineItems[oid][pid])
    }

    /** The tables an order write leaves alone. */
    function Catalogue(): (Table<Customer>, Table<Product>, map<nat, OrderStatus>)
      reads this
    {
      (customers, products, statuses)
    }

    constructor()
      ensures Valid()
      ensures customers == map[] && products == map[] && statuses == map[]
      ensures orders == map[] && lineItems == map[]
    {
      customers, products, statuses := map[], map[], map[];
      orders, lineItems := map[], map[];
    }
  }
}

=== FILE: product_index_request.dfy ===
/** The query of the product listing: its rules, the getters with their
    defaults, the filters echoed back, and the filters the listing is
    given. */
module ProductIndexRequest {
  import opened Common
  import opened Validation
  import opened Tables
  import opened Records
  import ProductRepository

  datatype ProductIndexInput = ProductIndexInput(
    status: Input<string>,
    sortBy: Input<string>,
    sortDirection: Input<string>,
    perPage: Input<int>,
    page: Input<int>,
    includeDeleted: Input<bool>)

  /** `Rule::in(['id', 'name', 'price', 'created_at', 'updated_at'])`,
      read as a column of the products table. */
  function SortColumnOf(s: string): (c: Option<ProductRepository.ProductColumn>)
    ensures c.Some? <==> s in ["id", "name", "price", "created_at", "updated_at"]
    ensures c == Some(ProductRepository.ProductCreatedAt) <==> s == "created_at"
  {
    if s == "id" then Some(ProductRepository.ProductId)
    else if s == "name" then Some(ProductRepository.Name)
    else if s == "price" then Some(ProductRepository.Price)
    else if s == "created_at" then Some(ProductRepository.ProductCreatedAt)
    else if s == "updated_at" then Some(ProductRepository.ProductUpdatedAt)
    else None
  }

  datatype ProductIndexField =
    | StatusFilter | SortByParam | SortDirectionParam | PerPageParam | PageParam | IncludeDeletedParam

  const ProductIndexFields: set<ProductIndexField> := {
    StatusFilter, SortByParam, SortDirectionParam, PerPageParam, PageParam, IncludeDeletedParam }

  predicate ProductIndexRule(f: ProductIndexField, r: ProductIndexInput)
  {
    match f
    case StatusFilter => NullableText(r.status, s => s == "active" || s == "inactive")
    case SortByParam => NullableText(r.sortBy, s => SortColumnOf(s).Some?)
    case SortDirectionParam => NullableText(r.sortDirection, s => DirectionOf(s).Some?)
    case PerPageParam => Nullable(r.perPage, (v: int) => 1 <= v <= 100)
    case PageParam => Nullable(r.page, (v: int) => v >= 1)
    case IncludeDeletedParam => true
  }

  predicate RulesHold(r: ProductIndexInput)
  {
    forall f :: f in ProductIndexFields ==> ProductIndexRule(f, r)
  }

  /** The keys of the errors map: exactly the fields whose rules fail. */
  function Errors(r: ProductIndexInput): (errors: set<ProductIndexField>)
    ensures errors == {} <==> RulesHold(r)
    ensures StatusFilter in errors <==>
              Normalized(r.status).Given? && Normalized(r.status).value != "active" && Normalized(r.status).value != "inactive"
    ensures SortByParam in errors <==> !NullableText(r.sortBy, s => SortColumnOf(s).Some?)
    ensures SortDirectionParam in errors <==> !NullableText(r.sortDirection, s => DirectionOf(s).Some?)
    ensures PerPageParam in errors <==> r.perPage.Given? && !(1 <= r.perPage.value <= 100)
    ensures PageParam in errors <==> r.page.Given? && r.page.value < 1
    ensures IncludeDeletedParam !in errors
  {
    var errors := set f | f in ProductIndexFields && !ProductIndexRule(f, r);
    assert errors == {} ==> RulesHold(r) by {
      if errors == {} {
        forall f | f in ProductIndexFields ensures ProductIndexRule(f, r) {
          assert f !in errors;
        }
      }
    }
    errors
  }

  /** failedValidation: 422, success false, 'Validation failed.' and the
      errors map. */
  function Outcome(r: ProductIndexInput): (resp: Option<Response<ProductIndexField>>)
    ensures resp.None? <==> RulesHold(r)
    ensures resp.Some? ==> resp.value == Response(422, false, Some("Validation failed."), Errors(r))
                           && resp.value.errors != {}
  {
    Verdict(Errors(r), Some("Validation failed."))
  }

  function GetStatus(r: ProductIndexInput): Option<string> { OrNull(Normalized(r.status)) }
  /** The getters with the default the `nullable` rule intends. As
      written, a null sort_by, sort_direction, per_page or page fails the
      getter's non-nullable return type instead (EmptyParamsBreakGetters). */
  function GetSortBy(r: ProductIndexInput): string { InputOrDefault(Normalized(r.sortBy), "created_at") }
  function GetSortDirection(r: ProductIndexInput): string { InputOrDefault(Normalized(r.sortDirection), "desc") }
  function GetPerPage(r: ProductIndexInput): int { InputOrDefault(r.perPage, 15) }
  function GetPage(r: ProductIndexInput): int { InputOrDefault(r.page, 1) }
  function ShouldIncludeDeleted(r: ProductIndexInput): bool { r.includeDeleted == Given(true) }

  /** A query that passes the rules yields getters inside the allow-lists
      and bounds. */
  lemma GettersWithinRules(r: ProductIndexInput)
    requires RulesHold(r)
    ensures GetStatus(r).Some? ==> GetStatus(r).value in ["active", "inactive"]
    ensures SortColumnOf(GetSortBy(r)).Some?
    ensures DirectionOf(GetSortDirection(r)).Some?
    ensures 1 <= GetPerPage(r) <= 100 && GetPage(r) >= 1
  {
    assert ProductIndexRule(StatusFilter, r);
    assert ProductIndexRule(SortByParam, r);
    assert ProductIndexRule(SortDirectionParam, r);
    assert ProductIndexRule(PerPageParam, r);
    assert ProductIndexRule(PageParam, r);
  }

  /** The `filters` entry of the listing response. */
  datatype ProductIndexFilters = ProductIndexFilters(status: Option<string>, sortBy: string, sortDirection: string)

  /** getFilters: status, sort_by and sort_direction as the getters read
      them. */
  function GetFilters(r: ProductIndexInput): (f: ProductIndexFilters)
    ensures f.status.Some? <==> Normalized(r.status).Given?
    ensures f.sortBy == GetSortBy(r) && f.sortDirection == GetSortDirection(r)
  {
    ProductIndexFilters(GetStatus(r), GetSortBy(r), GetSortDirection(r))
  }

  /** The filters the product listing is given: the getter values and the
      page size. */
  function ForwardedFilters(r: ProductIndexInput): (f: ProductRepository.ProductFilters)
    requires RulesHold(r)
    ensures f.perPage.Some? && 1 <= f.perPage.value <= 100
    ensures f.sortBy.Some? && f.sortDirection.Some?
    ensures f.status == GetStatus(r)
  {
    GettersWithinRules(r);
    ProductRepository.ProductFilters(GetStatus(r), SortColumnOf(GetSortBy(r)), DirectionOf(GetSortDirection(r)),
                                     Some(GetPerPage(r) as nat))
  }

  /** A valid status filter lists exactly the products of that status. */
  lemma StatusQuerySelectsThatStatus(r: ProductIndexInput, products: Table<Product>, id: nat)
    requires RulesHold(r) && Normalized(r.status).Given?
    ensures id in ProductRepository.OrderedProducts(products, ForwardedFilters(r))
            <==> id in ProductRepository.GetByStatus(products, Normalized(r.status).value)
  {
    GettersWithinRules(r);
    ProductRepository.StatusFilterAgreesWithGetByStatus(products, ForwardedFilters(r), id);
  }

  /** `?sort_by=&sort_direction=&per_page=&page=` passes the `nullable`
      rules, yet the four getters as written (`input(key, default)`) return
      null for it; the intended getters read the defaults. */
  lemma EmptyParamsBreakGetters()
    ensures var r := ProductIndexInput(Missing, Given(""), Given(""), Null, Null, Missing);
            && RulesHold(r)
            && InputOrDefaultAsWritten(Normalized(r.sortBy), "created_at").None?
            && InputOrDefaultAsWritten(Normalized(r.sortDirection), "desc").None?
            && InputOrDefaultAsWritten(r.perPage, 15).None? && InputOrDefaultAsWritten(r.page, 1).None?
            && GetSortBy(r) == "created_at" && GetSortDirection(r) == "desc"
            && GetPerPage(r) == 15 && GetPage(r) == 1
  {
    var r := ProductIndexInput(Missing, Given(""), Given(""), Null, Null, Missing);
    assert forall f :: f in ProductIndexFields ==> ProductIndexRule(f, r);
  }
}

=== FILE: product_repository.dfy ===
/** The product repository: filtered listing, creation with a generated
    sku, the price and status reads, and soft delete / restore. Prices are
    integer cents. */
module ProductRepository {
  import opened Common
  import opened Ordering
  import opened Paging
  import opened Tables
  import opened Records
  import opened Text
  import opened Persistence
  import opened Validation

  /** The columns a product listing may be sorted by. */
  datatype ProductColumn = ProductId | Name | Price | ProductCreatedAt | ProductUpdatedAt

  function ProductKey(column: ProductColumn): (nat, Product) -> Key
  {
    match column
    case ProductId => (id: nat, _: Product) => IntKey(id)
    case Name => (_: nat, p: Product) => TextKey(p.name)
    case Price => (_: nat, p: Product) => IntKey(p.price)
    case ProductCreatedAt => (_: nat, p: Product) => TimeKey(p.createdAt)
    case ProductUpdatedAt => (_: nat, p: Product) => TimeKey(p.updatedAt)
  }

  /** The filters getFilteredProducts reads. */
  datatype ProductFilters = ProductFilters(
    status: Option<string>,
    sortBy: Option<ProductColumn>,
    sortDirection: Option<Direction>,
    perPage: Option<nat>)

  /** A non-empty status filter is an equality match. */
  predicate MatchesProduct(p: Product, f: ProductFilters)
  {
    f.status.Some? && !EmptyText(f.status.value) ==> p.status == f.status.value
  }

  function SortColumn(f: ProductFilters): ProductColumn
  {
    if f.sortBy.Some? then f.sortBy.value else ProductCreatedAt
  }

  function SortDirection(f: ProductFilters): Direction
  {
    if f.sortDirection.Some? then f.sortDirection.value else Desc
  }

  function PerPage(f: ProductFilters): nat
  {
    if f.perPage.Some? then f.perPage.value else 15
  }

  /** The whole ordered result of getFilteredProducts, before paging. */
  function OrderedProducts(products: Table<Product>, f: ProductFilters): (ids: seq<nat>)
    ensures forall id :: id in ids <==> Live(products, id) && MatchesProduct(products[id].data, f)
    ensures forall id :: multiset(ids)[id] <= 1
    ensures SortedBy(ids, RowKey(products, ProductKey(SortColumn(f))), SortDirection(f))
  {
    SortedSelect(products, (_: nat, p: Product) => MatchesProduct(p, f), ProductKey(SortColumn(f)), SortDirection(f))
  }

  /** getFilteredProducts: page `page` of the matching products, by
      sort_by in sort_direction (created_at desc by default), 15 to a page
      by default. */
  function FilteredProducts(products: Table<Product>, f: ProductFilters, page: nat): (p: Page<nat>)
    requires f.perPage.Some? ==> f.perPage.value >= 1
    requires page >= 1
    ensures p.perPage == (if f.perPage.None? then 15 else f.perPage.value)
    ensures forall i :: 0 <= i < |p.items| ==> Live(products, p.items[i]) && MatchesProduct(products[p.items[i]].data, f)
    ensures p.total == |OrderedProducts(products, f)|
    ensures SortedBy(p.items, RowKey(products, ProductKey(SortColumn(f))), SortDirection(f))
    ensures f.sortBy.None? && f.sortDirection.None? ==>
              SortedBy(p.items, RowKey(products, ProductKey(ProductCreatedAt)), Desc)
  {
    var ids := OrderedProducts(products, f);
    SortedSlice(ids, RowKey(products, ProductKey(SortColumn(f))), SortDirection(f),
                PageStart(|ids|, PerPage(f), page), PageEnd(|ids|, PerPage(f), page));
    Paginate(ids, PerPage(f), page)
  }

  /** Sorted by price ascending, the prices on a page never decrease. */
  lemma PriceAscendingPage(products: Table<Product>, f: ProductFilters, page: nat, i: nat, j: nat)
    requires f.sortBy == Some(Price) && f.sortDirection == Some(Asc)
    requires f.perPage.Some? ==> f.perPage.value >= 1
    requires page >= 1
    requires i < j < |FilteredProducts(products, f, page).items|
    ensures var items := FilteredProducts(products, f, page).items;
            products[items[i]].data.price <= products[items[j]].data.price
  {
    var items := FilteredProducts(products, f, page).items;
    assert SortColumn(f) == Price && SortDirection(f) == Asc;
    PriceOrder(products, items, i, j);
  }

  /** Two live products of a price-ascending sequence are in price order. */
  lemma PriceOrder(products: Table<Product>, items: seq<nat>, i: nat, j: nat)
    requires SortedBy(items, RowKey(products, ProductKey(Price)), Asc)
    requires i < j < |items| && items[i] in products && items[j] in products
    ensures products[items[i]].data.price <= products[items[j]].data.price
  {
    var key := RowKey(products, ProductKey(Price));
    assert InOrder(key(items[i]), key(items[j]), Asc);
    IntKeyOrder(products[items[i]].data.price, products[items[j]].data.price);
  }

  /** What a create request hands to createWithSku. */
  datatype ProductData = ProductData(
    name: string,
    description: Option<string>,
    price: int,
    sku: Option<string>,
    status: Option<string>,
    createdBy: Option<UserId>)

  /** `Str::upper(Str::random(8))` for a random draw of eight
      alphanumeric characters. */
  function GeneratedSku(random: string): (sku: string)
    requires |random| == 8 && All(random, (c: char) => IsLetter(c) || IsDigit(c))
    ensures |sku| == 8 && All(sku, IsSkuChar)
  {
    Upper(random)
  }

  /** The defaults createWithSku fills in: a generated sku when the sku is
      empty and 'active' when the status is empty; given values are kept. */
  function WithDefaults(data: ProductData, random: string): (d: ProductData)
    requires |random| == 8 && All(random, (c: char) => IsLetter(c) || IsDigit(c))
    ensures d.sku.Some? && d.status.Some?
    ensures data.sku.Some? && !EmptyText(data.sku.value) ==> d.sku == data.sku
    ensures !(data.sku.Some? && !EmptyText(data.sku.value)) ==> d.sku == Some(GeneratedSku(random))
    ensures data.status.Some? && !EmptyText(data.status.value) ==> d.status == data.status
    ensures !(data.status.Some? && !EmptyText(data.status.value)) ==> d.status == Some("active")
    ensures d.(sku := data.sku, status := data.status) == data
  {
    data.(sku := if data.sku.Some? && !EmptyText(data.sku.value) then data.sku else Some(GeneratedSku(random)),
          status := if data.status.Some? && !EmptyText(data.status.value) then data.status else Some("active"))
  }

  /** createWithSku: fills the defaults, then creates the product. Status
      is not fillable, so the new row carries the column's own default
      (`columnDefault`), whatever status was filled in. */
  method CreateWithSku(db: Database, data: ProductData, random: string, columnDefault: string, now: Timestamp)
    returns (id: nat)
    requires |random| == 8 && All(random, (c: char) => IsLetter(c) || IsDigit(c))
    modifies db
    ensures id !in old(db.products)
    ensures var d := WithDefaults(data, random);
            db.products == old(db.products)[id := Row(Product(d.name, d.description, d.price, d.sku.value,
                                                              columnDefault, d.createdBy, None, now, now), None, false)]
    ensures db.customers == old(db.customers) && db.statuses == old(db.statuses)
    ensures db.orders == old(db.orders) && db.lineItems == old(db.lineItems)
  {
    var d := WithDefaults(data, random);
    var inserted := Inserted(db.products, Product(d.name, d.description, d.price, d.sku.value,
                                                  columnDefault, d.createdBy, None, now, now));
    db.products := inserted.0;
    id := inserted.1;
  }

  /** The sku a new product gets is never empty: the given one, or a
      generated one that meets the length and character parts of the
      request's sku rule (`min:3|max:50|regex:/^[A-Z0-9\-_]+$/`). */
  lemma CreatedSkuNotEmpty(data: ProductData, random: string)
    requires |random| == 8 && All(random, (c: char) => IsLetter(c) || IsDigit(c))
    ensures var sku := WithDefaults(data, random).sku.value;
            !EmptyText(sku) || sku == GeneratedSku(random)
    ensures var sku := WithDefaults(data, random).sku.value;
            !(data.sku.Some? && !EmptyText(data.sku.value)) ==>
              !EmptyText(sku) && LengthIn(sku, 3, 50) && OneOrMore(sku, IsSkuChar)
  {
  }

  /** getByPriceRange: exactly the live products priced between the two
      bounds, both included. */
  function GetByPriceRange(products: Table<Product>, minPrice: int, maxPrice: int): (ids: seq<nat>)
    ensures Increasing(ids)
    ensures forall id :: id in ids <==> Live(products, id) && minPrice <= products[id].data.price <= maxPrice
  {
    Select(products, (p: Product) => minPrice <= p.price <= maxPrice)
  }

  /** getByStatus: the live products with that status. */
  function GetByStatus(products: Table<Product>, status: string): (ids: seq<nat>)
    ensures Increasing(ids)
    ensures forall id :: id in ids <==> Live(products, id) && products[id].data.status == status
  {
    Select(products, (p: Product) => p.status == status)
  }

  /** A non-empty status filter lists exactly the products getByStatus
      returns, in its own order. */
  lemma StatusFilterAgreesWithGetByStatus(products: Table<Product>, f: ProductFilters, id: nat)
    requires f.status.Some? && !EmptyText(f.status.value)
    ensures id in OrderedProducts(products, f) <==> id in GetByStatus(products, f.status.value)
  {
  }

  /** softDelete: a missing or trashed product fails and nothing changes;
      otherwise `deleted_by` is stamped when an actor is given and the
      product is marked deleted, with `updated_at` set to `now`. Line
      items that point at it stay. */
  method SoftDelete(db: Database, id: nat, actor: Option<UserId>, now: Timestamp) returns (ok: bool)
    modifies db
    ensures ok == Live(old(db.products), id)
    ensures db.products == if ok then SoftDeleted(old(db.products), id, actor, ProductTouch(now)) else old(db.products)
    ensures ok ==> db.products[id].trashed && db.products[id].data == old(db.products[id].data).(updatedAt := now)
    ensures db.customers == old(db.customers) && db.statuses == old(db.statuses)
    ensures db.orders == old(db.orders) && db.lineItems == old(db.lineItems)
  {
    ok := Live(db.products, id);
    if ok {
      db.products := SoftDeleted(db.products, id, actor, ProductTouch(now));
    }
  }

  /** restore: succeeds iff the id names a product at all, and clears the
      deleted mark, setting `updated_at` to `now`. */
  method Restore(db: Database, id: nat, now: Timestamp) returns (ok: bool)
    modifies db
    ensures ok == (id in old(db.products))
    ensures db.products == Restored(old(db.products), id, ProductTouch(now))
    ensures ok ==> Live(db.products, id) && db.products[id].data == old(db.products[id].data).(updatedAt := now)
    ensures db.customers == old(db.customers) && db.statuses == old(db.statuses)
    ensures db.orders == old(db.orders) && db.lineItems == old(db.lineItems)
  {
    ok := id in db.products;
    db.products := Restored(db.products, id, ProductTouch(now));
  }
}

=== FILE: product_request.dfy ===
/** The product form request: the rules of a product create and update
    (an update is a request whose route binds a product), and the status
    getter. Weight is a number, prices are text read in cents. */
module ProductRequest {
  import opened Common
  import opened Text
  import opened Validation

  datatype ProductInput = ProductInput(
    name: Input<string>,
    description: Input<string>,
    price: Input<string>,
    sku: Input<string>,
    status: Input<string>,
    weight: Input<real>,
    dimensions: Input<string>,
    tags: Input<seq<string>>)

  /** What the rules look at besides the request: the name and sku
      columns of every product row and `route('product')`. */
  datatype ProductContext = ProductContext(
    names: map<nat, string>,
    skus: map<nat, string>,
    productId: Option<nat>)

  /** `$productId ? ... : ...`: a key of 0 is falsy. */
  predicate IsUpdate(ctx: ProductContext)
  {
    ctx.productId.Some? && ctx.productId.value != 0
  }

  /** `ignore($productId)`: a falsy key ignores no row. */
  function IgnoredId(ctx: ProductContext): Option<nat>
  {
    if IsUpdate(ctx) then ctx.productId else None
  }

  datatype ProductField =
    | NameField | DescriptionField | PriceField | SkuField | WeightField
    | DimensionsField | TagsField | TagField(i: nat)

  const ProductFields: set<ProductField> := {
    NameField, DescriptionField, PriceField, SkuField, WeightField, DimensionsField, TagsField }

  predicate NameText(s: string, ctx: ProductContext)
  {
    LengthIn(s, 2, 255) && OneOrMore(s, IsProductNameChar) && UniqueIgnoring(ctx.names, s, IgnoredId(ctx))
  }

  predicate SkuText(s: string, ctx: ProductContext)
  {
    LengthIn(s, 3, 50) && OneOrMore(s, IsSkuChar) && UniqueIgnoring(ctx.skus, s, IgnoredId(ctx))
  }

  /** sku: `sometimes` on update (a null sku fails the string rule),
      `nullable` on create. */
  predicate SkuRule(x: Input<string>, ctx: ProductContext)
  {
    if IsUpdate(ctx) then Sometimes(Normalized(x), s => SkuText(s, ctx))
    else NullableText(x, s => SkuText(s, ctx))
  }

  /** `tags.*`: a string of at most 50 tag characters (an empty one
      arrives as null and fails). */
  predicate TagRule(t: string)
  {
    OneOrMore(t, IsTagChar) && |t| <= 50
  }

  /** The entries of `tags`, or none when it is absent or null. */
  function Tags(r: ProductInput): seq<string>
  {
    if r.tags.Given? then r.tags.value else []
  }

  /** The rule array entry of each top-level field. */
  predicate ProductRule(f: ProductField, r: ProductInput, ctx: ProductContext)
  {
    match f
    case NameField => RequiredTextOnCreate(IsUpdate(ctx), r.name, s => NameText(s, ctx))
    case DescriptionField => NullableText(r.description, s => LengthIn(s, 10, 2000))
    case PriceField => RequiredTextOnCreate(IsUpdate(ctx), r.price, s => MoneyIn(s, 1, 99999999))
    case SkuField => SkuRule(r.sku, ctx)
    case WeightField => Nullable(r.weight, (w: real) => 0.0 <= w <= 999.99)
    case DimensionsField => NullableText(r.dimensions, s => |s| <= 100 && IsDimensionsText(s))
    case TagsField => Nullable(r.tags, (ts: seq<string>) => |ts| <= 10)
    case TagField(i) => true
  }

  predicate RulesHold(r: ProductInput, ctx: ProductContext)
  {
    && (forall f :: f in ProductFields ==> ProductRule(f, r, ctx))
    && (forall i :: 0 <= i < |Tags(r)| ==> TagRule(Tags(r)[i]))
  }

  /** The keys of the errors map: exactly the fields and tags whose
      rules fail. */
  function Errors(r: ProductInput, ctx: ProductContext): (errors: set<ProductField>)
    ensures errors == {} <==> RulesHold(r, ctx)
    ensures NameField in errors <==> !RequiredTextOnCreate(IsUpdate(ctx), r.name, s => NameText(s, ctx))
    ensures PriceField in errors <==> !RequiredTextOnCreate(IsUpdate(ctx), r.price, s => MoneyIn(s, 1, 99999999))
    ensures SkuField in errors <==> !SkuRule(r.sku, ctx)
    ensures forall i: nat :: TagField(i) in errors <==> i < |Tags(r)| && !TagRule(Tags(r)[i])
  {
    var fields := set f | f in ProductFields && !ProductRule(f, r, ctx);
    var tags := set i: nat | i < |Tags(r)| && !TagRule(Tags(r)[i]) :: TagField(i);
    assert fields + tags == {} ==> RulesHold(r, ctx) by {
      if fields + tags == {} {
        forall f | f in ProductFields ensures ProductRule(f, r, ctx) {
          assert f !in fields;
        }
        forall i: nat | i < |Tags(r)| ensures TagRule(Tags(r)[i]) {
          assert TagField(i) !in tags;
        }
      }
    }
    fields + tags
  }

  /** failedValidation: 422, success false and the errors map, with no
      message. */
  function Outcome(r: ProductInput, ctx: ProductContext): (resp: Option<Response<ProductField>>)
    ensures resp.None? <==> RulesHold(r, ctx)
    ensures resp.Some? ==> resp.value == Response(422, false, None, Errors(r, ctx)) && resp.value.errors != {}
  {
    Verdict(Errors(r, ctx), None)
  }

  /** A create needs a name and a price; an update that passes still
      passes without them. */
  lemma CreateNeedsNameAndPrice(r: ProductInput, ctx: ProductContext)
    requires RulesHold(r, ctx)
    ensures !IsUpdate(ctx) ==> Normalized(r.name).Given? && Normalized(r.price).Given?
    ensures IsUpdate(ctx) ==> RulesHold(r.(name := Missing, price := Missing), ctx)
  {
    assert ProductRule(NameField, r, ctx) && ProductRule(PriceField, r, ctx);
    var r' := r.(name := Missing, price := Missing);
    assert Tags(r') == Tags(r);
    if IsUpdate(ctx) {
      forall f | f in ProductFields ensures ProductRule(f, r', ctx) {
        assert ProductRule(f, r, ctx);
      }
    }
  }

  /** A create may leave the sku out or empty (createWithSku generates
      one), but an update that sends it empty fails. */
  lemma EmptySkuOnlyOnCreate(r: ProductInput, ctx: ProductContext)
    requires r.sku == Given("")
    ensures IsUpdate(ctx) ==> SkuField in Errors(r, ctx)
    ensures !IsUpdate(ctx) ==> SkuField !in Errors(r, ctx)
  {
  }

  /** A valid request's sku, when given, is one no other product row
      holds. */
  lemma ValidSkuIsFree(r: ProductInput, ctx: ProductContext, id: nat)
    requires RulesHold(r, ctx) && Normalized(r.sku).Given?
    requires id in ctx.skus && ctx.productId != Some(id)
    ensures ctx.skus[id] != Normalized(r.sku).value
  {
    assert ProductRule(SkuField, r, ctx);
  }

  /** getStatus: the status as sent, null when absent; no rule checks
      it. */
  function GetStatus(r: ProductInput): (s: Option<string>)
    ensures s.Some? <==> Normalized(r.status).Given?
  {
    OrNull(Normalized(r.status))
  }

  /** The status is not validated: any status leaves the outcome as it
      was. */
  lemma StatusNotValidated(r: ProductInput, ctx: ProductContext, status: Input<string>)
    ensures Outcome(r.(status := status), ctx) == Outcome(r, ctx)
  {
    var r' := r.(status := status);
    assert Tags(r') == Tags(r);
    forall f | f in ProductFields ensures ProductRule(f, r', ctx) == ProductRule(f, r, ctx) {
    }
    assert Errors(r', ctx) == Errors(r, ctx);
  }
}

=== FILE: records.dfy ===
/** The stored entities, one datatype per table. Each holds the columns
    its model's `$fillable` list lets a write set, plus the timestamps;
    money columns are integer cents. */
module Records {
  import opened Common

  datatype Customer = Customer(
    firstName: string,
    lastName: string,
    email: string,
    phone: Option<string>,
    address: Option<string>,
    createdBy: Option<UserId>,
    updatedBy: Option<UserId>,
    createdAt: Timestamp,
    updatedAt: Timestamp)

  /** `status` is a column of the table but not in `$fillable`. */
  datatype Product = Product(
    name: string,
    description: Option<string>,
    price: int,
    sku: string,
    status: string,
    createdBy: Option<UserId>,
    updatedBy: Option<UserId>,
    createdAt: Timestamp,
    updatedAt: Timestamp)

  /** Order statuses are not soft-deleted. */
  datatype OrderStatus = OrderStatus(
    name: string,
    slug: string,
    description: Option<string>,
    color: Option<string>,
    sortOrder: int)

  datatype Order = Order(
    customerId: nat,
    statusId: nat,
    total: int,
    notes: Option<string>,
    createdBy: Option<UserId>,
    updatedBy: Option<UserId>,
    createdAt: Timestamp,
    updatedAt: Timestamp)

  /** What a write at time `now` does to a row's `updated_at`: Eloquent
      refreshes it on every save that writes, on a soft delete and on a
      restore. */
  function OrderTouch(now: Timestamp): Order -> Order
  {
    (o: Order) => o.(updatedAt := now)
  }

  function CustomerTouch(now: Timestamp): Customer -> Customer
  {
    (c: Customer) => c.(updatedAt := now)
  }

  function ProductTouch(now: Timestamp): Product -> Product
  {
    (p: Product) => p.(updatedAt := now)
  }

  /** A row of the order/product pivot table: quantity, the unit price
      frozen at order time and the stored line total. */
  datatype LineItem = LineItem(quantity: int, unitPrice: int, lineTotal: int)

  /** The stored line total is quantity times unit price. */
  predicate LineTotalConsistent(item: LineItem)
  {
    item.lineTotal == item.quantity * item.unitPrice
  }
}

=== FILE: status_repository.dfy ===
/** The order status repository: the catalogue in sort order, the next
    sort order, renumbering, creation with slug and sort-order defaults,
    and the name and slug existence checks. Statuses are never
    soft-deleted. */
module StatusRepository {
  import opened Common
  import opened Ordering
  import opened Tables
  import opened Records
  import opened Persistence

  type Statuses = map<nat, OrderStatus>

  /** The sort key of the `ordered` scope: `sort_order`. */
  function SortOrderKey(statuses: Statuses): nat -> Key
  {
    id => if id in statuses then IntKey(statuses[id].sortOrder) else []
  }

  /** getAllOrdered: every status once, in ascending sort order. */
  function GetAllOrdered(statuses: Statuses): (ids: seq<nat>)
    ensures forall id :: id in ids <==> id in statuses
    ensures forall id :: multiset(ids)[id] <= 1
    ensures SortedBy(ids, SortOrderKey(statuses), Asc)
  {
    var all := SortedKeys(statuses.Keys);
    SortCorrect(all, SortOrderKey(statuses), Asc);
    IncreasingOccursOnce(all);
    Sort(all, SortOrderKey(statuses), Asc)
  }

  /** In the catalogue listing, sort orders never decrease. */
  lemma AllOrderedAscending(statuses: Statuses, i: nat, j: nat)
    requires i < j < |GetAllOrdered(statuses)|
    ensures var ids := GetAllOrdered(statuses);
            ids[i] in statuses && ids[j] in statuses
            && statuses[ids[i]].sortOrder <= statuses[ids[j]].sortOrder
  {
    var ids := GetAllOrdered(statuses);
    assert ids[i] in ids && ids[j] in ids;
    assert InOrder(SortOrderKey(statuses)(ids[i]), SortOrderKey(statuses)(ids[j]), Asc);
    IntKeyOrder(statuses[ids[i]].sortOrder, statuses[ids[j]].sortOrder);
  }

  /** The largest sort order among the listed statuses. */
  function MaxSortOrder(statuses: Statuses, ids: seq<nat>): (m: int)
    requires ids != [] && forall id :: id in ids ==> id in statuses
    ensures exists id :: id in ids && statuses[id].sortOrder == m
    ensures forall id :: id in ids ==> statuses[id].sortOrder <= m
  {
    var last := ids[|ids| - 1];
    if |ids| == 1 then statuses[last].sortOrder
    else
      var m := MaxSortOrder(statuses, ids[..|ids| - 1]);
      assert forall id :: id in ids ==> id in ids[..|ids| - 1] || id == last;
      if statuses[last].sortOrder > m then statuses[last].sortOrder else m
  }

  /** getNextSortOrder: one more than the largest sort order, or 1 when
      there are no statuses. */
  function GetNextSortOrder(statuses: Statuses): (n: int)
    ensures statuses == map[] ==> n == 1
    ensures statuses != map[] ==>
              (forall id :: id in statuses ==> statuses[id].sortOrder < n)
              && (exists id :: id in statuses && statuses[id].sortOrder == n - 1)
  {
    var ids := SortedKeys(statuses.Keys);
    if ids == [] then
      assert statuses.Keys == {};
      1
    else MaxSortOrder(statuses, ids) + 1
  }

  /** updateSortOrder: findOrFail, then `sort_order` changes. A missing id
      fails and nothing changes. */
  method UpdateSortOrder(db: Database, id: nat, sortOrder: int) returns (ok: bool)
    modifies db
    ensures ok == (id in old(db.statuses))
    ensures ok ==> db.statuses == old(db.statuses)[id := old(db.statuses)[id].(sortOrder := sortOrder)]
    ensures !ok ==> db.statuses == old(db.statuses)
    ensures db.customers == old(db.customers) && db.products == old(db.products)
    ensures db.orders == old(db.orders) && db.lineItems == old(db.lineItems)
  {
    ok := id in db.statuses;
    if ok {
      db.statuses := db.statuses[id := db.statuses[id].(sortOrder := sortOrder)];
    }
  }

  /** The statuses after the ids of `ids` have been given sort orders 1,
      2, ... in list order. */
  function Renumbered(statuses: Statuses, ids: seq<nat>): (r: Statuses)
    requires forall id :: id in ids ==> id in statuses
    ensures r.Keys == statuses.Keys
  {
    if ids == [] then statuses
    else
      var prev := Renumbered(statuses, ids[..|ids| - 1]);
      var last := ids[|ids| - 1];
      prev[last := prev[last].(sortOrder := |ids|)]
  }

  /** With distinct ids, the i-th listed status gets sort order i + 1,
      keeps every other column, and unlisted statuses are untouched. */
  lemma {:induction false} RenumberedSpec(statuses: Statuses, ids: seq<nat>, id: nat)
    requires forall x :: x in ids ==> x in statuses
    requires forall i, j :: 0 <= i < j < |ids| ==> ids[i] != ids[j]
    requires id in statuses
    ensures id !in ids ==> Renumbered(statuses, ids)[id] == statuses[id]
    ensures forall i :: 0 <= i < |ids| && ids[i] == id ==>
              Renumbered(statuses, ids)[id] == statuses[id].(sortOrder := i + 1)
  {
    if ids != [] {
      var init := ids[..|ids| - 1];
      assert forall x :: x in init ==> x in ids;
      RenumberedSpec(statuses, init, id);
      forall i | 0 <= i < |ids| && ids[i] == id
        ensures Renumbered(statuses, ids)[id] == statuses[id].(sortOrder := i + 1)
      {
        if i < |ids| - 1 {
          assert init[i] == id;
        }
      }
    }
  }

  /** The position of the first id that names no status, or the length
      of the list when all do. */
  function FirstMissing(statuses: Statuses, ids: seq<nat>): (k: nat)
    ensures k <= |ids|
    ensures forall i :: 0 <= i < k ==> ids[i] in statuses
    ensures k < |ids| ==> ids[k] !in statuses
  {
    if ids == [] || ids[0] !in statuses then 0 else 1 + FirstMissing(statuses, ids[1..])
  }

  /** reorder: renumbers the listed statuses one by one in list order and
      returns true. An id that names no status stops it through
      findOrFail (ok is false) after every earlier id was renumbered. */
  method Reorder(db: Database, ids: seq<nat>) returns (ok: bool)
    modifies db
    ensures var k := FirstMissing(old(db.statuses), ids);
            && (ok <==> k == |ids|)
            && db.statuses == Renumbered(old(db.statuses), ids[..k])
    ensures db.customers == old(db.customers) && db.products == old(db.products)
    ensures db.orders == old(db.orders) && db.lineItems == old(db.lineItems)
  {
    ghost var start := db.statuses;
    var i := 0;
    while i < |ids|
      invariant 0 <= i <= |ids|
      invariant forall j :: 0 <= j < i ==> ids[j] in start
      invariant i <= FirstMissing(start, ids)
      invariant db.statuses == Renumbered(start, ids[..i])
      invariant db.customers == old(db.customers) && db.products == old(db.products)
      invariant db.orders == old(db.orders) && db.lineItems == old(db.lineItems)
    {
      assert db.statuses.Keys == start.Keys;
      var updated := UpdateSortOrder(db, ids[i], i + 1);
      if !updated {
        assert FirstMissing(start, ids) == i;
        return false;
      }
      assert ids[..i + 1][..i] == ids[..i];
      i := i + 1;
    }
    assert ids[..|ids|] == ids;
    ok := true;
  }

  /** A status is used when an order the default scope sees points at it. */
  predicate Used(orders: Table<Order>, statusId: nat)
  {
    exists oid :: oid in orders && !orders[oid].trashed && orders[oid].data.statusId == statusId
  }

  /** getUsedStatuses: the statuses some order points at, in id order. */
  function GetUsedStatuses(statuses: Statuses, orders: Table<Order>): (ids: seq<nat>)
    ensures Increasing(ids)
    ensures forall id :: id in ids <==> id in statuses && Used(orders, id)
  {
    SortedKeys(set id | id in statuses && Used(orders, id))
  }

  /** getUnusedStatuses: the statuses no order points at, in id order. */
  function GetUnusedStatuses(statuses: Statuses, orders: Table<Order>): (ids: seq<nat>)
    ensures Increasing(ids)
    ensures forall id :: id in ids <==> id in statuses && !Used(orders, id)
  {
    SortedKeys(set id | id in statuses && !Used(orders, id))
  }

  /** Used and unused statuses partition the catalogue. */
  lemma UsedUnusedPartition(statuses: Statuses, orders: Table<Order>)
    ensures forall id :: id in statuses <==> id in GetUsedStatuses(statuses, orders) || id in GetUnusedStatuses(statuses, orders)
    ensures forall id :: !(id in GetUsedStatuses(statuses, orders) && id in GetUnusedStatuses(statuses, orders))
    ensures |GetUsedStatuses(statuses, orders)| + |GetUnusedStatuses(statuses, orders)| == |statuses|
  {
    var used := set id | id in statuses && Used(orders, id);
    var unused := set id | id in statuses && !Used(orders, id);
    CatalogueSplits(statuses.Keys, used, unused, (id: nat) => Used(orders, id));
    assert GetUsedStatuses(statuses, orders) == SortedKeys(used);
    assert GetUnusedStatuses(statuses, orders) == SortedKeys(unused);
  }

  /** Splitting a set by a predicate and its negation splits its size. */
  lemma CatalogueSplits(all: set<nat>, used: set<nat>, unused: set<nat>, p: nat -> bool)
    requires used == set id | id in all && p(id)
    requires unused == set id | id in all && !p(id)
    ensures |used| + |unused| == |all|
  {
    assert used + unused == all by {
      forall id | id in all ensures id in used + unused {
        if p(id) { assert id in used; } else { assert id in unused; }
      }
    }
    assert used * unused == {};
  }

  /** What a create request hands to createWithSlug; a sort order of 0
      counts as empty, like a missing one. */
  datatype StatusData = StatusData(
    name: string,
    slug: Option<string>,
    description: Option<string>,
    color: Option<string>,
    sortOrder: Option<int>)

  /** The status createWithSlug stores: the slug derived from the name
      (`slugOfName`, what `Str::slug` returns) when the slug is empty, and
      the next sort order when the sort order is empty or 0. */
  function WithDefaults(data: StatusData, slugOfName: string, statuses: Statuses): (s: OrderStatus)
    ensures s.name == data.name && s.description == data.description && s.color == data.color
    ensures s.slug == (if data.slug.Some? && data.slug.value != "" && data.slug.value != "0" then data.slug.value else slugOfName)
    ensures data.sortOrder.Some? && data.sortOrder.value != 0 ==> s.sortOrder == data.sortOrder.value
    ensures !(data.sortOrder.Some? && data.sortOrder.value != 0) ==>
              s.sortOrder == GetNextSortOrder(statuses)
              && (statuses == map[] ==> s.sortOrder == 1)
              && forall id :: id in statuses ==> statuses[id].sortOrder < s.sortOrder
  {
    var slug := if data.slug.Some? && data.slug.value != "" && data.slug.value != "0" then data.slug.value else slugOfName;
    var sortOrder := if data.sortOrder.Some? && data.sortOrder.value != 0 then data.sortOrder.value
                     else GetNextSortOrder(statuses);
    OrderStatus(data.name, slug, data.description, data.color, sortOrder)
  }

  /** createWithSlug: the defaulted status under a new id. */
  method CreateWithSlug(db: Database, data: StatusData, slugOfName: string) returns (id: nat)
    modifies db
    ensures id !in old(db.statuses)
    ensures db.statuses == old(db.statuses)[id := WithDefaults(data, slugOfName, old(db.statuses))]
    ensures db.customers == old(db.customers) && db.products == old(db.products)
    ensures db.orders == old(db.orders) && db.lineItems == old(db.lineItems)
  {
    id := NextId(db.statuses.Keys);
    db.statuses := db.statuses[id := WithDefaults(data, slugOfName, db.statuses)];
  }

  /** `if ($excludeId)`: a null or 0 id excludes nothing. */
  predicate Excluded(id: nat, excludeId: Option<int>)
  {
    excludeId.Some? && excludeId.value != 0 && id == excludeId.value
  }

  /** The ids of `where(column, value)->where('id', '!=', excludeId)`. */
  function MatchingIds(statuses: Statuses, p: OrderStatus -> bool, excludeId: Option<int>): (ids: seq<nat>)
    ensures forall id :: id in ids <==> id in statuses && p(statuses[id]) && !Excluded(id, excludeId)
  {
    SortedKeys(set id | id in statuses && p(statuses[id]) && !Excluded(id, excludeId))
  }

  /** Some status other than the excluded one satisfies `p`: the
      `where(...)->when($excludeId, ...)->exists()` query both checks
      run. */
  function AnyMatching(statuses: Statuses, p: OrderStatus -> bool, excludeId: Option<int>): (b: bool)
    ensures b <==> exists id :: id in statuses && p(statuses[id]) && !Excluded(id, excludeId)
  {
    var ids := MatchingIds(statuses, p, excludeId);
    if ids != [] then assert ids[0] in ids; true else false
  }

  /** nameExists: some status other than the excluded one has the name. */
  function NameExists(statuses: Statuses, name: string, excludeId: Option<int>): (b: bool)
    ensures b <==> exists id :: id in statuses && statuses[id].name == name && !Excluded(id, excludeId)
  {
    AnyMatching(statuses, (s: OrderStatus) => s.name == name, excludeId)
  }

  /** slugExists: some status other than the excluded one has the slug. */
  function SlugExists(statuses: Statuses, slug: string, excludeId: Option<int>): (b: bool)
    ensures b <==> exists id :: id in statuses && statuses[id].slug == slug && !Excluded(id, excludeId)
  {
    AnyMatching(statuses, (s: OrderStatus) => s.slug == slug, excludeId)
  }

  /** Renaming a status to its own name does not clash with itself, while
      a check that excludes nothing sees it. */
  lemma NameExistsExcludesOnlyItself(statuses: Statuses, id: nat)
    requires id in statuses
    requires forall other :: other in statuses && other != id ==> statuses[other].name != statuses[id].name
    ensures !NameExists(statuses, statuses[id].name, Some(id as int)) || id == 0
    ensures NameExists(statuses, statuses[id].name, None)
    ensures NameExists(statuses, statuses[id].name, Some(0))
  {
  }
}

=== FILE: tables.dfy ===
/** A database table of a model that uses soft deletes: a map from id to
    row, where a row carries its data, the `deleted_by` stamp and the
    soft-delete mark (`deleted_at` is set). Rows are never physically
    removed. The default scope hides marked rows; `withTrashed` sees all
    rows and `onlyTrashed` only the marked ones. */
module Tables {
  import opened Common
  import opened Ordering

  datatype Row<R> = Row(data: R, deletedBy: Option<UserId>, trashed: bool)

  type Table<R> = map<nat, Row<R>>

  /** `id` names a row the default scope can see: what `find` returns and
      what `findOrFail` and route model binding accept. */
  predicate Live<R>(t: Table<R>, id: nat)
  {
    id in t && !t[id].trashed
  }

  /** The ids of the rows the default scope sees whose data satisfies
      `p` (a `where` over the model), in id order. */
  function Select<R>(t: Table<R>, p: R -> bool): (ids: seq<nat>)
    ensures Increasing(ids)
    ensures forall id :: id in ids <==> Live(t, id) && p(t[id].data)
  {
    SortedKeys(set id | id in t && !t[id].trashed && p(t[id].data))
  }

  /** The ids the default scope lists, in id order. */
  function LiveIds<R>(t: Table<R>): (ids: seq<nat>)
    ensures Increasing(ids)
    ensures forall id :: id in ids <==> Live(t, id)
  {
    Select(t, _ => true)
  }

  /** The ids `onlyTrashed()->get()` lists, in id order. */
  function TrashedIds<R>(t: Table<R>): (ids: seq<nat>)
    ensures Increasing(ids)
    ensures forall id :: id in ids <==> id in t && t[id].trashed
  {
    SortedKeys(set id | id in t && t[id].trashed)
  }

  /** The sort key of a row id: the key of the row's column value (a
      column is read from the id and the data of a row). */
  function RowKey<R>(t: Table<R>, column: (nat, R) -> Key): nat -> Key
  {
    id => if id in t then column(id, t[id].data) else []
  }

  /** The live rows satisfying a condition that may read the row's id
      (as `has` and `doesntHave` on a relation do), in id order. */
  function SelectRows<R>(t: Table<R>, p: (nat, R) -> bool): (ids: seq<nat>)
    ensures Increasing(ids)
    ensures forall id :: id in ids <==> Live(t, id) && p(id, t[id].data)
  {
    SortedKeys(set id | id in t && !t[id].trashed && p(id, t[id].data))
  }

  /** A `where ... orderBy(column, dir)` query: every live row satisfying
      `p` appears exactly once, and the rows come in column order. */
  function SortedSelect<R>(t: Table<R>, p: (nat, R) -> bool, column: (nat, R) -> Key, dir: Direction): (ids: seq<nat>)
    ensures forall id :: id in ids <==> Live(t, id) && p(id, t[id].data)
    ensures forall id :: multiset(ids)[id] <= 1
    ensures SortedBy(ids, RowKey(t, column), dir)
  {
    var selected := SelectRows(t, p);
    SortCorrect(selected, RowKey(t, column), dir);
    IncreasingOccursOnce(selected);
    Sort(selected, RowKey(t, column), dir)
  }

  /** The table after `create`: a new live row under the next id. */
  function Inserted<R>(t: Table<R>, data: R): (r: (Table<R>, nat))
    ensures r.1 !in t && r.0 == t[r.1 := Row(data, None, false)]
  {
    var id := NextId(t.Keys);
    (t[id := Row(data, None, false)], id)
  }

  /** The table after `softDelete(id, actor)` on a live row: `deleted_by`
      is stamped when an actor is given (kept otherwise), then the row is
      marked deleted. `touch` is what the write does to the row's data:
      it refreshes `updated_at`. */
  function SoftDeleted<R>(t: Table<R>, id: nat, actor: Option<UserId>, touch: R -> R): Table<R>
    requires Live(t, id)
  {
    var row := t[id];
    t[id := Row(touch(row.data), if actor.Some? then actor else row.deletedBy, true)]
  }

  /** The table after `withTrashed()->where('id', id)->restore()`: the
      query's update clears the mark of the row when it exists at all,
      trashed or not, and refreshes its `updated_at` (`touch`);
      `deleted_by` stays. */
  function Restored<R>(t: Table<R>, id: nat, touch: R -> R): Table<R>
  {
    if id in t then t[id := Row(touch(t[id].data), t[id].deletedBy, false)] else t
  }

  /** A soft delete hides exactly the deleted row, touches its data, and
      changes no other row. */
  lemma SoftDeleteHides<R>(t: Table<R>, id: nat, actor: Option<UserId>, touch: R -> R)
    requires Live(t, id)
    ensures var t' := SoftDeleted(t, id, actor, touch);
            && t'.Keys == t.Keys
            && !Live(t', id) && t'[id].data == touch(t[id].data)
            && (actor.Some? ==> t'[id].deletedBy == actor)
            && (actor.None? ==> t'[id].deletedBy == t[id].deletedBy)
            && (forall other :: other != id && other in t ==> t'[other] == t[other])
  {
  }

  /** Restoring right after a soft delete gives back the row as it was,
      except for the `deleted_by` stamp the delete recorded and the
      touch, which a second application does not change further (as
      setting `updated_at` to the same time twice). */
  lemma RestoreUndoesSoftDelete<R>(t: Table<R>, id: nat, actor: Option<UserId>, touch: R -> R)
    requires Live(t, id)
    requires touch(touch(t[id].data)) == touch(t[id].data)
    ensures Restored(SoftDeleted(t, id, actor, touch), id, touch)
            == t[id := Row(touch(t[id].data), if actor.Some? then actor else t[id].deletedBy, false)]
    ensures touch(t[id].data) == t[id].data && actor.None? ==>
              Restored(SoftDeleted(t, id, actor, touch), id, touch) == t
  {
  }

  /** A soft-deleted row leaves the default listing and enters the
      trashed listing; restoring moves it back. */
  lemma SoftDeleteMovesBetweenListings<R>(t: Table<R>, id: nat, actor: Option<UserId>, touch: R -> R)
    requires Live(t, id)
    ensures id !in LiveIds(SoftDeleted(t, id, actor, touch)) && id in TrashedIds(SoftDeleted(t, id, actor, touch))
    ensures id in LiveIds(Restored(SoftDeleted(t, id, actor, touch), id, touch))
  {
  }
}

=== FILE: text.dfy ===
/** Character classes and the regular expressions of the validation rules,
    written as predicates over strings, plus decimal money text.

    Character classes follow PCRE without the /u flag, as the rules use
    them: `\d` is an ASCII digit, `\s` is space, tab, line feed, vertical
    tab, form feed or carriage return, and `a-zA-Z` are ASCII letters. */
module Text {

  predicate IsDigit(c: char) { '0' <= c <= '9' }
  predicate IsUpper(c: char) { 'A' <= c <= 'Z' }
  predicate IsLower(c: char) { 'a' <= c <= 'z' }
  predicate IsLetter(c: char) { IsUpper(c) || IsLower(c) }
  predicate IsSpace(c: char)
  {
    c == ' ' || c == '\t' || c == '\n' || c == '\r' || c == 11 as char || c == 12 as char
  }

  /** Every character of `s` belongs to the class `cls`. */
  predicate All(s: string, cls: char -> bool)
  {
    forall i :: 0 <= i < |s| ==> cls(s[i])
  }

  /** `^[cls]+$`: one or more characters, all of class `cls`. */
  predicate OneOrMore(s: string, cls: char -> bool)
  {
    |s| >= 1 && All(s, cls)
  }

  predicate AllDigits(s: string) { All(s, IsDigit) }

  /** `[a-zA-Z\s\-\']`: the person-name and place-name class. */
  predicate IsNameChar(c: char) { IsLetter(c) || IsSpace(c) || c == '-' || c == '\'' }

  /** `[a-zA-Z0-9\s\-]`: the postal-code class. */
  predicate IsPostalChar(c: char) { IsLetter(c) || IsDigit(c) || IsSpace(c) || c == '-' }

  /** `[a-zA-Z0-9\s\-_&.,()]`: the product-name class. */
  predicate IsProductNameChar(c: char)
  {
    IsLetter(c) || IsDigit(c) || IsSpace(c) || c in "-_&.,()"
  }

  /** `[A-Z0-9\-_]`: the sku class. */
  predicate IsSkuChar(c: char) { IsUpper(c) || IsDigit(c) || c == '-' || c == '_' }

  /** `[a-zA-Z0-9\s\-_]`: the tag class. */
  predicate IsTagChar(c: char) { IsLetter(c) || IsDigit(c) || IsSpace(c) || c == '-' || c == '_' }

  /** `^[A-Z]{3}$` */
  predicate IsCurrencyText(s: string) { |s| == 3 && All(s, IsUpper) }

  /** `^\+[1-9]\d{0,15}$` */
  predicate IsPhoneText(s: string)
  {
    2 <= |s| <= 17 && s[0] == '+' && '1' <= s[1] <= '9' && AllDigits(s[2..])
  }

  /** `^\d+x\d+x\d+$` */
  predicate IsDimensionsText(s: string)
  {
    exists i, j :: 0 < i && i + 1 < j && j + 1 < |s| && s[i] == 'x' && s[j] == 'x'
      && AllDigits(s[..i]) && AllDigits(s[i + 1..j]) && AllDigits(s[j + 1..])
  }

  /** `^\d+(\.\d{1,2})?$`: an unsigned decimal with at most two
      fractional digits. */
  predicate IsMoneyText(s: string)
  {
    || OneOrMore(s, IsDigit)
    || (|s| >= 3 && s[|s| - 2] == '.' && OneOrMore(s[..|s| - 2], IsDigit) && IsDigit(s[|s| - 1]))
    || (|s| >= 4 && s[|s| - 3] == '.' && OneOrMore(s[..|s| - 3], IsDigit) && AllDigits(s[|s| - 2..]))
  }

  function DigitValue(c: char): (d: nat)
    requires IsDigit(c)
    ensures d < 10
  {
    (c as int - '0' as int) as nat
  }

  function DigitChar(d: nat): (c: char)
    requires d < 10
    ensures IsDigit(c) && DigitValue(c) == d
  {
    ('0' as int + d) as char
  }

  /** The number a string of decimal digits denotes. */
  function NatOf(s: string): nat
    requires AllDigits(s)
  {
    if s == [] then 0 else NatOf(s[..|s| - 1]) * 10 + DigitValue(s[|s| - 1])
  }

  /** The shortest decimal digits of `n`, as a number prints. */
  function Digits(n: nat): (s: string)
    ensures OneOrMore(s, IsDigit)
  {
    if n < 10 then [DigitChar(n)] else Digits(n / 10) + [DigitChar(n % 10)]
  }

  lemma {:induction false} NatOfDigits(n: nat)
    ensures NatOf(Digits(n)) == n
  {
    if n >= 10 {
      NatOfDigits(n / 10);
      var s := Digits(n);
      assert s[..|s| - 1] == Digits(n / 10);
    }
  }

  /** The amount, in cents, that money text denotes. */
  function Cents(s: string): nat
    requires IsMoneyText(s)
  {
    if OneOrMore(s, IsDigit) then NatOf(s) * 100
    else if s[|s| - 2] == '.' then NatOf(s[..|s| - 2]) * 100 + DigitValue(s[|s| - 1]) * 10
    else NatOf(s[..|s| - 3]) * 100 + NatOf(s[|s| - 2..])
  }

  /** How a non-negative amount of `c` cents prints as a number: the
      shortest decimal form ("10", "10.5", "10.55"). This is the text
      the rules see when a client sends the amount as a JSON number. */
  function NumberText(c: nat): string
  {
    if c % 100 == 0 then Digits(c / 100)
    else if c % 10 == 0 then Digits(c / 100) + "." + [DigitChar(c % 100 / 10)]
    else Digits(c / 100) + "." + [DigitChar(c % 100 / 10), DigitChar(c % 10)]
  }

  /** `toFixed(2)` of a non-negative amount of `c` cents. */
  function FixedText(c: nat): string
  {
    Digits(c / 100) + "." + [DigitChar(c % 100 / 10), DigitChar(c % 10)]
  }

  lemma NatOfTwoDigits(a: nat, b: nat)
    requires a < 10 && b < 10
    ensures NatOf([DigitChar(a), DigitChar(b)]) == a * 10 + b
  {
    var s := [DigitChar(a), DigitChar(b)];
    assert s[..1] == [DigitChar(a)];
    assert NatOf([DigitChar(a)]) == a by {
      assert [DigitChar(a)][..0] == [];
    }
    assert NatOf(s) == NatOf(s[..1]) * 10 + DigitValue(s[1]);
  }

  /** An amount of cents as whole units, tens of cents and cents. */
  lemma DecimalSplit(c: nat)
    ensures c == c / 100 * 100 + c % 100 / 10 * 10 + c % 10
  {
  }

  /** Whole units followed by one decimal digit. */
  lemma OneDecimalCents(n: nat, d: nat)
    requires d < 10
    ensures var s := Digits(n) + "." + [DigitChar(d)];
            IsMoneyText(s) && Cents(s) == n * 100 + d * 10
  {
    var s := Digits(n) + "." + [DigitChar(d)];
    NatOfDigits(n);
    assert s[..|s| - 2] == Digits(n);
    assert !OneOrMore(s, IsDigit) by { assert !IsDigit(s[|s| - 2]); }
  }

  /** Whole units followed by two decimal digits. */
  lemma TwoDecimalCents(n: nat, a: nat, b: nat)
    requires a < 10 && b < 10
    ensures var s := Digits(n) + "." + [DigitChar(a), DigitChar(b)];
            IsMoneyText(s) && Cents(s) == n * 100 + a * 10 + b
  {
    var s := Digits(n) + "." + [DigitChar(a), DigitChar(b)];
    NatOfDigits(n);
    assert s[..|s| - 3] == Digits(n);
    assert s[|s| - 2..] == [DigitChar(a), DigitChar(b)];
    NatOfTwoDigits(a, b);
    assert !OneOrMore(s, IsDigit) by { assert !IsDigit(s[|s| - 3]); }
  }

  /** Any amount printed as a number passes the two-decimal rule and
      reads back as the same number of cents. */
  lemma NumberTextRoundTrip(c: nat)
    ensures IsMoneyText(NumberText(c)) && Cents(NumberText(c)) == c
  {
    DecimalSplit(c);
    if c % 100 == 0 {
      NatOfDigits(c / 100);
    } else if c % 10 == 0 {
      OneDecimalCents(c / 100, c % 100 / 10);
    } else {
      TwoDecimalCents(c / 100, c % 100 / 10, c % 10);
    }
  }

  /** The same holds for the `toFixed(2)` form. */
  lemma FixedTextRoundTrip(c: nat)
    ensures IsMoneyText(FixedText(c)) && Cents(FixedText(c)) == c
  {
    DecimalSplit(c);
    TwoDecimalCents(c / 100, c % 100 / 10, c % 10);
  }

  /** `s` contains `t` as a contiguous substring (SQL `LIKE '%t%'`). */
  predicate Contains(s: string, t: string)
  {
    exists i :: 0 <= i <= |s| && StartsWith(s[i..], t)
  }

  /** ASCII lower-casing of one character. */
  function LowerChar(c: char): char
  {
    if IsUpper(c) then (c as int + 32) as char else c
  }

  /** ASCII lower-casing, the case folding of a case-insensitive
      comparison. */
  function Lower(s: string): (r: string)
    ensures |r| == |s| && forall i :: 0 <= i < |s| ==> r[i] == LowerChar(s[i])
  {
    seq(|s|, i requires 0 <= i < |s| => LowerChar(s[i]))
  }

  /** ASCII upper-casing of one character. */
  function UpperChar(c: char): char
  {
    if IsLower(c) then (c as int - 32) as char else c
  }

  /** `Str::upper` on ASCII text. */
  function Upper(s: string): (r: string)
    ensures |r| == |s| && forall i :: 0 <= i < |s| ==> r[i] == UpperChar(s[i])
  {
    seq(|s|, i requires 0 <= i < |s| => UpperChar(s[i]))
  }

  /** PHP's `empty()` on a string: the empty string and "0". */
  predicate EmptyText(s: string)
  {
    s == "" || s == "0"
  }

  /** `s` ends with `t` (SQL `LIKE '%t'`). */
  predicate EndsWith(s: string, t: string)
  {
    |t| <= |s| && s[|s| - |t|..] == t
  }

  /** `s` starts with `t`. */
  predicate StartsWith(s: string, t: string)
  {
    |t| <= |s| && s[..|t|] == t
  }
}

=== FILE: validation.dfy ===
/** The building blocks the form requests' rule arrays are made of.

    A request field is an `Input`: absent, an explicit null, or a value.
    String fields are read as they arrive after the framework's
    empty-string-to-null conversion, so an empty string counts as null.
    A rule's type (`integer`, `string`, `array`, `boolean`) is the Dafny
    type of the field; the remaining checks are the `rule` predicate. */
module Validation {
  import opened Common
  import opened Text

  /** An empty string arrives as null. */
  function Normalized(x: Input<string>): (r: Input<string>)
    ensures r.Given? ==> r.value != ""
    ensures x.Missing? <==> r.Missing?
  {
    if x == Given("") then Null else x
  }

  /** `required`: present, not null, and passing the field's rules. */
  predicate Required<T>(x: Input<T>, rule: T -> bool)
  {
    x.Given? && rule(x.value)
  }

  /** `sometimes`: absent, or present and passing (a null fails the
      type rule). */
  predicate Sometimes<T>(x: Input<T>, rule: T -> bool)
  {
    x.Missing? || (x.Given? && rule(x.value))
  }

  /** `nullable`: absent, null, or passing. */
  predicate Nullable<T>(x: Input<T>, rule: T -> bool)
  {
    !x.Given? || rule(x.value)
  }

  /** `$id ? 'sometimes' : 'required'`: required when creating, optional
      when updating. */
  predicate RequiredOnCreate<T>(isUpdate: bool, x: Input<T>, rule: T -> bool)
  {
    if isUpdate then Sometimes(x, rule) else Required(x, rule)
  }

  predicate RequiredText(x: Input<string>, rule: string -> bool)
  {
    Required(Normalized(x), rule)
  }

  predicate NullableText(x: Input<string>, rule: string -> bool)
  {
    Nullable(Normalized(x), rule)
  }

  predicate RequiredTextOnCreate(isUpdate: bool, x: Input<string>, rule: string -> bool)
  {
    RequiredOnCreate(isUpdate, Normalized(x), rule)
  }

  /** `min:lo|max:hi` on a string: its length in characters. */
  predicate LengthIn(s: string, lo: nat, hi: nat)
  {
    lo <= |s| <= hi
  }

  /** `numeric|min:lo|max:hi|regex:/^\d+(\.\d{1,2})?$/` with the bounds in
      cents. */
  predicate MoneyIn(s: string, lo: nat, hi: nat)
  {
    IsMoneyText(s) && lo <= Cents(s) <= hi
  }

  /** Any amount inside the bounds, sent as a number, passes the money
      rule. */
  lemma AmountPassesMoneyRule(c: nat, lo: nat, hi: nat)
    requires lo <= c <= hi
    ensures MoneyIn(NumberText(c), lo, hi)
  {
    NumberTextRoundTrip(c);
  }

  /** `Rule::in(['asc', 'desc'])` on sort_direction, read as a
      direction. */
  function DirectionOf(s: string): (d: Option<Direction>)
    ensures d.Some? <==> s == "asc" || s == "desc"
    ensures d == Some(Asc) <==> s == "asc"
  {
    if s == "asc" then Some(Asc) else if s == "desc" then Some(Desc) else None
  }

  /** `$this->input(key, default)` returned from a getter whose return
      type is not nullable, as written: the default when the key is
      absent and the value when it is present. A present null is returned
      as it is and the return type rejects it, so the request fails
      (None). */
  function InputOrDefaultAsWritten<T>(x: Input<T>, default: T): (r: Option<T>)
    ensures r.None? <==> x.Null?
  {
    match x
    case Missing => Some(default)
    case Null => None
    case Given(v) => Some(v)
  }

  /** The getter as its `nullable` rule intends it: the default when the
      key is absent or null, the value otherwise. */
  function InputOrDefault<T>(x: Input<T>, default: T): (r: T)
    ensures x.Given? ==> r == x.value
    ensures !x.Given? ==> r == default
    ensures InputOrDefaultAsWritten(x, default) == Some(r) || x.Null?
  {
    if x.Given? then x.value else default
  }

  /** The value of a nullable input, null when absent. */
  function OrNull<T>(x: Input<T>): (r: Option<T>)
    ensures r.Some? <==> x.Given?
  {
    if x.Given? then Some(x.value) else None
  }

  /** `Rule::unique(table, column)->ignore($id)`: no row other than the
      ignored one holds the value. The rule queries the table directly,
      so soft-deleted rows count. */
  predicate UniqueIgnoring<T(==)>(column: map<nat, T>, v: T, ignore: Option<nat>)
  {
    forall id :: id in column && ignore != Some(id) ==> column[id] != v
  }

  /** A JSON response: the status code, the `success` flag, an optional
      `message`, and the keys of the errors map (each request names its
      fields with a datatype of its own). */
  datatype Response<K> = Response(status: nat, success: bool, message: Option<string>, errors: set<K>)

  /** The validator's verdict: a request passes iff its errors map is
      empty, and otherwise failedValidation answers 422 with success false
      and that map; the index requests add the message 'Validation
      failed.'. */
  function Verdict<K>(errors: set<K>, message: Option<string>): (resp: Option<Response<K>>)
    ensures resp.None? <==> errors == {}
    ensures resp.Some? ==> resp.value == Response(422, false, message, errors)
  {
    if errors == {} then None else Some(Response(422, false, message, errors))
  }
}
